=== FILE: README.md ===
# obcosmetique storefront: a Dafny model

This project models the logic of the obcosmetique shop, a Next.js storefront for
cosmetics backed by MySQL. The model is in Dafny 4.11 and leaves out the SQL and
React plumbing.

- **The store.** The eight tables (`products`, `product_images`,
  `product_ingredients`, `product_translations`, `ingredient_translations`,
  `orders`, `order_items`, `subscribers`) and the view counter are sequences of
  rows in one immutable `Store` (module `Schema`).
- **Data-layer functions.** Each one in lib/db-server.ts and lib/db.ts is a
  function `Store -> (Store, result)`:
  - `CatalogRead` holds the reads and the assembly of the `Product` aggregate.
  - `CatalogWrite`, `Orders` and `SiteData` hold the writes.
  - A database error is a `fails` parameter. A failed transaction returns the
    store it was given, together with the source's sentinel (`null`, `false`
    or `[]`).
  - Both variants of `createProduct` and `updateProduct` are kept.
- **The API routes** that guard writes (`Routes`). Each returns the next store
  together with the HTTP response.
- **The client-side logic**:
  - the cart and the quantity picker (`Cart`, `QuantityPicker`);
  - the checkout and newsletter forms (`Checkout`, `Newsletter`);
  - the admin product editor (`ProductForm`, `Slug`);
  - the locale middleware (`Middleware`);
  - the footer's language switch (`Footer`);
  - the product card (`ProductCard`);
  - the sitemap (`Sitemap`);
  - the three admin list pages (`AdminOrders`, `AdminSubscribers`, `AdminProducts`).
- **Shared pieces.** The two regular expressions (`Patterns`) and the JavaScript
  string primitives they rely on (`Text`) are modelled once and shared. So is
  `ORDER BY displayOrder`, a stable sort on a rank (`Ranking`).

The proofs connect the layers:
- a product created through the route reads back with the images, ingredients
  and translations it was given, unless a translated ingredient list of two or
  more entries holds a `null`: then the read's `.sort` throws and the product
  cannot be read at all (see "## Findings");
- an update replaces exactly what its payload names;
- a delete cascades to the child tables but not to order items, which then drop
  out of order details;
- the cart keeps product ids distinct;
- a generated slug is slug-shaped and idempotent;
- the middleware's redirects never loop;
- the newsletter form sends only addresses the subscribe route accepts. The
  product form, though, lets through a zero price that the create route refuses.

## Model

| member | source | states |
|---|---|---|
| Cart.IndexOf | lib/cart.ts:27 | finds an entry exactly when the cart holds one for the product id, and the index it gives points at such an entry |
| Cart.AddItem | lib/cart.ts:25-40 | for a product already in the cart, the length is unchanged and only the matching entry gains `quantity`, keeping its stored product; for a new product exactly one entry is appended at the end |
| Cart.AddOne | lib/cart.ts:25 | the default quantity is 1: a new product is appended with quantity 1, and a product already in the cart gains exactly one |
| Cart.RemoveItem | lib/cart.ts:43-47 | afterwards no entry has the id; every other entry survives and nothing new appears; an absent id leaves the cart as it was |
| Cart.UpdateQuantity | lib/cart.ts:49-55 | a quantity below 1 changes nothing; otherwise only the entries for the id get exactly that quantity, the rest are untouched |
| Cart.ClearCart | lib/cart.ts:57-59 | the cleared cart has item count 0, total 0 and (trivially) distinct ids |
| Cart.SumSnoc | lib/cart.ts:61-67 | the `reduce` folds of `getItemCount`/`getTotal` grow by the appended entry's share; `Cart.SumOf` is that fold, and `Cart.ItemCount` and `Cart.Total` are its two instances |
| Cart.SumChangeAt | lib/cart.ts:61-67 | replacing one entry changes a fold by the difference of the two shares |
| Cart.SumWithout | lib/cart.ts:61-67 | cutting out one entry removes exactly its share from a fold |
| Cart.AddItemKeepsIdsUnique | lib/cart.ts:25-40 | `addItem` preserves the invariant that product ids in the cart are pairwise distinct |
| Cart.RemoveItemKeepsIdsUnique | lib/cart.ts:43-47 | `removeItem` preserves distinct product ids |
| Cart.UpdateQuantityKeepsIdsUnique | lib/cart.ts:49-55 | `updateQuantity` preserves distinct product ids |
| Cart.FilterKeepsUnique | lib/cart.ts:45 | any `filter` of a cart with distinct ids still has distinct ids |
| Cart.OnlyEntry | lib/cart.ts:27 | with distinct ids the entry `find` returns is the only one for its product |
| Cart.AddExisting | lib/cart.ts:29-34 | for a product present once, `addItem` is a point update of that entry's quantity |
| Cart.AddExistingFolds | lib/cart.ts:29-34 | adding to an existing entry raises the count by `quantity` and the total by the stored price times `quantity` (also lines 61-67) |
| Cart.AddItemFolds | lib/cart.ts:25-40 | on a cart with distinct ids, `addItem` raises `getItemCount` by `quantity` and `getTotal` by price times `quantity`, using the stored product's price when the product was already there (also lines 61-67) |
| Cart.AddedIsInCart | lib/cart.ts:25-40 | after `addItem` the product is in the cart |
| Cart.RemovePresent | lib/cart.ts:43-47 | with distinct ids, removing an entry's id cuts out exactly that entry and keeps the others in order |
| Cart.RemoveItemFolds | lib/cart.ts:43-47 | removing a present product lowers the count by its quantity and the total by its line total (also lines 61-67) |
| Cart.AddThenRemove | lib/cart.ts:37-39 | adding a product that was not there and removing it again restores the cart (also lines 43-47) |
| Cart.UpdateQuantitySets | lib/cart.ts:49-55 | a quantity of at least 1 is set exactly on the entry, and the count changes by the difference (also lines 61-67) |
| Cart.PositiveQuantities | lib/cart.ts:25-55 | positive quantities survive remove and update and any add of a positive amount, but `addItem` with a quantity below 1 for a new product breaks them (no validation) |
| Cart.CountPositive | lib/cart.ts:61-63 | with positive quantities the item count is at least the number of entries |
| QuantityPicker.Initial | components/add-to-cart-button.tsx:14 | the counter starts at 1 for the shown product |
| QuantityPicker.ShowProduct | components/add-to-cart-button.tsx:18-21 | a different product id resets the counter to 1; the same id keeps it |
| QuantityPicker.Increment | components/add-to-cart-button.tsx:33-35 | `min(q+1, 10)`: steps up below 10, stays at 10, stays in 1..10 |
| QuantityPicker.Decrement | components/add-to-cart-button.tsx:37-39 | `max(q-1, 1)`: steps down above 1, stays at 1, stays in 1..10 |
| QuantityPicker.DisabledIffNoOp | components/add-to-cart-button.tsx:33-39 | within 1..10 each button is disabled exactly when pressing it would change nothing (also line 53, line 74) |
| QuantityPicker.AlwaysInRange | components/add-to-cart-button.tsx:14-39 | from any in-range state, every sequence of increments, decrements and product changes keeps the counter in 1..10 (`QuantityPicker.Step` is one action; `QuantityPicker.Run` is a sequence of them) |
| QuantityPicker.HandleAddToCart | components/add-to-cart-button.tsx:23-25 | adding puts the product in the cart, keeps ids distinct and raises the item count by the counter's value |
| QuantityPicker.RepeatedAddsPassTheCap | components/add-to-cart-button.tsx:24 | two adds at the maximum 10 leave one entry with quantity 20: the cap belongs to the counter, not the cart (also line 34) |
| SiteData.AddSubscriber | lib/db-server.ts:98-106 | succeeds exactly when the store does not fail and the fresh id is unused, appending one row; on failure the store is unchanged |
| SiteData.SubscribeTwice | lib/db-server.ts:98-106 | there is no duplicate check: the same address subscribed twice succeeds twice and is stored twice |
| SiteData.DeleteSubscriber | lib/db.ts:148-156 | every row with the id goes, the other rows and tables stay, and the answer is true unless the store fails; an unknown id changes nothing |
| SiteData.AddThenDeleteSubscriber | lib/db-server.ts:98-106 | adding a subscriber under a fresh id and deleting that id restores the table |
| SiteData.IncrementViewCount | lib/db-server.ts:75-84 | the counter row, when present, grows by one; the answer is the new count, or 0 when either statement fails or the row is missing, and a failed update changes nothing |
| SiteData.TwoVisits | lib/db-server.ts:75-84 | two visits raise the counter by two and report the second value |
| Orders.OrderId | lib/db.ts:96-98 | an order id is "ORD-" followed by exactly three decimal digits |
| Orders.DecimalDigits | lib/db.ts:96-98 | the zero-padded three-digit text of a number below 1000 spells that number |
| Orders.PaddedDigits | lib/db.ts:96-98 | the padded text of a number below 1000 is its hundreds, tens and units digits |
| Orders.OrderIdRoundTrip | lib/db.ts:96-98 | the number can be read back from the id it generated: `Orders.OrderNumber`, the inverse defined here, gives back `n` for `OrderId(n)` |
| Orders.OrderIdInjective | lib/db.ts:96-98 | two numbers give the same id exactly when they are equal, so only 1000 ids exist |
| Orders.ItemRows | lib/db.ts:116-121 | one item row per input item, in order, carrying the order id, product id, quantity and price as sent |
| Orders.CreateOrder | lib/db.ts:77-132 | succeeds exactly when the store does not fail and the generated id is unused; then it returns that id, appends the order row with status "processing" and the total as sent, and appends one item row per item in order; otherwise the store is rolled back unchanged |
| Orders.OrdersExhausted | lib/db.ts:96-113 | once all thousand ids are taken every order attempt fails and changes nothing |
| Orders.JoinProductsSound | lib/db.ts:182-190 | every joined detail row comes from an order item and a product with that item's product id (`Orders.JoinProducts` is the inner join of `getOrderDetails`) |
| Orders.JoinProductsUnique | lib/db.ts:182-190 | when each item's product exists exactly once the inner join keeps every item. The query has no ORDER BY, so the order is the model's table-order choice (see "## Left out") |
| Orders.GetOrderDetails | lib/db.ts:170-199 | null exactly when the query fails or no order has the id; otherwise an order row with that id from the table |
| Orders.DetailsAreOrderItems | lib/db.ts:182-190 | every detail item belongs to the order and names a product that exists |
| Orders.CreatedOrderRows | lib/db.ts:100-121 | after a create, the rows under the new id are exactly the order row and the item rows for the input |
| Orders.CreateOrderThenDetails | lib/db.ts:77-132 | an order placed for existing products reads back with status "processing", the sent total and every item; the items come in table order, which is the model's choice for a query without ORDER BY (also lines 170-199) |
| Orders.DeletedProductLeavesDetails | lib/db.ts:182-195 | deleting a product keeps its order items in the table, but the order's details no longer show them (also lines 463-493) |
| Orders.UpdateOrderStatus | lib/db.ts:203-210 | every order with the id gets exactly the given status, nothing else changes, and the answer is true unless the store fails, even when no row matched |
| Orders.UpdateStatusThenDetails | lib/db.ts:170-210 | after an update the order's details show the new status |
| Routes.Subscribe | app/api/newsletter/subscribe/route.ts:4-27 | 400 exactly when the email is missing or empty or matches no part of the address pattern; 200 exactly when it passes and the insert succeeds, in which case one subscriber row is added; an unreadable body gives 500; every non-200 reply leaves the store unchanged |
| Routes.SubscribeSameEmailTwice | app/api/newsletter/subscribe/route.ts:16 | the same address subscribed twice succeeds twice and is stored twice (also lib/db-server.ts:98-106) |
| Routes.AdditionalImages | app/api/admin/products/create/route.ts:26-28 | `images` without every copy of the main image, and [] when `images` is absent |
| Routes.AdditionalImagesKeepOthers | app/api/admin/products/create/route.ts:28 | copies of the main image anywhere in `images` are dropped while the other images keep their order |
| Routes.NewProductOf | app/api/admin/products/create/route.ts:26-34 | the payload handed to `createProduct` carries the body's name, slug, price and image, with the additional images in place of `images` |
| Routes.CreateRoute | app/api/admin/products/create/route.ts:5-45 | 401 before anything else; then 400 unless name, slug, price and image are truthy; then 400 for a used slug without calling `createProduct`; success exactly when all checks pass and the insert succeeds, returning the new id; no failure touches the store |
| Routes.ZeroPriceRejected | app/api/admin/products/create/route.ts:15-17 | a price of 0 is refused with 400 as if it were missing |
| Routes.CreateRouteReadsBack | app/api/admin/products/create/route.ts:26-34 | a product created through the route can be fetched by id exactly when no language with text was sent a translated ingredient list of two or more entries holding `null` (the read's `.sort` throws on `null`); it then reads back with its main image first and then the additional images, the main image not repeated (also lib/db-server.ts:574-599, 502) |
| Routes.PatchOf | app/api/admin/products/update/route.ts:12 | the patch drops `id` and `images`, keeps the other fields and always carries `additionalImages` (also lines 26-35) |
| Routes.UpdateRoute | app/api/admin/products/update/route.ts:5-46 | 401 first; 400 without a truthy id; the slug is checked only when a truthy one is sent, excluding the product itself; success exactly when the checks pass and the update does not fail, and only then does the store change |
| Routes.UpdateKeepsOwnSlug | app/api/admin/products/update/route.ts:19-24 | resubmitting a product with its own slug is not refused as a duplicate (also lib/db-server.ts:531-547) |
| Routes.UpdateWithoutImage | app/api/admin/products/update/route.ts:28-35 | an update without `image` leaves exactly the sent images as the product's images, and no image row of the product at display order 0 (also lib/db-server.ts:688-725) |
| Routes.UpdateStatusRoute | app/api/admin/orders/update-status/route.ts:5-34 | 401 first; 400 when the id or status is missing; 400 for a status other than processing or completed; success exactly when those pass and the update does not fail, and only then does the store change |
| Routes.StatusRouteStoresKnownStatus | app/api/admin/orders/update-status/route.ts:19-23 | whatever the request, each order afterwards is either unchanged or has status processing or completed |
| CatalogRead.ImagesOf | lib/db-server.ts:121-128 | the image query never returns more URLs than the image table has rows; what it returns and in which order is stated by `CatalogRead.ImagesOfSpec` (also line 190) |
| CatalogRead.IngredientsOf | lib/db-server.ts:131-138 | the ingredient query never returns more entries than the table has rows; its contents and order are stated by `CatalogRead.IngredientsOfSpec` (also line 193) |
| CatalogRead.ImagesOfSpec | lib/db-server.ts:121-128 | for every store, the query returns the URLs of exactly the product's image rows, each as often as it is stored, in the order of some rearrangement of those rows sorted by `displayOrder` |
| CatalogRead.IngredientsOfSpec | lib/db-server.ts:131-138 | for every store, the query returns exactly the product's ingredient rows' text, each as often as it is stored, in the order of some rearrangement of those rows sorted by `displayOrder` |
| CatalogRead.FormatTranslations | lib/db-server.ts:162-169 | the map has a key for exactly the languages that have a translation row |
| CatalogRead.FormatTranslationsLastWins | lib/db-server.ts:163-168 | when a language has several rows, the last one's name and descriptions win |
| CatalogRead.IngredientNames | lib/db-server.ts:175 | `map(t => t.ingredient)` keeps length and order |
| CatalogRead.AttachIngredients | lib/db-server.ts:172-181 | only languages that already have a translation row get ingredients, and only when their list is non-empty; names and descriptions are untouched and no language is added. This is the map built when no list's `.sort` throws; `CatalogRead.IngredientSortThrows` decides that case |
| CatalogRead.Assemble | lib/db-server.ts:184-195 | the assembled product carries the row's id, slug and name, the descriptions with NULL read as "", the product's images, ingredients and translations. It is what a read returns when no ingredient `.sort` throws |
| CatalogRead.TranslationLangs | lib/db-server.ts:141-181 | an assembled product has a translation for a language exactly when a translation row of that product and language exists |
| CatalogRead.ProductsNewestFirst | lib/db-server.ts:112-115 | `ORDER BY createdAt DESC` is a permutation of the product rows sorted newest first |
| CatalogRead.GetProducts | lib/db-server.ts:109-204 | on error []; otherwise [] exactly when the table is empty or some product's ingredient `.sort` throws (`CatalogRead.SortThrows`: a language with a translation row keeps a list of two or more entries, one `null`), since one throw rejects the whole `Promise.all` (also line 176); a non-empty result is `CatalogRead.GetProductsFixed`'s list |
| CatalogRead.GetProductsFixed | lib/db-server.ts:109-204 | the read with the throwing `.sort` taken out: on error []; otherwise one assembled product per row, newest first |
| CatalogRead.GetProductBySlug | lib/db-server.ts:207-307 | null on error; otherwise null exactly when `CatalogRead.GetProductBySlugFixed` finds nothing or the found product's ingredient `.sort` throws (also line 280); a product it returns is the fixed read's |
| CatalogRead.GetProductBySlugFixed | lib/db-server.ts:207-307 | the read with the throwing `.sort` taken out: null on error and null exactly when no row has the slug; otherwise the assembly of a row with that slug |
| CatalogRead.GetProductById | lib/db-server.ts:429-528 | null on error; otherwise null exactly when no row has the id or the product's ingredient `.sort` throws (also line 502); a record it returns is `CatalogRead.GetProductByIdFixed`'s |
| CatalogRead.GetProductByIdFixed | lib/db-server.ts:429-528 | the read with the throwing `.sort` taken out: null on error and null exactly when no row has the id; otherwise the assembly of a row with that id together with its timestamps |
| CatalogRead.RelatedCard | lib/db-server.ts:324-355 | a related product carries no gallery, full description or ingredients, and its translations only names and descriptions |
| CatalogRead.GetRelatedProducts | lib/db-server.ts:310-363 | on error []; otherwise at most `limit` products, as many as there are other products up to the limit, none of them the current one, each the card of a stored product |
| CatalogRead.IsSlugUnique | lib/db-server.ts:531-547 | true exactly when the query succeeds and every product with the slug is the one excluded by a non-empty `excludeProductId` |
| CatalogWrite.ImageRowsFrom | lib/db-server.ts:574-588 | image rows for the URLs in order, numbered from `first` upward |
| CatalogWrite.IngredientRowsOf | lib/db-server.ts:592-598 | ingredient rows in order at display orders 0, 1, ... |
| CatalogWrite.LangIngredientRows | lib/db-server.ts:623-629 | one language's ingredient-translation rows at display orders 0, 1, ... |
| CatalogWrite.NewTranslationRow | lib/db-server.ts:609-619 | a new translation row stores each field exactly when it is truthy, NULL otherwise |
| CatalogWrite.CreatedTranslationRows | lib/db-server.ts:602-621 | every translation row a create inserts belongs to the new product |
| CatalogWrite.CreatedIngredientTranslationRows | lib/db-server.ts:622-630 | every ingredient-translation row a create inserts belongs to the new product |
| CatalogWrite.CreateProduct | lib/db-server.ts:550-643 | succeeds exactly when the store does not fail and the fresh id is unused; then it returns the id, appends the product row with descriptions defaulting to "", and leaves orders, subscribers and the view counter alone; otherwise the store is unchanged |
| CatalogWrite.CreateProductStamped | lib/db.ts:267-332 | the lib/db.ts variant appends the product row with empty descriptions as NULL and the translation rows only: images, ingredients and ingredient translations are not written |
| CatalogWrite.PatchRow | lib/db-server.ts:653-685 | each defined field overwrites its column and the others keep their values; with no defined field the row is unchanged |
| CatalogWrite.UpdateWhereId | lib/db-server.ts:682-684 | `WHERE id = ?` changes exactly the rows with that id |
| CatalogWrite.PatchTranslation | lib/db-server.ts:743-763 | each defined translation field overwrites its column, the others stay |
| CatalogWrite.FirstTranslation | lib/db-server.ts:734-741 | the row patched is the first row of that product and language |
| CatalogWrite.PatchFirst | lib/db-server.ts:739-763 | only that first row changes |
| CatalogWrite.UpdateLanguage | lib/db-server.ts:730-796 | afterwards the language has a row exactly when it had one or the payload has text; at most one row is added; other rows stay; an absent ingredient list leaves ingredient translations alone, a present one leaves only its own entries for that language |
| CatalogWrite.UpdateProduct | lib/db-server.ts:646-809 | true exactly when the store does not fail, else nothing changes; exactly the product rows with the id are patched; images change only when `image` or `additionalImages` is given, ingredients only when `ingredients` is, translations only when some are given; orders, subscribers and the counter are never touched |
| CatalogWrite.PatchRowStamped | lib/db.ts:393-396 | the lib/db.ts row patch is the same patch, with `updatedAt` set to now exactly when some column is given |
| CatalogWrite.UpdateProductStamped | lib/db.ts:335-460 | the lib/db.ts `updateProduct` never touches images, ingredients or ingredient translations |
| CatalogWrite.UpdateLanguagesStampedKeepsIngredients | lib/db.ts:399-449 | no language of the lib/db.ts update touches ingredient translations: `CatalogWrite.UpdateLanguages` runs the languages in key order, and `CatalogWrite.UpdateLanguageStamped` patches the first row or inserts one |
| CatalogWrite.DeleteProduct | lib/db.ts:463-493 | on success no row of the product remains in the product or child tables while order items, orders, subscribers and the counter stay; on failure the store is unchanged |
| CatalogWrite.MaxDisplayOrder | lib/db.ts:624-627 | NULL exactly when the product has no image; otherwise the largest display order among its images |
| CatalogWrite.AddProductImagesAsWritten | lib/db.ts:617-647 | as written: new images are appended numbered from `(maxOrder \|\| -1) + 1`; `CatalogWrite.OrMinusOne` is that `\|\|`, turning NULL and also 0 into -1 |
| CatalogWrite.AddProductImages | lib/db.ts:617-647 | corrected: new images are appended after the existing rows and every new image ranks above every existing image of the product; `CatalogWrite.NullishMinusOne` is `?? -1`, turning only NULL into -1 |
| CatalogWrite.DeleteProductImage | lib/db.ts:650-658 | every image row of the product with that URL is removed, duplicates included, and every other row stays |
| CatalogWrite.Truncate | lib/db.ts:686-687 | the `i < ingredients.length` guard keeps the first `min(n, length)` entries |
| CatalogWrite.AddedIngredientTranslations | lib/db.ts:684-695 | every inserted translated ingredient belongs to the product and has an index below the base ingredient count |
| CatalogWrite.AddProductIngredients | lib/db.ts:661-706 | products, images and translations stay; afterwards every ingredient translation of the product has an index below the new ingredient count; on failure nothing changes |
| CatalogProofs.RankedRun | lib/db-server.ts:583-587 | a run of rows inserted at consecutive display orders is sorted and holds its items in order |
| CatalogProofs.ImagesOfAppended | lib/db-server.ts:574-588 | a freshly inserted image run, with no other rows of that product, reads back as inserted (also lines 121-128) |
| CatalogProofs.IngredientsOfAppended | lib/db-server.ts:592-598 | a freshly inserted ingredient list reads back as inserted (also lines 131-138) |
| CatalogProofs.EntryFor | lib/db-server.ts:604-605 | a payload has an entry for a language exactly when some key is that language |
| CatalogProofs.StoredTranslations | lib/db-server.ts:608-620 | a created product's translations are exactly the languages whose payload has some text (also lines 162-181) |
| CatalogProofs.DistinctFront | lib/db-server.ts:604 | object keys are distinct, so the last language does not occur before it |
| CatalogProofs.FormatCreated | lib/db-server.ts:608-620 | the created translation rows format to one entry per language with text, carrying that language's fields (also lines 162-169) |
| CatalogProofs.RankRows | lib/db-server.ts:153-159 | each ingredient-translation row is ranked by its display order |
| CatalogProofs.LangRunReadsBack | lib/db-server.ts:623-629 | one language's inserted run reads back sorted as its list (also lines 173-176) |
| CatalogProofs.KeepCreated | lib/db-server.ts:622-630 | among a created product's ingredient-translation rows, a language keeps exactly its own run (also line 174) |
| CatalogProofs.LangIngredientsCreated | lib/db-server.ts:173-176 | the list a created product's language hands to the `.sort` is the list sent |
| CatalogProofs.CreatedRowsSelected | lib/db-server.ts:141-159 | the read path selects exactly the created rows of the new product |
| CatalogProofs.TranslationsCreatedAt | lib/db-server.ts:162-181 | one language of a created product assembles as stored, and the list its `.sort` receives is the list sent |
| CatalogProofs.TranslationsCreated | lib/db-server.ts:602-631 | a created product's translations assemble as the languages with text and their fields and ingredient lists, and the read's `.sort` throws exactly when a translated ingredient list of two or more entries holding `null`, for a language with text was sent (also lines 162-181) |
| CatalogProofs.TranslationsReadBack | lib/db-server.ts:162-181 | a store holding exactly the created translation rows of a product assembles the whole translation map as stored, and its `.sort` throws exactly when the payload is not `SortSafe` |
| CatalogProofs.CreateThenGetById | lib/db-server.ts:550-643 | when no translated ingredient list of two or more entries holding `null` was sent to a language with text (`CatalogProofs.SortSafe`), creating a product and fetching it by id gives back what was sent: main image then the additional images, the ingredients in order, the translations of languages with text, and the creation time as both timestamps (also lines 429-528) |
| CatalogProofs.CreateThenGetByIdFixed | lib/db-server.ts:550-643 | for every payload, the read without the throwing `.sort` gives back what was sent, and the read as written throws exactly when the payload is not `SortSafe` (also lines 429-528) |
| CatalogProofs.CreateThenGetByIdThrows | lib/db-server.ts:502 | when some translated ingredient list of two or more entries holding `null`, for a language with text was sent, the product is stored, yet fetching it by id gives null and `getProducts` gives [] (also line 176) |
| CatalogProofs.CreatedSortThrows | lib/db-server.ts:172-177 | for a store holding exactly a product's created translation rows, some language's `.sort` throws exactly when the payload is not `SortSafe` |
| CatalogProofs.IngredientsWithoutTextAreDropped | lib/db-server.ts:608 | for a `SortSafe` payload, a language with ingredients but no text gets ingredient rows in the store, yet the product reads back without that language (also line 623, lines 276-284) |
| CatalogProofs.EntryForDistinct | lib/db-server.ts:604-605 | with distinct keys each entry is the one found for its language |
| CatalogProofs.UpdateReplacesImages | lib/db-server.ts:688-709 | an update giving `image` or `additionalImages` replaces the whole gallery by the truthy main image followed by the additional ones (`CatalogWrite.ReplacedImages` is the image table after that block) |
| CatalogProofs.UpdateReplacesIngredients | lib/db-server.ts:712-725 | a given ingredient list, even [], replaces the product's ingredients |
| CatalogProofs.ReplacedRowsInvisible | lib/db-server.ts:690 | deleting and reinserting one product's child rows does not change another product's selection (also line 714) |
| CatalogProofs.UpdateKeepsOtherImages | lib/db-server.ts:688-709 | updating one product leaves another product's images as they were |
| CatalogProofs.UpdateKeepsOtherIngredients | lib/db-server.ts:712-725 | updating one product leaves another product's ingredients as they were |
| CatalogProofs.UpdateLanguageReplacesIngredients | lib/db-server.ts:780-796 | a given ingredient list of one language replaces that language's rows and no other language's |
| CatalogProofs.EmptyNewLanguage | lib/db-server.ts:764 | for a new language with all fields empty, lib/db-server.ts inserts nothing while lib/db.ts inserts a row (also lib/db.ts:434-447) (`CatalogWrite.UpdateLanguageStamped` against `CatalogWrite.UpdateLanguage`) |
| CatalogProofs.StampedDiffersOnlyInUpdatedAt | lib/db-server.ts:681-685 | the two `updateProduct`s write the same product columns and differ only in lib/db.ts setting `updatedAt` (also lib/db.ts:393-396) |
| CatalogProofs.DeleteProductReads | lib/db.ts:463-493 | after a delete the product cannot be fetched, and every other product reads back as before |
| CatalogProofs.DeleteKeepsOtherFixed | lib/db.ts:463-493 | without the throwing `.sort`, too, every other product reads back after a delete as before |
| CatalogProofs.AddImagesAsWrittenCollides | lib/db.ts:628 | as written, a product whose highest display order is 0 gets a second image at 0 (also line 634) |
| CatalogProofs.CreateThenAddImageCollides | lib/db-server.ts:574-579 | creating a product without additional images and adding one image puts both at display order 0 (also lib/db.ts:628-635) |
| CatalogProofs.AddImagesAgreeUnlessMaxIsZero | lib/db.ts:628 | the as-written and corrected versions agree unless the maximum is 0 |
| CatalogProofs.AddImagesAppends | lib/db.ts:617-647 | corrected: added images read back after the existing ones, in the order given |
| CatalogProofs.ExistingRanksBelow | lib/db.ts:622-628 | corrected: every existing image of the product has a display order below the new starting number |
| CatalogProofs.AddIngredientsReadsBack | lib/db.ts:671-681 | the new list reads back as the product's ingredients |
| CatalogProofs.AddedOmitsLang | lib/db.ts:684-695 | a language missing from the translations argument gets no rows |
| CatalogProofs.AddIngredientsDropsUnlisted | lib/db.ts:673 | all ingredient translations are deleted, so a language missing from the argument loses its rows (also lines 684-695) |
| CatalogProofs.CreateThenGetBySlug | lib/db-server.ts:550-643 | for a `SortSafe` payload, a created product with an unused slug is fetched by its slug as sent (also lines 207-307) |
| CatalogProofs.CreateThenGetBySlugFixed | lib/db-server.ts:550-643 | for every payload, the slug read without the throwing `.sort` finds the created product as sent (also lines 207-307) |
| CatalogProofs.CreateThenGetBySlugThrows | lib/db-server.ts:280 | when the payload is not `SortSafe`, the created product is not found by its slug although the fixed read finds it |
| Ranking.SortByRankSpec | lib/db-server.ts:125 | `ORDER BY displayOrder ASC` yields a permutation of the rows in ascending rank (also line 135, line 156) |
| Ranking.InsertSorted | lib/db-server.ts:125 | inserting a row into a sorted run keeps it sorted |
| Ranking.SortSortedIsIdentity | lib/db-server.ts:125 | rows already in rank order come back in the same order. SQL leaves the order of ties open, and the model breaks them by table order |
| Ranking.KeepValuesSort | lib/db-server.ts:156 | filtering the sorted rows by language equals sorting that language's rows (also line 174) |
| Patterns.DotAfterSound | components/checkout-form.tsx:64 | with only non-space characters since the '@', the scan for the dot succeeds exactly when some '.' further on closes a match of `\S+@\S+\.\S+` |
| Patterns.ScanFromSound | components/checkout-form.tsx:64 | the left-to-right scan from a position succeeds exactly when some match of the pattern starts at or after it |
| Patterns.EmailTestCorrect | app/api/newsletter/subscribe/route.ts:12 | the executable test accepts exactly the strings with a substring of non-space characters, '@', non-space characters, '.', non-space characters (also components/checkout-form.tsx:64, components/newsletter-signup.tsx:26) (`Patterns.EmailTest` is the executable test) |
| Patterns.EmailAcceptedShape | app/api/newsletter/subscribe/route.ts:12 | an accepted address has length at least 5 and an '@' followed later by a '.' with characters around both |
| Patterns.EmailUnanchored | app/api/newsletter/subscribe/route.ts:12 | the pattern is unanchored: any text around an accepted address is accepted too |
| Patterns.EmailAcceptsSurroundingText | app/api/newsletter/subscribe/route.ts:12 | "x a@b.c y" is accepted |
| Patterns.EmailNeedsAt | app/api/newsletter/subscribe/route.ts:12 | a string without '@' is refused |
| Patterns.PhoneTestShape | components/checkout-form.tsx:70 | an accepted phone has at least 8 characters, all digits, white space or '-', except for a leading '+' (`Patterns.PhoneTest` is the executable test) |
| Patterns.PhoneAcceptsOnlyHyphens | components/checkout-form.tsx:70 | "--------", with no digit at all, is accepted |
| Patterns.PhoneRejectsSevenDigits | components/checkout-form.tsx:70 | seven digits are refused, eight digits and "+212 600-000000" accepted |
| Slug.StripDisallowed | components/admin/product-form.tsx:109 | after `replace(/[^\w\s-]/g, "")` only word characters, white space and '-' remain, each taken from the input |
| Slug.DropRun | components/admin/product-form.tsx:110-111 | what is dropped is exactly the run of the class at the front: the rest is a suffix that starts outside the class |
| Slug.ReplaceRuns | components/admin/product-form.tsx:110-111 | the result is empty only for empty input, and starts with '-' exactly when the input starts inside the class, else with the input's first character |
| Slug.ReplaceRunsPreserves | components/admin/product-form.tsx:110-111 | each character of the result is '-' or a character outside the class that keeps every property all input characters share |
| Slug.ReplaceRunsEndsInRun | components/admin/product-form.tsx:110-111 | an input that ends inside a run of the class gives a result ending in '-' |
| Slug.HyphenRunsCollapsed | components/admin/product-form.tsx:111 | after `replace(/-+/g, "-")` no two hyphens are adjacent |
| Slug.ReplaceRunsAbsent | components/admin/product-form.tsx:110-111 | a string with no character of the class is unchanged |
| Slug.ReplaceHyphensSingle | components/admin/product-form.tsx:111 | a string without double hyphens is unchanged by the hyphen collapse |
| Slug.NoSpaceAfterReplace | components/admin/product-form.tsx:110-112 | after the two replacements no white space is left |
| Slug.TrimComesTooLate | components/admin/product-form.tsx:106-113 | the generated slug is just the two replacements applied to the lowered, stripped name: the final `trim` never changes it |
| Slug.GenerateSlugShape | components/admin/product-form.tsx:106-113 | a generated slug holds only lower-case letters, digits, '_' and '-' (for ASCII input) and never two hyphens in a row (`Slug.GenerateSlug` is the whole chain) |
| Slug.GenerateSlugFixesSlugs | components/admin/product-form.tsx:106-113 | a string already of that shape is its own slug |
| Slug.GenerateSlugIdempotent | components/admin/product-form.tsx:106-113 | generating a slug from a slug changes nothing |
| Slug.LeadingSpaceGivesLeadingHyphen | components/admin/product-form.tsx:110-112 | `trim` runs after spaces became hyphens, so a leading space leaves a leading '-' |
| Slug.TrailingSpaceGivesTrailingHyphen | components/admin/product-form.tsx:110-112 | a trailing space leaves a trailing '-' |
| Slug.RoseSerumSlug | components/admin/product-form.tsx:106-113 | " Rose Serum " gives a slug that starts and ends with '-' |
| Text.DecimalString | lib/db.ts:96-97 | `toString` of a number below 1000 has one, two or three digits according to its size |
| Text.PadStart | lib/db.ts:98 | `padStart(width, c)` fills with `c` on the left up to the width and keeps the string at the end |
| Text.Lower | app/admin/dashboard/orders/page.tsx:72 | `toLowerCase` maps each character and keeps the length |
| Text.LowerIdempotent | app/admin/dashboard/orders/page.tsx:72 | lower-casing twice is lower-casing once |
| Text.TrimSpec | components/checkout-form.tsx:58 | `trim` removes exactly the white space at both ends: the result is an infix bounded by non-space characters |
| Text.TrimEmptyIffBlank | components/checkout-form.tsx:58 | `!s.trim()` holds exactly when every character is white space |
| Text.JoinCountsSeparators | app/admin/dashboard/subscribers/page.tsx:64 | joining n parts without line breaks by "\n" gives exactly n-1 line breaks |
| Checkout.FieldError | components/checkout-form.tsx:58-80 | a field's message, when there is one, is never empty |
| Checkout.Errors | components/checkout-form.tsx:55-83 | the error record holds, for every field, exactly that field's message |
| Checkout.FieldErrorIff | components/checkout-form.tsx:58-80 | a field is flagged exactly when it is blank, or it is the email and fails the email test, or it is the phone and its trimmed value fails the phone test |
| Checkout.ValidateFormIff | components/checkout-form.tsx:55-83 | `validateForm` passes exactly when no field is blank, the email passes its test and the trimmed phone passes its test (`Checkout.ValidateForm`) |
| Checkout.ItemsOf | components/checkout-form.tsx:104-108 | one order line per cart entry, in cart order, with the product's id, the quantity and the product's price |
| Checkout.OrderData | components/checkout-form.tsx:97-109 | the order copies the five contact fields untouched and has one line per cart entry |
| Checkout.OrderDataConsistent | components/checkout-form.tsx:97-109 | the order's total is the sum of its lines' price times quantity, and the cart's item count is the sum of the line quantities (also lines 198-202) |
| Checkout.HandleSubmit | components/checkout-form.tsx:86-176 | an invalid form only records its errors and creates nothing; otherwise the store is the one `createOrder` leaves, and success is set exactly when an order id comes back |
| Checkout.AfterSuccess | components/checkout-form.tsx:157-168 | after the delay the cart is empty, the form blank and the success flag cleared |
| Checkout.InvalidFormCreatesNoOrder | components/checkout-form.tsx:89-91 | an invalid form leaves the store as it was and only shows errors |
| Checkout.PlacedOrderMatchesCart | components/checkout-form.tsx:97-112 | a successful submission appends one "processing" order with the form's contact data and the cart total, and one order item per cart entry with its product, quantity and price |
| Checkout.SetField | components/checkout-form.tsx:180-183 | setting a field changes that field and no other |
| Checkout.HandleChange | components/checkout-form.tsx:178-192 | editing a field sets it, clears its error and leaves every other field and error as it was |
| Checkout.EditingClearsErrors | components/checkout-form.tsx:178-192 | once every field with an error has been edited, no error is left (`Checkout.Edit` applies a sequence of `handleChange` edits) |
| Newsletter.ReplyError | components/newsletter-signup.tsx:55 | the thrown message is the reply's message when it has one, else "Failed to subscribe"; never empty |
| Newsletter.HandleSubmit | components/newsletter-signup.tsx:17-62 | an empty or malformed address is refused locally without a request; no error is shown exactly when the route subscribed the address, and then the input is cleared and the store holds the new subscriber; on any failure the store is unchanged and the address stays |
| Newsletter.SentAddressPassesRoute | components/newsletter-signup.tsx:21-29 | an address the form sends is never refused by the route with 400 |
| Newsletter.DatabaseErrorShown | components/newsletter-signup.tsx:55-59 | when the insert fails the form shows "Failed to subscribe" and keeps the address |
| Middleware.MissingLocale | middleware.ts:47-49 | the path is missing a locale exactly when it neither equals `/loc` nor starts with `/loc/` for any locale |
| Middleware.MatcherInput | middleware.ts:16-18 | the matcher always gets at least one language: the default locale when none was negotiated |
| Middleware.GetLocale | middleware.ts:7-31 | the chosen locale is always a supported one, and the default when the matcher throws |
| Middleware.RedirectPath | middleware.ts:58 | the locale is put in front of the path, with a slash between when the path lacks one |
| Middleware.Run | middleware.ts:33-72 | the request passes exactly when the path is skipped or already names a locale; a redirect carries a supported locale in both its cookie and its target; `Middleware.Skipped` is the skip test |
| Middleware.RedirectHasLocale | middleware.ts:58 | every redirect target starts with `/locale/` |
| Middleware.NoRedirectLoop | middleware.ts:33-72 | following a redirect never redirects again, whatever locale the second request negotiates |
| Middleware.Handle | middleware.ts:74-77 | a request passes exactly when its path is outside `config.matcher`, is skipped, or already names a locale; a redirect happens only for a path starting with '/' and sends it to `/locale` plus the path, with a supported locale (also lines 33-72) |
| Middleware.NoRedirectLoopHandled | middleware.ts:74-77 | with the matcher in front, following a redirect still never redirects again (also lines 33-72) |
| Middleware.ApiPrefixSkipsMiddleware | middleware.ts:74-77 | "/apiary" is outside the matcher and passes, although the middleware body alone would redirect it to "/en/apiary" |
| Middleware.PrefixIsNotALocale | middleware.ts:47-49 | "/english" names no locale among en, fr, ar and is sent to "/en/english" |
| Footer.FindLanguage | components/footer.tsx:43 | `find` answers the first language with the code, and nothing exactly when no language has it |
| Footer.InitialLanguage | components/footer.tsx:42-44 | the switcher starts on the page's language when it is listed, else on English |
| Footer.SegmentEnd | components/footer.tsx:72 | the end of the `[^/]+` run: no slash before it, and a slash or the end of the path at it |
| Footer.StripFirstSegment | components/footer.tsx:72 | a leading slash and the non-empty run of non-slash characters after it are removed; any other path is left as it is |
| Footer.StrippedStartsWithSlash | components/footer.tsx:72 | what is left of a path that starts with '/' is empty or starts with '/' again |
| Footer.RootGetsTrailingSlash | components/footer.tsx:72 | from "/" the switcher navigates to "/code/", because the pattern needs a character after the slash (also line 82) |
| Footer.SwitchKeepsRest | components/footer.tsx:72 | switching "/fr/products/x" to Arabic gives "/ar/products/x" (also line 82) |
| Footer.SwitchTwice | components/footer.tsx:67-83 | switching to one language and then another lands where switching straight to the second does (`Footer.SwitchPath` is the path `selectLanguage` pushes) |
| ProductCard.DisplayName | components/product-card.tsx:11 | the translated name when there is a non-empty one, else the product's own name |
| ProductCard.DisplayDescription | components/product-card.tsx:12 | the translated description when there is a non-empty one, else the product's description or "" |
| ProductCard.Truncate | components/product-card.tsx:15-16 | a description of at most 80 characters is shown whole; a longer one is cut to its first 80 characters followed by "..." |
| ProductCard.Href | components/product-card.tsx:20 | the link is `/lang/products/` followed by the slug |
| ProductCard.HrefNeedsNoRedirect | components/product-card.tsx:20 | a card link in a supported language passes the locale middleware untouched |
| ProductCard.EmptyTranslatedNameFallsBack | components/product-card.tsx:11 | an empty translated name is falsy, so the card shows the product's own name |
| Sitemap.HomePages | app/sitemap.ts:11-16 | one home entry per locale, in locale order, at `base/locale` with the home priority |
| Sitemap.ProductPagesOf | app/sitemap.ts:20-25 | one entry per locale for a product, at `base/locale/products/slug` with the product priority |
| Sitemap.ProductPagesAt | app/sitemap.ts:19-26 | `flatMap` gives products times locales entries, and the entry of product p in locale l sits at p times the locale count plus l |
| Sitemap.SitemapLayout | app/sitemap.ts:28 | the home pages come first, one per locale, then every product in every locale, at known positions (`Sitemap.Sitemap`, with `Sitemap.ProductPages` the `flatMap`) |
| Sitemap.NoProducts | app/sitemap.ts:28 | without products the sitemap is the home pages alone |
| AdminOrders.FilteredOrders | app/admin/dashboard/orders/page.tsx:69-80 | an order is shown exactly when its id, name or email contains the search term ignoring case and the status filter is "all" or its status |
| AdminOrders.EmptySearchShowsAll | app/admin/dashboard/orders/page.tsx:69-80 | an empty search with the "all" filter shows every order in order |
| AdminOrders.FilterAgainChangesNothing | app/admin/dashboard/orders/page.tsx:69-80 | filtering the shown orders again with the same settings changes nothing |
| AdminOrders.Toggle | app/admin/dashboard/orders/page.tsx:340 | the button gives "processing" exactly for a completed order and "completed" otherwise |
| AdminOrders.ToggleInvolution | app/admin/dashboard/orders/page.tsx:340 | on the two statuses the route accepts, pressing twice restores the status |
| AdminOrders.ToggleForgetsUnknown | app/admin/dashboard/orders/page.tsx:340 | a "pending" order goes to "completed" and then to "processing", never back |
| AdminOrders.UpdateLocal | app/admin/dashboard/orders/page.tsx:94-99 | after an `ok` reply every order with the id gets the new status and no other changes; otherwise the list is unchanged |
| AdminOrders.LocalMatchesStore | app/admin/dashboard/orders/page.tsx:99 | the patched list equals the orders table after `updateOrderStatus` |
| AdminSubscribers.FilteredSubscribers | app/admin/dashboard/subscribers/page.tsx:50-52 | a subscriber is shown exactly when its email contains the term ignoring case |
| AdminSubscribers.CsvRows | app/admin/dashboard/subscribers/page.tsx:59-62 | one unquoted line `email,date` per subscriber, in table order |
| AdminSubscribers.CsvLineCount | app/admin/dashboard/subscribers/page.tsx:54-64 | when no address or date holds a line break, the export has as many line breaks as subscribers: a header line plus one line each (`AdminSubscribers.ExportCsv` builds the file) |
| AdminSubscribers.ConfirmDelete | app/admin/dashboard/subscribers/page.tsx:84-108 | with a pending id an `ok` reply removes exactly the entries with that id and any other reply keeps the list; the pending id is cleared either way; without one nothing happens |
| AdminSubscribers.DeleteMatchesStore | app/admin/dashboard/subscribers/page.tsx:99 | the list after a delete equals the subscribers table after `deleteSubscriber` |
| AdminProducts.FilteredProducts | app/admin/dashboard/products/page.tsx:47-51 | a product is shown exactly when its name, or its description when it has one, contains the term ignoring case |
| AdminProducts.EmptySearchShowsAll | app/admin/dashboard/products/page.tsx:47-51 | an empty search shows every product |
| AdminProducts.NoDescriptionMatchesByName | app/admin/dashboard/products/page.tsx:47-51 | without a description only the name is searched |
| AdminProducts.ConfirmDelete | app/admin/dashboard/products/page.tsx:57-81 | an `ok` reply drops exactly the products with the pending id; a failed one keeps the list; the pending id is cleared either way |
| ProductForm.HandleChange | components/admin/product-form.tsx:116-132 | typing a name while creating also sets the slug generated from it; in edit mode only the edited field changes; lists and translations are never touched |
| ProductForm.TypedNameGivesSlug | components/admin/product-form.tsx:120-125 | the slug generated while typing a name always has slug shape |
| ProductForm.RemoveAt | components/admin/product-form.tsx:176 | `filter((_, i) => i !== index)` drops exactly the entry at the index and keeps the others in order; an index out of range changes nothing (also line 272); `ProductForm.RemoveIngredient` and `ProductForm.RemoveAdditionalImage` apply it to their lists |
| ProductForm.SetAt | components/admin/product-form.tsx:155-156 | writing an existing index changes that entry only; `ProductForm.ChangeIngredient` applies it to the base list, whose inputs exist only for existing rows |
| ProductForm.AddIngredient | components/admin/product-form.tsx:165-170 | a blank ingredient row is appended |
| ProductForm.AddThenRemove | components/admin/product-form.tsx:165-178 | removing the row just added restores the form (`ProductForm.RemoveIngredient` after `ProductForm.AddIngredient`) |
| ProductForm.RemoveKeepsOrder | components/admin/product-form.tsx:176 | removing index i leaves the entries before i followed by those after it |
| ProductForm.WithTab | components/admin/product-form.tsx:140-149 | replacing one language tab changes that tab only |
| ProductForm.HandleTranslationChange | components/admin/product-form.tsx:135-150 | editing a field of one language changes neither the other language, nor the base fields, nor that language's ingredients |
| ProductForm.AssignAt | components/admin/product-form.tsx:184-185 | `updatedIngredients[index] = value` leaves an array as long as the old one or `index + 1`, whichever is larger |
| ProductForm.ChangeTranslationIngredient | components/admin/product-form.tsx:181-198 | editing a translated ingredient, at any index, leaves the other language, the base fields and the tab's text fields untouched |
| ProductForm.TranslationIngredientReadsBack | components/admin/product-form.tsx:181-198 | for any index, the list grows to cover it and the entry reads back as typed; the entries already there keep their text, skipped rows become holes, and every other input shows what it showed before (also lines 576-586, 633-645) |
| ProductForm.SkippedRowSentAsNull | components/admin/product-form.tsx:576-586 | on a new product, typing the French translation of the second ingredient first makes the payload's French list `[null, text]` (also lines 45, 184-185, 302) |
| ProductForm.SkippedRowMakesProductUnreadable | components/admin/product-form.tsx:576-586 | on a new product whose French tab has text, typing the second French ingredient first and submitting stores the product with success, yet fetching it by id gives null and the product list comes back empty (also lib/db-server.ts:176, 502) |
| ProductForm.Payload | components/admin/product-form.tsx:291-303 | the payload carries the form's name, slug, image and descriptions, the parsed price, the main image followed by the additional ones, only non-blank ingredients, and both language tabs |
| ProductForm.PayloadImagesRoundTrip | components/admin/product-form.tsx:301 | when the main image is not repeated, the route's additional images are exactly the form's |
| ProductForm.PayloadDropsRepeatedMain | components/admin/product-form.tsx:301 | a main image also listed among the additional images is dropped from them by the route, every copy of it (also app/api/admin/products/create/route.ts:27-28) |
| ProductForm.PayloadKeepsFilledIngredients | components/admin/product-form.tsx:299 | without blank rows every ingredient is sent, in order |
| ProductForm.BlankRowMisalignsTranslations | components/admin/product-form.tsx:299 | a blank base row is dropped while the translated lists are sent whole, so the lists no longer line up (also line 302) |
| ProductForm.ZeroPricePassesFormNotRoute | components/admin/product-form.tsx:281 | the price text "0" passes the form's check, but price 0 is refused by the create route with 400 (also app/api/admin/products/create/route.ts:15-17) |
| ProductForm.FormCheckMeetsRoute | components/admin/product-form.tsx:281-284 | once the form's check passes, the route's required-field check passes exactly when the parsed price is truthy (`ProductForm.CanSubmit` is the form's check) |
| ProductForm.Submit | components/admin/product-form.tsx:277-325 | an incomplete form sends nothing; otherwise the request never gets 401, creation succeeds exactly when the price is non-zero and the create route does, editing exactly when the id is truthy, the slug is free and the write goes through; any failure leaves the store unchanged |
| ProductForm.EditSubmitWritesPrice | lib/db-server.ts:664-667 | a successful edit writes the parsed price, name, slug and image to the edited product's rows and leaves every other product row as it was (also components/admin/product-form.tsx:295) |
| ProductForm.Load | components/admin/product-form.tsx:64-88 | the loaded additional images are the product's images after the first, or none; `ProductForm.LoadLang` fills a tab with empty text for absent fields and keeps the stored translated ingredients, `null` entries included |
| ProductForm.CreatedProductLoads | components/admin/product-form.tsx:73 | a product created through the route can be loaded for editing exactly when the payload is `SortSafe`, and then loads with exactly the additional images the route stored (also app/api/admin/products/create/route.ts:26-40) |

## Left out

- Connection pool, `Promise.all` fan-out and SQL text. A transaction is one atomic function on the store. A dynamic `UPDATE … SET` is modelled by its effect on the rows.
- ProductForm.Submit: the price is the number parsed from the price text. The `type="number"` input holds only text that parses, and `CanSubmit` refuses empty text. So a NaN price, which the payload would send as JSON `null`, is not modelled, and neither is a text such as "1e400" that parses to Infinity. In edit mode such a `null` would pass the `!== undefined` test at lib/db-server.ts:664 and write NULL.
- Floating point. Prices are integers (for instance cents), so `parseFloat`, `toFixed` and rounding in sums are not modelled. `ProductForm.Submit` and `ProductForm.Load` take the parsed price, or the price's text, as a parameter.
- Randomness and identifiers:
  - the uuid row ids of products and subscribers are fresh parameters;
  - the order number of `Math.random` is a parameter `n < 1000`;
  - the `ORDER BY RAND()` choice of `getRelatedProducts` is a permutation parameter.
- Child rows carry no row id, because the code never reads those ids back. A translation patch hits the first matching row in table order.
- Result order that SQL leaves open is taken to be table order, that is, the order in which rows were inserted. This covers the JOIN in `getOrderDetails` (lib/db.ts:182-190), which has no ORDER BY, and ties under `ORDER BY displayOrder` or `ORDER BY createdAt`. MySQL promises neither, and `order_items.id` is a random uuid, so the stored order need not be insertion order. `Orders.JoinProductsUnique`, `Orders.CreateOrderThenDetails` and `Ranking.SortSortedIsIdentity` state order only under this choice.
- Clock. `createdAt` and `updatedAt` are integers passed in. Date formatting (`toLocaleDateString`, `new Date()` in the sitemap) is a parameter or left out.
- Sitemap.HomePages: priorities 1.0 and 0.8 are written as the integers 10 and 8. `lastModified` and `changeFrequency` are not modelled.
- Authentication (lib/auth.ts, the login route and the admin layout) is reduced to an `authed` flag on the routes. `verifyAdminCredentials` and bcrypt are not part of this model.
- The locale matcher (Negotiator and intl-localematcher) is a parameter that answers with a supported locale, or with nothing when it throws. lib/i18n/i18n-config.ts is not part of this model, so the locales are a parameter.
- Case-insensitive search lower-cases ASCII letters only. Other characters are compared as they are.
- The MySQL collation is not modelled: `slug = ?` is exact equality here, where MySQL's default collation ignores case.
- String lengths count code points, not UTF-16 units. The 80-character cut of `ProductCard.Truncate` differs only for text outside the Basic Multilingual Plane.
- JSON bodies carry strings, string lists and integers only, except that a translated ingredient list may hold `null` entries. A non-string value in a string field is not modelled.
- ProductForm.ChangeIngredient: requires an existing index. In JavaScript, writing past the end grows the array with holes; the form never does that.
- The table definitions are not among the source files. The model takes `ingredient_translations.ingredient` to be nullable, so a `null` that the product form sends for a skipped translated ingredient is stored as NULL. A NOT NULL column would instead make that insert fail and roll the whole write back. On the way back, a `null` in a list of two or more entries makes the read's `.sort` throw (see "## Findings"); a lone `null` reads back as `null`.
- Orders.CreateOrder: the code does not check whether the random order id already exists. The model takes `orders.id` to be the primary key, so inserting an order under an existing id fails and the transaction rolls back with `null`.
- Orders.OrdersExhausted: rests on the same `orders.id` primary-key assumption as `Orders.CreateOrder`.
- CatalogWrite.CreateProduct: the model takes `products.id` to be the primary key. A new id that some product already has makes the insert fail and the transaction roll back with `null`. A fresh uuid never collides.
- CatalogWrite.CreateProductStamped: rests on the same `products.id` primary-key assumption.
- SiteData.AddSubscriber: the model takes `subscribers.id` to be the primary key, so a subscriber id already in the table makes the insert fail. The e-mail column is taken to have no unique key, so the same address can be stored twice.
- Checkout.HandleSubmit: the two-second timer that clears the cart is a separate step, `Checkout.AfterSuccess`.
- Checkout.HandleSubmit: the order e-mail (`/api/orders/notify`, lib/email.ts) is left out. It is fire-and-forget and does not change the outcome.
- Newsletter.HandleSubmit: the five-second reset of the success message is not modelled.
- Image upload is left out: `uploadProductImage`, the upload-image route, and the form's upload handlers, which append the URL the server returns.
- Read-only listings with no logic beyond a query are left out: `getViewCount`, `getOrders`, `getSubscribers`, `getDashboardStats`.
- The GET, delete and check-slug routes are left out. Each is an auth check, a presence check and a call to a modelled function.
- lib/db.ts has its own `getProductById` and `isSlugUnique`. The routes import the lib/db-server.ts versions, and only those are modelled.
- The `.sort` over translated ingredients reads `displayOrder` of the ingredient values. On strings the comparison is NaN and the query's order stands, which the model keeps as the `displayOrder` order with ties broken by table order. On `null` it throws, which `CatalogRead.SortThrows` models.
- CatalogRead.AttachIngredients: builds the lists the `.sort` receives and does not itself model the throw. The read paths check `CatalogRead.IngredientSortThrows` before they use it.
- CatalogRead.Assemble: is the product a read returns only when no ingredient `.sort` throws. Otherwise the read returns its sentinel.
- CatalogProofs.LangRunReadsBack: states the list one language's inserted run yields before the `.sort`. The sort returns that list unchanged unless it throws, and `CatalogProofs.CreatedSortThrows` says when it does.
- CatalogProofs.LangIngredientsCreated: states the list the `.sort` receives, not the read's result. The read returns that list only when the payload is `SortSafe`.
- CatalogProofs.TranslationsCreatedAt: states the translation the assembly builds for one language. The read returns it only when no language's `.sort` throws.
- CatalogProofs.TranslationsCreated: the map it states is what the read returns only for a `SortSafe` payload. Its second ensures states when the read throws instead.
- CatalogProofs.TranslationsReadBack: the same as `CatalogProofs.TranslationsCreated`, for a store given by its selected rows.
- CatalogProofs.CreateThenGetById: requires `SortSafe`, because for any other payload the read as written returns `null`. That case is `CatalogProofs.CreateThenGetByIdThrows`, and `CatalogProofs.CreateThenGetByIdFixed` states the round trip for every payload on the read without the throwing sort.
- CatalogProofs.CreateThenGetBySlug: requires `SortSafe` for the same reason. The other case is `CatalogProofs.CreateThenGetBySlugThrows`, and `CatalogProofs.CreateThenGetBySlugFixed` holds for every payload.
- CatalogProofs.IngredientsWithoutTextAreDropped: requires `SortSafe`, because for any other payload the product is not read back at all.
- Routes.CreateRouteReadsBack: the images are promised only for a `SortSafe` payload. For any other payload the contract states that the read gives `null`.
- ProductForm.CreatedProductLoads: the loaded images are promised only for a `SortSafe` payload. For any other payload the contract states that there is nothing to load.
- Presentation, layout and styling components are not part of this model.

## Findings

The reads `CatalogRead.GetProducts`, `GetProductBySlug` and `GetProductById` model the code as written, and the rest of the model uses them. Their `...Fixed` counterparts are the corrected reads, and the round trips are proved about them for every payload.

| source | as written | input that shows it | evidently intended | confidence | as-written member | corrected member |
|---|---|---|---|---|---|---|
| lib/db.ts:628 | `addProductImages` numbers new images from `(maxOrder \|\| -1) + 1`, and `\|\|` treats a maximum of 0 as missing | a product created without additional images has only its main image, at display order 0; adding one image also puts it at 0 | number from the maximum plus one, so new images come after the main image | not executed | CatalogProofs.CreateThenAddImageCollides | CatalogProofs.AddImagesAppends |
| lib/db-server.ts:502 | `getProductById` sorts the list of ingredient VALUES by `a.displayOrder - b.displayOrder`; on a `null` value reading `displayOrder` throws, and the `catch` returns `null` | a product whose French translation has a name and the ingredients `[null, "x"]`, which the product form sends when the second French ingredient is typed first | sort the rows before taking their values, or drop the sort, which the `ORDER BY displayOrder` already does; the product then reads back as created | not executed | CatalogProofs.CreateThenGetByIdThrows | CatalogProofs.CreateThenGetByIdFixed |
| lib/db-server.ts:176 | `getProducts` applies the same `.sort`; one product's throw rejects the whole `Promise.all`, and the `catch` returns `[]` | the same product in a store with any number of other products: the whole product list comes back empty | the same fix; every product is listed | not executed | ProductForm.SkippedRowMakesProductUnreadable | CatalogRead.GetProductsFixed |
| lib/db-server.ts:280 | `getProductBySlug` applies the same `.sort`, and the `catch` returns `null` | the same product, fetched by its slug | the same fix; the product is found by its slug | not executed | CatalogProofs.CreateThenGetBySlugThrows | CatalogProofs.CreateThenGetBySlugFixed |

=== FILE: admin_pages.dfy ===
/** The list pages of the admin dashboard: app/admin/dashboard/orders/page.tsx,
    app/admin/dashboard/subscribers/page.tsx and app/admin/dashboard/products/page.tsx.
    Each keeps a local copy of a table, filters it for display and patches it after
    a successful request. */
module AdminOrders {
  import opened Common
  import opened Text
  import opened Schema
  import opened Orders

  /** Case-insensitive `includes`. */
  predicate Mentions(field: string, term: string) {
    Contains(Lower(field), Lower(term))
  }

  predicate OrderMatches(o: OrderRow, term: string, filter: string) {
    (Mentions(o.id, term) || Mentions(o.customerName, term) || Mentions(o.email, term))
    && (filter == "all" || o.status == filter)
  }

  function Matching(term: string, filter: string): OrderRow -> bool {
    (o: OrderRow) => OrderMatches(o, term, filter)
  }

  /** `filteredOrders` */
  function FilteredOrders(orders: seq<OrderRow>, term: string, filter: string): (r: seq<OrderRow>)
    ensures forall o :: o in r <==> o in orders && OrderMatches(o, term, filter)
  {
    Filter(orders, Matching(term, filter))
  }

  /** An empty search with the "all" filter shows every order, in order. */
  lemma EmptySearchShowsAll(orders: seq<OrderRow>)
    ensures FilteredOrders(orders, "", "all") == orders
  {
    forall i | 0 <= i < |orders| ensures Matching("", "all")(orders[i]) {
      ContainsEmpty(Lower(orders[i].id));
    }
    FilterAll(orders, Matching("", "all"));
  }

  /** Narrowing the search twice is narrowing it once: filtering the shown list again
      with the same settings changes nothing. */
  lemma FilterAgainChangesNothing(orders: seq<OrderRow>, term: string, filter: string)
    ensures FilteredOrders(FilteredOrders(orders, term, filter), term, filter) == FilteredOrders(orders, term, filter)
  {
    FilterIdempotent(orders, Matching(term, filter));
  }

  /** The detail dialog's button: completed goes back to processing, anything else
      becomes completed. */
  function Toggle(status: string): (r: string)
    ensures r == "processing" || r == "completed"
    ensures r == "processing" <==> status == "completed"
  {
    if status == "completed" then "processing" else "completed"
  }

  /** On the two statuses the route accepts, toggling twice is the identity. */
  lemma ToggleInvolution(status: string)
    requires status == "processing" || status == "completed"
    ensures Toggle(Toggle(status)) == status
  {
  }

  /** An unknown status becomes completed, and toggling again gives processing, not
      the status it had. */
  lemma ToggleForgetsUnknown()
    ensures Toggle(Toggle("pending")) == "processing"
  {
  }

  /** `handleUpdateStatus`: after an `ok` reply every order with the id gets the new
      status; otherwise the list is unchanged. */
  function UpdateLocal(orders: seq<OrderRow>, orderId: string, status: string, ok: bool): (r: seq<OrderRow>)
    ensures |r| == |orders|
    ensures !ok ==> r == orders
    ensures ok ==> forall i :: 0 <= i < |orders| ==>
      r[i] == if orders[i].id == orderId then orders[i].(status := status) else orders[i]
  {
    if !ok then orders
    else seq(|orders|, i requires 0 <= i < |orders| =>
               if orders[i].id == orderId then orders[i].(status := status) else orders[i])
  }

  /** The page's patched list is what the table now holds. */
  lemma LocalMatchesStore(s: Store, orderId: string, status: string)
    ensures UpdateOrderStatus(s, orderId, status, false).0.orders == UpdateLocal(s.orders, orderId, status, true)
  {
  }
}

module AdminSubscribers {
  import opened Common
  import opened Text
  import opened Schema
  import opened SiteData
  import opened AdminOrders

  function EmailMentions(term: string): SubscriberRow -> bool {
    (r: SubscriberRow) => Mentions(r.email, term)
  }

  /** `filteredSubscribers` */
  function FilteredSubscribers(subs: seq<SubscriberRow>, term: string): (r: seq<SubscriberRow>)
    ensures forall x :: x in r <==> x in subs && Mentions(x.email, term)
  {
    Filter(subs, EmailMentions(term))
  }

  const CsvHeader := "Email,Subscription Date"

  /** One CSV line per subscriber; `date` is the locale's date formatting. Fields are
      not quoted or escaped. */
  function CsvRows(subs: seq<SubscriberRow>, date: int -> string): (r: seq<string>)
    ensures |r| == |subs|
    ensures forall i :: 0 <= i < |subs| ==> r[i] == subs[i].email + "," + date(subs[i].createdAt)
  {
    seq(|subs|, i requires 0 <= i < |subs| => subs[i].email + "," + date(subs[i].createdAt))
  }

  /** `handleExportCSV`: the header line and every subscriber, whatever the search. */
  function ExportCsv(subs: seq<SubscriberRow>, date: int -> string): string {
    Join([CsvHeader] + CsvRows(subs, date), "\n")
  }

  lemma HeaderHasNoBreak()
    ensures CountChar(CsvHeader, '\n') == 0
  {
    assert '\n' !in CsvHeader;
    CountCharAbsent(CsvHeader, '\n');
  }

  lemma RowHasNoBreak(email: string, d: string)
    requires CountChar(email, '\n') == 0 && CountChar(d, '\n') == 0
    ensures CountChar(email + "," + d, '\n') == 0
  {
    CountCharAppend(email, ",", '\n');
    CountCharAppend(email + ",", d, '\n');
  }

  /** When neither addresses nor dates hold a line break, the file has one line for
      the header and one per subscriber: as many breaks as subscribers. */
  lemma CsvLineCount(subs: seq<SubscriberRow>, date: int -> string)
    requires forall i :: 0 <= i < |subs| ==> CountChar(subs[i].email, '\n') == 0
    requires forall i :: 0 <= i < |subs| ==> CountChar(date(subs[i].createdAt), '\n') == 0
    ensures CountChar(ExportCsv(subs, date), '\n') == |subs|
  {
    var rows := CsvRows(subs, date);
    var lines := [CsvHeader] + rows;
    HeaderHasNoBreak();
    forall i | 0 <= i < |lines| ensures CountChar(lines[i], '\n') == 0 {
      if i > 0 {
        assert lines[i] == rows[i - 1];
        RowHasNoBreak(subs[i - 1].email, date(subs[i - 1].createdAt));
      }
    }
    JoinCountsSeparators(lines, '\n');
  }

  /** The delete dialog: the pending id and the local list. */
  datatype Page = Page(subscribers: seq<SubscriberRow>, pending: Option<string>)

  /** `confirmDelete`: with a pending id, an `ok` reply removes every entry with that
      id and any other reply keeps the list; the pending id is cleared either way.
      Without a truthy pending id nothing happens. */
  function ConfirmDelete(p: Page, ok: bool): (r: Page)
    ensures !Truthy(p.pending) ==> r == p
    ensures Truthy(p.pending) ==> r.pending.None?
    ensures Truthy(p.pending) && !ok ==> r.subscribers == p.subscribers
    ensures Truthy(p.pending) && ok ==> forall x :: x in r.subscribers <==> x in p.subscribers && x.id != p.pending.value
  {
    if !Truthy(p.pending) then p
    else if ok then Page(Filter(p.subscribers, SubscriberOther(p.pending.value)), None)
    else Page(p.subscribers, None)
  }

  /** The page's list after a delete is what the table now holds. */
  lemma DeleteMatchesStore(s: Store, id: string)
    requires id != ""
    ensures ConfirmDelete(Page(s.subscribers, Some(id)), true).subscribers == DeleteSubscriber(s, id, false).0.subscribers
  {
  }
}

module AdminProducts {
  import opened Common
  import opened Text
  import opened Schema
  import opened AdminOrders

  /** A product matches on its name, or on its description when it has one. */
  predicate ProductMatches(p: Product, term: string) {
    Mentions(p.name, term) || (p.description.Some? && Mentions(p.description.value, term))
  }

  function MatchingProduct(term: string): Product -> bool {
    (p: Product) => ProductMatches(p, term)
  }

  /** `filteredProducts` */
  function FilteredProducts(products: seq<Product>, term: string): (r: seq<Product>)
    ensures forall p :: p in r <==> p in products && ProductMatches(p, term)
  {
    Filter(products, MatchingProduct(term))
  }

  /** An empty search shows every product. */
  lemma EmptySearchShowsAll(products: seq<Product>)
    ensures FilteredProducts(products, "") == products
  {
    forall i | 0 <= i < |products| ensures MatchingProduct("")(products[i]) {
      ContainsEmpty(Lower(products[i].name));
    }
    FilterAll(products, MatchingProduct(""));
  }

  /** Without a description only the name is searched. */
  lemma NoDescriptionMatchesByName(p: Product, term: string)
    requires p.description.None?
    ensures ProductMatches(p, term) <==> Mentions(p.name, term)
  {
  }

  function ProductOther(id: string): Product -> bool {
    (p: Product) => p.id != id
  }

  datatype Page = Page(products: seq<Product>, pending: Option<string>)

  /** `confirmDelete`: an `ok` reply drops the product with that id; a failed request
      keeps the list; the pending id is cleared either way. */
  function ConfirmDelete(p: Page, ok: bool): (r: Page)
    ensures !Truthy(p.pending) ==> r == p
    ensures Truthy(p.pending) ==> r.pending.None?
    ensures Truthy(p.pending) && !ok ==> r.products == p.products
    ensures Truthy(p.pending) && ok ==> forall x :: x in r.products <==> x in p.products && x.id != p.pending.value
  {
    if !Truthy(p.pending) then p
    else if ok then Page(Filter(p.products, ProductOther(p.pending.value)), None)
    else Page(p.products, None)
  }
}

=== FILE: cart.dfy ===
/** The shopping cart of lib/cart.ts: a list of (product, quantity) entries with at
    most one entry per product id. The persisted zustand store around it is left
    out; each action is a function from the item list to the next one. */
module Cart {
  import opened Common
  import opened Schema

  datatype CartItem = CartItem(product: Product, quantity: int)

  /** No two entries are for the same product. */
  predicate UniqueIds(items: seq<CartItem>) {
    forall i, j :: 0 <= i < j < |items| ==> items[i].product.id != items[j].product.id
  }

  predicate InCart(items: seq<CartItem>, pid: string) {
    exists i | 0 <= i < |items| :: items[i].product.id == pid
  }

  /** The index of the entry for `pid`, when there is one. */
  function IndexOf(items: seq<CartItem>, pid: string): (k: Option<nat>)
    ensures k.Some? <==> InCart(items, pid)
    ensures k.Some? ==> k.value < |items| && items[k.value].product.id == pid
  {
    if |items| == 0 then None
    else if items[0].product.id == pid then Some(0)
    else
      var k := IndexOf(items[1..], pid);
      assert forall i | 1 <= i < |items| :: items[i] == items[1..][i - 1];
      if k.Some? then Some(k.value + 1) else None
  }

  // ------------------------------------------------------------ actions

  /** `addItem(product, quantity = 1)`: an entry already there keeps its stored
      product and gains `quantity`; otherwise a new entry goes at the end. The
      quantity is not checked. */
  function AddItem(items: seq<CartItem>, product: Product, quantity: int): (r: seq<CartItem>)
    ensures InCart(items, product.id) ==> (|r| == |items|
      && forall i :: 0 <= i < |items| ==>
           r[i] == if items[i].product.id == product.id
                   then CartItem(items[i].product, items[i].quantity + quantity) else items[i])
    ensures !InCart(items, product.id) ==> r == items + [CartItem(product, quantity)]
  {
    if InCart(items, product.id) then
      seq(|items|, i requires 0 <= i < |items| =>
            if items[i].product.id == product.id
            then items[i].(quantity := items[i].quantity + quantity) else items[i])
    else items + [CartItem(product, quantity)]
  }

  /** `addItem(product)` with the default quantity. */
  function AddOne(items: seq<CartItem>, product: Product): (r: seq<CartItem>)
    ensures !InCart(items, product.id) ==> r == items + [CartItem(product, 1)]
    ensures InCart(items, product.id) ==> |r| == |items| && forall i :: 0 <= i < |items| ==>
      r[i].quantity == items[i].quantity + (if items[i].product.id == product.id then 1 else 0)
  {
    AddItem(items, product, 1)
  }

  function NotFor(pid: string): CartItem -> bool {
    (item: CartItem) => item.product.id != pid
  }

  /** `removeItem(productId)`: drops the entries for that id, keeping the others in order. */
  function RemoveItem(items: seq<CartItem>, pid: string): (r: seq<CartItem>)
    ensures !InCart(r, pid)
    ensures forall i :: 0 <= i < |items| && items[i].product.id != pid ==> items[i] in r
    ensures forall i :: 0 <= i < |r| ==> r[i] in items
    ensures !InCart(items, pid) ==> r == items
  {
    if !InCart(items, pid) then
      FilterAll(items, NotFor(pid));
      Filter(items, NotFor(pid))
    else Filter(items, NotFor(pid))
  }

  /** `updateQuantity(productId, quantity)`: ignored below 1, otherwise it sets the
      quantity of the entries for that id. */
  function UpdateQuantity(items: seq<CartItem>, pid: string, quantity: int): (r: seq<CartItem>)
    ensures quantity < 1 ==> r == items
    ensures quantity >= 1 ==> (|r| == |items|
      && forall i :: 0 <= i < |items| ==>
           r[i] == if items[i].product.id == pid then items[i].(quantity := quantity) else items[i])
  {
    if quantity < 1 then items
    else
      seq(|items|, i requires 0 <= i < |items| =>
            if items[i].product.id == pid then items[i].(quantity := quantity) else items[i])
  }

  /** `clearCart()` */
  function ClearCart(items: seq<CartItem>): (r: seq<CartItem>)
    ensures ItemCount(r) == 0 && Total(r) == 0 && UniqueIds(r)
  {
    []
  }

  // ------------------------------------------------------------ folds

  /** `items.reduce((total, item) => total + w(item), 0)` */
  function SumOf(items: seq<CartItem>, w: CartItem -> int): int {
    if |items| == 0 then 0 else SumOf(items[..|items| - 1], w) + w(items[|items| - 1])
  }

  function QuantityOf(item: CartItem): int {
    item.quantity
  }

  function LineTotal(item: CartItem): int {
    item.product.price * item.quantity
  }

  /** `getItemCount()` */
  function ItemCount(items: seq<CartItem>): int {
    SumOf(items, QuantityOf)
  }

  /** `getTotal()` */
  function Total(items: seq<CartItem>): int {
    SumOf(items, LineTotal)
  }

  lemma SumSnoc(items: seq<CartItem>, x: CartItem, w: CartItem -> int)
    ensures SumOf(items + [x], w) == SumOf(items, w) + w(x)
  {
    assert (items + [x])[..|items|] == items;
  }

  /** Replacing one entry changes a fold by exactly the difference of their shares. */
  lemma {:induction false} SumChangeAt(items: seq<CartItem>, k: nat, x: CartItem, w: CartItem -> int)
    requires k < |items|
    ensures SumOf(items[k := x], w) == SumOf(items, w) - w(items[k]) + w(x)
  {
    var n := |items| - 1;
    var changed := items[k := x];
    assert changed[..n] == if k == n then items[..n] else items[..n][k := x];
    if k < n {
      SumChangeAt(items[..n], k, x, w);
    }
  }

  /** Dropping one entry removes exactly its share from a fold. */
  lemma {:induction false} SumWithout(items: seq<CartItem>, k: nat, w: CartItem -> int)
    requires k < |items|
    ensures SumOf(items[..k] + items[k + 1..], w) == SumOf(items, w) - w(items[k])
  {
    var n := |items| - 1;
    if k == n {
      assert items[..k] + items[k + 1..] == items[..n];
    } else {
      SumWithout(items[..n], k, w);
      assert items[..k] + items[k + 1..] == (items[..n][..k] + items[..n][k + 1..]) + [items[n]];
      SumSnoc(items[..n][..k] + items[..n][k + 1..], items[n], w);
    }
  }

  // ------------------------------------------------------------ properties

  /** Every action keeps the product ids distinct. */
  lemma AddItemKeepsIdsUnique(items: seq<CartItem>, product: Product, quantity: int)
    requires UniqueIds(items)
    ensures UniqueIds(AddItem(items, product, quantity))
  {
    var r := AddItem(items, product, quantity);
    if InCart(items, product.id) {
      assert forall i :: 0 <= i < |r| ==> r[i].product == items[i].product;
    } else {
      assert forall i :: 0 <= i < |items| ==> r[i] == items[i];
    }
  }

  lemma RemoveItemKeepsIdsUnique(items: seq<CartItem>, pid: string)
    requires UniqueIds(items)
    ensures UniqueIds(RemoveItem(items, pid))
  {
    FilterKeepsUnique(items, NotFor(pid));
  }

  lemma UpdateQuantityKeepsIdsUnique(items: seq<CartItem>, pid: string, quantity: int)
    requires UniqueIds(items)
    ensures UniqueIds(UpdateQuantity(items, pid, quantity))
  {
    var r := UpdateQuantity(items, pid, quantity);
    assert forall i :: 0 <= i < |r| ==> r[i].product == items[i].product;
  }

  lemma {:induction false} FilterKeepsUnique(items: seq<CartItem>, keep: CartItem -> bool)
    requires UniqueIds(items)
    ensures UniqueIds(Filter(items, keep))
  {
    if |items| > 0 {
      FilterKeepsUnique(items[1..], keep);
      var rest := Filter(items[1..], keep);
      forall j | 0 <= j < |rest| ensures rest[j].product.id != items[0].product.id {
        var m :| 0 <= m < |items[1..]| && items[1..][m] == rest[j];
        assert items[m + 1] == rest[j];
      }
    }
  }

  /** With distinct ids, an entry is the only one for its product. */
  lemma OnlyEntry(items: seq<CartItem>, k: nat)
    requires UniqueIds(items) && k < |items|
    ensures forall i :: 0 <= i < |items| && items[i].product.id == items[k].product.id ==> i == k
  {
  }

  /** For a product already in the cart, `addItem` changes only its entry. */
  lemma AddExisting(items: seq<CartItem>, product: Product, quantity: int, k: nat)
    requires k < |items| && items[k].product.id == product.id
    requires forall i :: 0 <= i < |items| && i != k ==> items[i].product.id != product.id
    ensures AddItem(items, product, quantity) == items[k := items[k].(quantity := items[k].quantity + quantity)]
  {
    var r := AddItem(items, product, quantity);
    var want := items[k := items[k].(quantity := items[k].quantity + quantity)];
    forall i | 0 <= i < |r| ensures r[i] == want[i] {
    }
  }

  lemma AddExistingFolds(items: seq<CartItem>, product: Product, quantity: int, k: nat)
    requires k < |items| && items[k].product.id == product.id
    requires forall i :: 0 <= i < |items| && i != k ==> items[i].product.id != product.id
    ensures ItemCount(AddItem(items, product, quantity)) == ItemCount(items) + quantity
    ensures Total(AddItem(items, product, quantity)) == Total(items) + items[k].product.price * quantity
  {
    var x := items[k].(quantity := items[k].quantity + quantity);
    AddExisting(items, product, quantity, k);
    SumChangeAt(items, k, x, QuantityOf);
    SumChangeAt(items, k, x, LineTotal);
    MulAdd(items[k].product.price, items[k].quantity, quantity);
  }

  lemma MulAdd(a: int, b: int, c: int)
    ensures a * (b + c) == a * b + a * c
  {
  }

  /** `addItem` raises the item count by `quantity`, and the total by `quantity`
      times the price of the product as first added. */
  lemma AddItemFolds(items: seq<CartItem>, product: Product, quantity: int)
    requires UniqueIds(items)
    ensures ItemCount(AddItem(items, product, quantity)) == ItemCount(items) + quantity
    ensures var price := if InCart(items, product.id) then items[IndexOf(items, product.id).value].product.price
                         else product.price;
      Total(AddItem(items, product, quantity)) == Total(items) + price * quantity
  {
    if InCart(items, product.id) {
      var k := IndexOf(items, product.id).value;
      OnlyEntry(items, k);
      AddExistingFolds(items, product, quantity, k);
    } else {
      SumSnoc(items, CartItem(product, quantity), QuantityOf);
      SumSnoc(items, CartItem(product, quantity), LineTotal);
    }
  }

  /** After `addItem` the product is in the cart. */
  lemma AddedIsInCart(items: seq<CartItem>, product: Product, quantity: int)
    ensures InCart(AddItem(items, product, quantity), product.id)
  {
    var r := AddItem(items, product, quantity);
    if InCart(items, product.id) {
      var k := IndexOf(items, product.id).value;
      assert r[k].product.id == product.id;
    } else {
      assert r[|items|].product.id == product.id;
    }
  }

  /** With distinct ids, `removeItem` cuts out exactly one entry. */
  lemma RemovePresent(items: seq<CartItem>, k: nat)
    requires UniqueIds(items) && k < |items|
    ensures RemoveItem(items, items[k].product.id) == items[..k] + items[k + 1..]
  {
    var pid := items[k].product.id;
    var before, after := items[..k], items[k + 1..];
    assert items == before + ([items[k]] + after);
    assert Filter(before, NotFor(pid)) == before by {
      forall i | 0 <= i < |before| ensures NotFor(pid)(before[i]) {
        assert before[i] == items[i];
      }
      FilterAll(before, NotFor(pid));
    }
    assert Filter(after, NotFor(pid)) == after by {
      forall i | 0 <= i < |after| ensures NotFor(pid)(after[i]) {
        assert after[i] == items[k + 1 + i];
      }
      FilterAll(after, NotFor(pid));
    }
    FilterAppend(before, [items[k]] + after, NotFor(pid));
    FilterAppend([items[k]], after, NotFor(pid));
    FilterNone([items[k]], NotFor(pid));
    assert [] + after == after;
  }

  /** `removeItem` takes away exactly the removed entry's share. */
  lemma RemoveItemFolds(items: seq<CartItem>, pid: string)
    requires UniqueIds(items) && InCart(items, pid)
    ensures var k := IndexOf(items, pid).value;
      && RemoveItem(items, pid) == items[..k] + items[k + 1..]
      && ItemCount(RemoveItem(items, pid)) == ItemCount(items) - items[k].quantity
      && Total(RemoveItem(items, pid)) == Total(items) - items[k].product.price * items[k].quantity
  {
    var k := IndexOf(items, pid).value;
    RemovePresent(items, k);
    SumWithout(items, k, QuantityOf);
    SumWithout(items, k, LineTotal);
  }

  /** Adding a product that was not in the cart and removing it again restores the cart. */
  lemma AddThenRemove(items: seq<CartItem>, product: Product, quantity: int)
    requires !InCart(items, product.id)
    ensures RemoveItem(AddItem(items, product, quantity), product.id) == items
  {
    var x := CartItem(product, quantity);
    FilterAppend(items, [x], NotFor(product.id));
    FilterAll(items, NotFor(product.id));
    FilterNone([x], NotFor(product.id));
    assert items + [] == items;
  }

  /** Setting a quantity of at least 1 makes that entry's quantity exactly it. */
  lemma UpdateQuantitySets(items: seq<CartItem>, pid: string, quantity: int)
    requires UniqueIds(items) && InCart(items, pid) && quantity >= 1
    ensures var k := IndexOf(items, pid).value;
      && UpdateQuantity(items, pid, quantity)[k].quantity == quantity
      && ItemCount(UpdateQuantity(items, pid, quantity)) == ItemCount(items) - items[k].quantity + quantity
  {
    var k := IndexOf(items, pid).value;
    OnlyEntry(items, k);
    assert UpdateQuantity(items, pid, quantity) == items[k := items[k].(quantity := quantity)];
    SumChangeAt(items, k, items[k].(quantity := quantity), QuantityOf);
  }

  predicate AllPositive(items: seq<CartItem>) {
    forall i :: 0 <= i < |items| ==> items[i].quantity >= 1
  }

  /** Quantities stay at least 1 only as long as callers add positive amounts:
      `updateQuantity` guards, `addItem` does not. */
  lemma PositiveQuantities(items: seq<CartItem>, product: Product, quantity: int, pid: string, q: int)
    requires AllPositive(items)
    ensures AllPositive(UpdateQuantity(items, pid, q))
    ensures AllPositive(RemoveItem(items, pid))
    ensures quantity >= 1 ==> AllPositive(AddItem(items, product, quantity))
    ensures quantity < 1 && !InCart(items, product.id) ==> !AllPositive(AddItem(items, product, quantity))
  {
    if quantity < 1 && !InCart(items, product.id) {
      assert AddItem(items, product, quantity)[|items|].quantity == quantity;
    }
  }

  lemma {:induction false} CountPositive(items: seq<CartItem>)
    requires AllPositive(items)
    ensures ItemCount(items) >= |items|
  {
    if |items| > 0 {
      CountPositive(items[..|items| - 1]);
    }
  }
}

=== FILE: catalog_proofs.dfy ===
/** What the catalog's writes promise its reads: the create-then-fetch round trip,
    the replace semantics of `updateProduct`, the cascade of `deleteProduct`, and the
    display-order collision of `addProductImages`. */
module CatalogProofs {
  import opened Common
  import opened Ranking
  import opened Schema
  import opened CatalogRead
  import opened CatalogWrite

  // ------------------------------------------------------------ ranked runs

  /** Payloads `items[i]` at rank `first + i`: what a freshly inserted run of rows
      looks like to `ORDER BY displayOrder`. */
  function RankedRun<T>(items: seq<T>, first: int): (r: seq<Ranked<T>>)
    ensures |r| == |items| && SortedByRank(r) && Values(r) == items
  {
    seq(|items|, i requires 0 <= i < |items| => Ranked(items[i], first + i))
  }

  /** An image run appended after rows of other products is read back as inserted. */
  lemma ImagesOfAppended(s: Store, other: seq<ImageRow>, pid: string, urls: seq<string>, first: int)
    requires forall i :: 0 <= i < |other| ==> other[i].productId != pid
    ensures ImagesOf(s.(images := other + ImageRowsFrom(pid, urls, first)), pid) == urls
  {
    var rows := ImageRowsFrom(pid, urls, first);
    SelectAfterNone(other, rows, ImagePick(pid));
    SelectAllSome(rows, ImagePick(pid));
    assert Select(rows, ImagePick(pid)) == RankedRun(urls, first);
    SortSortedIsIdentity(RankedRun(urls, first));
  }

  /** An ingredient list appended after rows of other products is read back as inserted. */
  lemma IngredientsOfAppended(s: Store, other: seq<IngredientRow>, pid: string, items: seq<string>)
    requires forall i :: 0 <= i < |other| ==> other[i].productId != pid
    ensures IngredientsOf(s.(ingredients := other + IngredientRowsOf(pid, items)), pid) == items
  {
    var rows := IngredientRowsOf(pid, items);
    SelectAfterNone(other, rows, IngredientPick(pid));
    SelectAllSome(rows, IngredientPick(pid));
    assert Select(rows, IngredientPick(pid)) == RankedRun(items, 0);
    SortSortedIsIdentity(RankedRun(items, 0));
  }

  // ------------------------------------------------------------ translation payloads

  /** The payload entry of language `l`; the last one, should a key repeat. */
  function EntryFor(entries: seq<LangEntry>, l: string): (r: Option<TranslationInput>)
    ensures r.Some? <==> exists k | 0 <= k < |entries| :: entries[k].lang == l
  {
    if |entries| == 0 then None
    else
      var front := entries[..|entries| - 1];
      assert forall k | 0 <= k < |front| :: front[k] == entries[k];
      if entries[|entries| - 1].lang == l then Some(entries[|entries| - 1].input) else EntryFor(front, l)
  }

  function Langs(entries: seq<LangEntry>): set<string> {
    set k | 0 <= k < |entries| :: entries[k].lang
  }

  /** The ingredient list a payload gives language `l`; none counts as empty. */
  function IngredientsFor(entries: seq<LangEntry>, l: string): seq<NullableText> {
    var e := EntryFor(entries, l);
    if e.Some? then IngredientsIn(e.value) else []
  }

  predicate HasTextFor(entries: seq<LangEntry>, l: string) {
    EntryFor(entries, l).Some? && HasText(EntryFor(entries, l).value)
  }

  /** How a payload translation reads back: empty strings as absent, and the
      ingredient list only when it is non-empty. */
  function ReadBack(t: TranslationInput): Translation {
    Translation(NullIfEmpty(t.name), NullIfEmpty(t.description), NullIfEmpty(t.fullDescription),
                if |IngredientsIn(t)| > 0 then Some(IngredientsIn(t)) else None)
  }

  /** The translations a created product reads back with: exactly the languages whose
      payload has some text. A language with only ingredients is not there. */
  function StoredTranslations(entries: seq<LangEntry>): (m: map<string, Translation>)
    ensures forall l :: l in m <==> HasTextFor(entries, l)
  {
    map l | l in Langs(entries) && HasTextFor(entries, l) :: ReadBack(EntryFor(entries, l).value)
  }

  /** No language that gets a translation row was sent an ingredient list on which
      the read paths' `.sort` throws. */
  predicate SortSafe(entries: seq<LangEntry>) {
    forall l | l in Langs(entries) && HasTextFor(entries, l) :: !SortThrows(IngredientsFor(entries, l))
  }

  /** The product `createProduct` promises to store. */
  function CreatedProduct(pid: string, p: NewProduct): Product {
    Product(pid, p.name, p.slug, p.price, p.image,
            Some([p.image] + p.additionalImages),
            Some(OrEmpty(p.description)),
            Some(OrEmpty(p.fullDescription)),
            Some(p.ingredients),
            StoredTranslations(p.translations))
  }

  lemma DistinctFront(entries: seq<LangEntry>)
    requires DistinctLangs(entries) && |entries| > 0
    ensures DistinctLangs(entries[..|entries| - 1])
    ensures EntryFor(entries[..|entries| - 1], entries[|entries| - 1].lang).None?
  {
  }

  /** The translation rows of a created product format to one entry per language with text. */
  lemma {:induction false} FormatCreated(pid: string, entries: seq<LangEntry>, l: string)
    requires DistinctLangs(entries)
    ensures var m := FormatTranslations(CreatedTranslationRows(pid, entries));
      && (l in m <==> HasTextFor(entries, l))
      && (l in m ==> m[l] == BaseTranslation(NewTranslationRow(pid, LangEntry(l, EntryFor(entries, l).value))))
  {
    if |entries| > 0 {
      var front := entries[..|entries| - 1];
      var last := entries[|entries| - 1];
      DistinctFront(entries);
      FormatCreated(pid, front, l);
      var rows := CreatedTranslationRows(pid, front);
      if HasText(last.input) {
        var row := NewTranslationRow(pid, last);
        assert (rows + [row])[..|rows|] == rows;
        assert FormatTranslations(rows + [row]) == FormatTranslations(rows)[last.lang := BaseTranslation(row)];
      } else {
        assert rows + [] == rows;
      }
    }
  }

  /** Each row of a language's run, ranked by its display order. */
  function RankRows(rows: seq<IngredientTranslationRow>): (r: seq<Ranked<IngredientTranslationRow>>)
    ensures |r| == |rows|
    ensures forall i :: 0 <= i < |rows| ==> r[i] == Ranked(rows[i], rows[i].displayOrder)
  {
    seq(|rows|, i requires 0 <= i < |rows| => Ranked(rows[i], rows[i].displayOrder))
  }

  /** One language's run reads back sorted, as its list. */
  lemma LangRunReadsBack(pid: string, l: string, items: seq<NullableText>)
    ensures SortedByRank(RankRows(LangIngredientRows(pid, l, items)))
    ensures IngredientNames(RankRows(LangIngredientRows(pid, l, items))) == items
  {
  }

  lemma RankRowsAppend(a: seq<IngredientTranslationRow>, b: seq<IngredientTranslationRow>)
    ensures RankRows(a + b) == RankRows(a) + RankRows(b)
  {
  }

  /** Among a created product's ingredient-translation rows, language `l` keeps exactly its own run. */
  lemma {:induction false} KeepCreated(pid: string, entries: seq<LangEntry>, l: string)
    requires DistinctLangs(entries)
    ensures KeepValues(RankRows(CreatedIngredientTranslationRows(pid, entries)), LangFilter(l))
         == RankRows(LangIngredientRows(pid, l, IngredientsFor(entries, l)))
  {
    if |entries| == 0 {
      assert RankRows([]) == [];
    } else {
      var front := entries[..|entries| - 1];
      var last := entries[|entries| - 1];
      DistinctFront(entries);
      KeepCreated(pid, front, l);
      var a := CreatedIngredientTranslationRows(pid, front);
      var b := LangIngredientRows(pid, last.lang, IngredientsIn(last.input));
      assert CreatedIngredientTranslationRows(pid, entries) == a + b;
      RankRowsAppend(a, b);
      KeepValuesAppend(RankRows(a), RankRows(b), LangFilter(l));
      KeepRun(pid, last.lang, IngredientsIn(last.input), l);
      if last.lang == l {
        assert RankRows(LangIngredientRows(pid, l, [])) == [];
      }
    }
  }

  /** A language's own run is kept whole; another language's run is dropped. */
  lemma KeepRun(pid: string, lang: string, items: seq<NullableText>, l: string)
    ensures KeepValues(RankRows(LangIngredientRows(pid, lang, items)), LangFilter(l))
         == if lang == l then RankRows(LangIngredientRows(pid, lang, items)) else []
  {
    var b := RankRows(LangIngredientRows(pid, lang, items));
    if lang == l {
      KeepValuesAll(b, LangFilter(l));
    } else {
      KeepValuesNone(b, LangFilter(l));
    }
  }

  /** Language `l`'s ingredient list as the read path sees it, for a store whose rows of
      product `pid` are exactly the created ones. */
  lemma LangIngredientsCreated(rows: seq<IngredientTranslationRow>, pid: string, entries: seq<LangEntry>, l: string)
    requires DistinctLangs(entries)
    requires Select(rows, IngredientTranslationPick(pid)) == RankRows(CreatedIngredientTranslationRows(pid, entries))
    ensures LangIngredients(SortByRank(Select(rows, IngredientTranslationPick(pid))), l) == IngredientsFor(entries, l)
  {
    var ranked := RankRows(CreatedIngredientTranslationRows(pid, entries));
    KeepValuesSort(ranked, LangFilter(l));
    KeepCreated(pid, entries, l);
    LangRunReadsBack(pid, l, IngredientsFor(entries, l));
    SortSortedIsIdentity(RankRows(LangIngredientRows(pid, l, IngredientsFor(entries, l))));
  }

  /** The translation rows of a store that holds only the created ones for `pid`. */
  lemma CreatedRowsSelected(s: Store, t: Store, pid: string, entries: seq<LangEntry>)
    requires forall i :: 0 <= i < |s.translations| ==> s.translations[i].productId != pid
    requires forall i :: 0 <= i < |s.ingredientTranslations| ==> s.ingredientTranslations[i].productId != pid
    requires t.translations == s.translations + CreatedTranslationRows(pid, entries)
    requires t.ingredientTranslations == s.ingredientTranslations + CreatedIngredientTranslationRows(pid, entries)
    ensures Filter(t.translations, TranslationOf(pid)) == CreatedTranslationRows(pid, entries)
    ensures Select(t.ingredientTranslations, IngredientTranslationPick(pid))
         == RankRows(CreatedIngredientTranslationRows(pid, entries))
  {
    var created := CreatedTranslationRows(pid, entries);
    var createdI := CreatedIngredientTranslationRows(pid, entries);
    FilterAppend(s.translations, created, TranslationOf(pid));
    FilterNone(s.translations, TranslationOf(pid));
    FilterAll(created, TranslationOf(pid));
    SelectAfterNone(s.ingredientTranslations, createdI, IngredientTranslationPick(pid));
    SelectAllSome(createdI, IngredientTranslationPick(pid));
  }

  /** One language of a created product's translations. */
  lemma TranslationsCreatedAt(t: Store, pid: string, entries: seq<LangEntry>, l: string)
    requires DistinctLangs(entries)
    requires Filter(t.translations, TranslationOf(pid)) == CreatedTranslationRows(pid, entries)
    requires Select(t.ingredientTranslations, IngredientTranslationPick(pid))
          == RankRows(CreatedIngredientTranslationRows(pid, entries))
    ensures l in TranslationsOf(t, pid) <==> l in StoredTranslations(entries)
    ensures l in TranslationsOf(t, pid) ==> TranslationsOf(t, pid)[l] == StoredTranslations(entries)[l]
    ensures LangIngredients(SortedIngredientTranslations(t, pid), l) == IngredientsFor(entries, l)
  {
    FormatCreated(pid, entries, l);
    LangIngredientsCreated(t.ingredientTranslations, pid, entries, l);
  }

  /** A created product's translations read back as `StoredTranslations`. */
  lemma TranslationsCreated(s: Store, pid: string, entries: seq<LangEntry>)
    requires DistinctLangs(entries)
    requires forall i :: 0 <= i < |s.translations| ==> s.translations[i].productId != pid
    requires forall i :: 0 <= i < |s.ingredientTranslations| ==> s.ingredientTranslations[i].productId != pid
    ensures TranslationsOf(s.(translations := s.translations + CreatedTranslationRows(pid, entries),
                              ingredientTranslations := s.ingredientTranslations
                                + CreatedIngredientTranslationRows(pid, entries)), pid)
         == StoredTranslations(entries)
    ensures IngredientSortThrows(s.(translations := s.translations + CreatedTranslationRows(pid, entries),
                                    ingredientTranslations := s.ingredientTranslations
                                      + CreatedIngredientTranslationRows(pid, entries)), pid)
        <==> !SortSafe(entries)
  {
    var t := s.(translations := s.translations + CreatedTranslationRows(pid, entries),
                ingredientTranslations := s.ingredientTranslations + CreatedIngredientTranslationRows(pid, entries));
    CreatedRowsSelected(s, t, pid, entries);
    TranslationsReadBack(t, pid, entries);
  }

  /** Every language at once: the map read back is `StoredTranslations`. */
  lemma TranslationsReadBack(t: Store, pid: string, entries: seq<LangEntry>)
    requires DistinctLangs(entries)
    requires Filter(t.translations, TranslationOf(pid)) == CreatedTranslationRows(pid, entries)
    requires Select(t.ingredientTranslations, IngredientTranslationPick(pid))
          == RankRows(CreatedIngredientTranslationRows(pid, entries))
    ensures TranslationsOf(t, pid) == StoredTranslations(entries)
    ensures IngredientSortThrows(t, pid) <==> !SortSafe(entries)
  {
    CreatedSortThrows(t, pid, entries);
    var m := TranslationsOf(t, pid);
    var want := StoredTranslations(entries);
    forall l
      ensures l in m <==> l in want
      ensures l in m ==> m[l] == want[l]
    {
      TranslationsCreatedAt(t, pid, entries, l);
    }
    assert m.Keys == want.Keys;
  }

  /** The read of a created product throws in its ingredient `.sort` exactly when
      some language with text was sent a list on which the sort throws. */
  lemma CreatedSortThrows(t: Store, pid: string, entries: seq<LangEntry>)
    requires DistinctLangs(entries)
    requires Filter(t.translations, TranslationOf(pid)) == CreatedTranslationRows(pid, entries)
    requires Select(t.ingredientTranslations, IngredientTranslationPick(pid))
          == RankRows(CreatedIngredientTranslationRows(pid, entries))
    ensures IngredientSortThrows(t, pid) <==> !SortSafe(entries)
  {
    if IngredientSortThrows(t, pid) {
      var l :| l in FormatTranslations(Filter(t.translations, TranslationOf(pid)))
               && SortThrows(LangIngredients(SortedIngredientTranslations(t, pid), l));
      FormatCreated(pid, entries, l);
      TranslationsCreatedAt(t, pid, entries, l);
    }
    if !SortSafe(entries) {
      var l :| l in Langs(entries) && HasTextFor(entries, l) && SortThrows(IngredientsFor(entries, l));
      FormatCreated(pid, entries, l);
      TranslationsCreatedAt(t, pid, entries, l);
    }
  }

  // ------------------------------------------------------------ the round trip

  /** Fetching a freshly created product by id gives back what was sent: the main image
      followed by the additional ones, the ingredients in order, and the translations of
      every language that had text, with their ingredient lists. */
  lemma CreateThenGetByIdFixed(s: Store, pid: string, now: int, p: NewProduct)
    requires !ProductIdUsed(s, pid)
    requires DistinctLangs(p.translations)
    ensures CreateProduct(s, pid, now, p, false).1 == Some(pid)
    ensures GetProductByIdFixed(CreateProduct(s, pid, now, p, false).0, pid, false)
         == Some(ProductRecord(CreatedProduct(pid, p), now, now))
    ensures IngredientSortThrows(CreateProduct(s, pid, now, p, false).0, pid) <==> !SortSafe(p.translations)
  {
    CreatedRowFound(s, pid, now, p);
    CreatedImagesRead(s, pid, now, p);
    CreatedIngredientsRead(s, pid, now, p);
    TranslationsCreated(s, pid, p.translations);
    assert CreateProduct(s, pid, now, p, false).0.translations == s.translations + CreatedTranslationRows(pid, p.translations);
  }

  /** As written, the same round trip holds when no language with text was sent an
      ingredient list on which the read's `.sort` throws. */
  lemma CreateThenGetById(s: Store, pid: string, now: int, p: NewProduct)
    requires !ProductIdUsed(s, pid)
    requires DistinctLangs(p.translations)
    requires SortSafe(p.translations)
    ensures CreateProduct(s, pid, now, p, false).1 == Some(pid)
    ensures GetProductById(CreateProduct(s, pid, now, p, false).0, pid, false)
         == Some(ProductRecord(CreatedProduct(pid, p), now, now))
  {
    CreateThenGetByIdFixed(s, pid, now, p);
  }

  /** As written, a product created with a `null` in a translated ingredient list of
      two or more entries, for a language with text, is stored but cannot be read:
      fetching it by id gives `null` and listing the products gives `[]`. */
  lemma CreateThenGetByIdThrows(s: Store, pid: string, now: int, p: NewProduct)
    requires !ProductIdUsed(s, pid)
    requires DistinctLangs(p.translations)
    requires !SortSafe(p.translations)
    ensures CreateProduct(s, pid, now, p, false).1 == Some(pid)
    ensures GetProductByIdFixed(CreateProduct(s, pid, now, p, false).0, pid, false).Some?
    ensures GetProductById(CreateProduct(s, pid, now, p, false).0, pid, false).None?
    ensures GetProducts(CreateProduct(s, pid, now, p, false).0, false) == []
  {
    var t := CreateProduct(s, pid, now, p, false).0;
    CreateThenGetByIdFixed(s, pid, now, p);
    assert t.products[|t.products| - 1].id == pid;
  }

  /** The product row a creation inserts is the only one with its id. */
  lemma CreatedRowFound(s: Store, pid: string, now: int, p: NewProduct)
    requires !ProductIdUsed(s, pid)
    ensures Filter(CreateProduct(s, pid, now, p, false).0.products, IdIs(pid))
         == [ProductRow(pid, p.name, p.slug, p.price, p.image, Some(OrEmpty(p.description)),
                        Some(OrEmpty(p.fullDescription)), now, now)]
  {
    var row := ProductRow(pid, p.name, p.slug, p.price, p.image, Some(OrEmpty(p.description)),
                          Some(OrEmpty(p.fullDescription)), now, now);
    FilterAppend(s.products, [row], IdIs(pid));
    FilterNone(s.products, IdIs(pid));
  }

  /** A created product's gallery is its main image followed by the additional ones. */
  lemma CreatedImagesRead(s: Store, pid: string, now: int, p: NewProduct)
    requires !ProductIdUsed(s, pid)
    ensures ImagesOf(CreateProduct(s, pid, now, p, false).0, pid) == [p.image] + p.additionalImages
  {
    var t := CreateProduct(s, pid, now, p, false).0;
    assert t.images == s.images + ImageRowsFrom(pid, [p.image] + p.additionalImages, 0);
    ImagesOfAppended(t, s.images, pid, [p.image] + p.additionalImages, 0);
    assert t.(images := t.images) == t;
  }

  lemma CreatedIngredientsRead(s: Store, pid: string, now: int, p: NewProduct)
    requires !ProductIdUsed(s, pid)
    ensures IngredientsOf(CreateProduct(s, pid, now, p, false).0, pid) == p.ingredients
  {
    var t := CreateProduct(s, pid, now, p, false).0;
    IngredientsOfAppended(t, s.ingredients, pid, p.ingredients);
    assert t.(ingredients := t.ingredients) == t;
  }

  /** A language whose payload has ingredients but no text gets ingredient rows in the
      store, yet the created product reads back without that language. */
  lemma IngredientsWithoutTextAreDropped(s: Store, pid: string, now: int, p: NewProduct, k: nat)
    requires !ProductIdUsed(s, pid)
    requires DistinctLangs(p.translations) && SortSafe(p.translations)
    requires k < |p.translations| && !HasText(p.translations[k].input)
    requires |IngredientsIn(p.translations[k].input)| > 0
    ensures exists i | 0 <= i < |CreateProduct(s, pid, now, p, false).0.ingredientTranslations| ::
      && CreateProduct(s, pid, now, p, false).0.ingredientTranslations[i].productId == pid
      && CreateProduct(s, pid, now, p, false).0.ingredientTranslations[i].lang == p.translations[k].lang
    ensures GetProductById(CreateProduct(s, pid, now, p, false).0, pid, false).Some?
    ensures p.translations[k].lang !in GetProductById(CreateProduct(s, pid, now, p, false).0, pid, false).value.product.translations
  {
    CreatedLangRowStored(s, pid, now, p, k);
    LangWithoutTextDropped(s, pid, now, p, k);
  }

  lemma CreatedLangRowStored(s: Store, pid: string, now: int, p: NewProduct, k: nat)
    requires !ProductIdUsed(s, pid)
    requires DistinctLangs(p.translations)
    requires k < |p.translations| && |IngredientsIn(p.translations[k].input)| > 0
    ensures exists i | 0 <= i < |CreateProduct(s, pid, now, p, false).0.ingredientTranslations| ::
      && CreateProduct(s, pid, now, p, false).0.ingredientTranslations[i].productId == pid
      && CreateProduct(s, pid, now, p, false).0.ingredientTranslations[i].lang == p.translations[k].lang
  {
    var rows := CreatedIngredientTranslationRows(pid, p.translations);
    var j := IngredientRowOfLang(pid, p.translations, k);
    var t := CreateProduct(s, pid, now, p, false).0;
    assert t.ingredientTranslations == s.ingredientTranslations + rows;
    assert t.ingredientTranslations[|s.ingredientTranslations| + j] == rows[j];
  }

  lemma LangWithoutTextDropped(s: Store, pid: string, now: int, p: NewProduct, k: nat)
    requires !ProductIdUsed(s, pid)
    requires DistinctLangs(p.translations) && SortSafe(p.translations)
    requires k < |p.translations| && !HasText(p.translations[k].input)
    ensures GetProductById(CreateProduct(s, pid, now, p, false).0, pid, false).Some?
    ensures p.translations[k].lang !in GetProductById(CreateProduct(s, pid, now, p, false).0, pid, false).value.product.translations
  {
    CreateThenGetById(s, pid, now, p);
    EntryForDistinct(p.translations, k);
    assert !HasTextFor(p.translations, p.translations[k].lang);
  }

  /** A language with ingredients has a created ingredient row; `j` is its index. */
  lemma IngredientRowOfLang(pid: string, entries: seq<LangEntry>, k: nat) returns (j: nat)
    requires DistinctLangs(entries) && k < |entries|
    requires |IngredientsIn(entries[k].input)| > 0
    ensures j < |CreatedIngredientTranslationRows(pid, entries)|
    ensures CreatedIngredientTranslationRows(pid, entries)[j].lang == entries[k].lang
  {
    var l := entries[k].lang;
    EntryForDistinct(entries, k);
    KeepCreated(pid, entries, l);
    var rows := CreatedIngredientTranslationRows(pid, entries);
    var run := RankRows(LangIngredientRows(pid, l, IngredientsFor(entries, l)));
    assert run[0].value.lang == l;
    assert run[0] in KeepValues(RankRows(rows), LangFilter(l));
    KeepValuesMembers(RankRows(rows), LangFilter(l));
    j :| 0 <= j < |RankRows(rows)| && RankRows(rows)[j] == run[0];
  }

  lemma {:induction false} EntryForDistinct(entries: seq<LangEntry>, k: nat)
    requires DistinctLangs(entries) && k < |entries|
    ensures EntryFor(entries, entries[k].lang) == Some(entries[k].input)
  {
    if k < |entries| - 1 {
      var front := entries[..|entries| - 1];
      assert front[k] == entries[k];
      EntryForDistinct(front, k);
    }
  }

  // ------------------------------------------------------------ updateProduct

  /** The gallery a patch asks for: the main image when it is truthy, then the
      additional images. */
  function PatchedImages(p: ProductPatch): seq<string> {
    (if Truthy(p.image) then [p.image.value] else []) + p.additionalImages.GetOr([])
  }

  /** Touching either image field replaces the whole gallery: the product's images read
      back as the patch's main image, if truthy, then its additional images. */
  lemma UpdateReplacesImages(s: Store, pid: string, p: ProductPatch)
    requires p.image.Some? || p.additionalImages.Some?
    ensures ImagesOf(UpdateProduct(s, pid, p, false).0, pid) == PatchedImages(p)
  {
    ReplacedImagesRead(s, pid, p);
    assert UpdateProduct(s, pid, p, false).0.images == ReplacedImages(s.images, pid, p);
  }

  lemma ReplacedImagesRead(s: Store, pid: string, p: ProductPatch)
    ensures ImagesOf(s.(images := ReplacedImages(s.images, pid, p)), pid) == PatchedImages(p)
  {
    if Truthy(p.image) {
      ReplacedWithMainRead(s, pid, p);
    } else {
      ReplacedWithoutMainRead(s, pid, p);
    }
  }

  lemma ReplacedWithMainRead(s: Store, pid: string, p: ProductPatch)
    requires Truthy(p.image)
    ensures ImagesOf(s.(images := ReplacedImages(s.images, pid, p)), pid) == [p.image.value] + p.additionalImages.GetOr([])
  {
    var other := Filter(s.images, ImageOfOther(pid));
    var add := p.additionalImages.GetOr([]);
    MainThenAdditional(pid, p.image.value, add);
    assert ReplacedImages(s.images, pid, p) == other + ImageRowsFrom(pid, [p.image.value] + add, 0);
    ImagesOfAppended(s, other, pid, [p.image.value] + add, 0);
  }

  lemma ReplacedWithoutMainRead(s: Store, pid: string, p: ProductPatch)
    requires !Truthy(p.image)
    ensures ImagesOf(s.(images := ReplacedImages(s.images, pid, p)), pid) == p.additionalImages.GetOr([])
  {
    var other := Filter(s.images, ImageOfOther(pid));
    var add := p.additionalImages.GetOr([]);
    assert ReplacedImages(s.images, pid, p) == other + ImageRowsFrom(pid, add, 1);
    ImagesOfAppended(s, other, pid, add, 1);
  }

  /** The main image at 0 followed by the rest from 1 is one run from 0. */
  lemma MainThenAdditional(pid: string, main: string, add: seq<string>)
    ensures [ImageRow(pid, main, 0)] + ImageRowsFrom(pid, add, 1) == ImageRowsFrom(pid, [main] + add, 0)
  {
  }

  /** A defined ingredient list replaces the product's ingredients. */
  lemma UpdateReplacesIngredients(s: Store, pid: string, p: ProductPatch)
    requires p.ingredients.Some?
    ensures IngredientsOf(UpdateProduct(s, pid, p, false).0, pid) == p.ingredients.value
  {
    var t := UpdateProduct(s, pid, p, false).0;
    var other := Filter(s.ingredients, IngredientOfOther(pid));
    IngredientsOfAppended(t, other, pid, p.ingredients.value);
    assert t.(ingredients := t.ingredients) == t;
  }

  /** Replacing one product's rows of a child table leaves another product's selection alone. */
  lemma ReplacedRowsInvisible<R, V>(rows: seq<R>, keep: R -> bool, added: seq<R>, pick: R -> Option<V>)
    requires forall i :: 0 <= i < |rows| && !keep(rows[i]) ==> pick(rows[i]).None?
    requires forall i :: 0 <= i < |added| ==> pick(added[i]).None?
    ensures Select(Filter(rows, keep) + added, pick) == Select(rows, pick)
  {
    SelectAppend(Filter(rows, keep), added, pick);
    SelectFilter(rows, keep, pick);
    SelectNone(added, pick);
  }

  /** Updating one product leaves another product's images as they were. */
  lemma UpdateKeepsOtherImages(s: Store, pid: string, q: string, p: ProductPatch)
    requires q != pid
    ensures ImagesOf(UpdateProduct(s, pid, p, false).0, q) == ImagesOf(s, q)
  {
    if p.image.Some? || p.additionalImages.Some? {
      assert UpdateProduct(s, pid, p, false).0.images == ReplacedImages(s.images, pid, p);
      ReplacedImagesInvisible(s.images, pid, q, p);
    }
  }

  lemma ReplacedImagesInvisible(images: seq<ImageRow>, pid: string, q: string, p: ProductPatch)
    requires q != pid
    ensures Select(ReplacedImages(images, pid, p), ImagePick(q)) == Select(images, ImagePick(q))
  {
    var added := (if Truthy(p.image) then [ImageRow(pid, p.image.value, 0)] else [])
                 + ImageRowsFrom(pid, p.additionalImages.GetOr([]), 1);
    assert ReplacedImages(images, pid, p) == Filter(images, ImageOfOther(pid)) + added;
    ReplacedRowsInvisible(images, ImageOfOther(pid), added, ImagePick(q));
  }

  /** Updating one product leaves another product's ingredients as they were. */
  lemma UpdateKeepsOtherIngredients(s: Store, pid: string, q: string, p: ProductPatch)
    requires q != pid
    ensures IngredientsOf(UpdateProduct(s, pid, p, false).0, q) == IngredientsOf(s, q)
  {
    var t := UpdateProduct(s, pid, p, false).0;
    if p.ingredients.Some? {
      var added := IngredientRowsOf(pid, p.ingredients.value);
      assert t.ingredients == Filter(s.ingredients, IngredientOfOther(pid)) + added;
      ReplacedRowsInvisible(s.ingredients, IngredientOfOther(pid), added, IngredientPick(q));
    }
  }

  function IngredientTranslationOfLang(pid: string, lang: string): IngredientTranslationRow -> bool {
    (r: IngredientTranslationRow) => r.productId == pid && r.lang == lang
  }

  /** A defined ingredient list of one language replaces that language's rows and no
      other language's. */
  lemma UpdateLanguageReplacesIngredients(t: TranslationTables, pid: string, e: LangEntry, l: string)
    requires e.input.ingredients.Some?
    ensures Filter(UpdateLanguage(t, pid, e).ingredientRows, IngredientTranslationOfLang(pid, l))
         == if l == e.lang then LangIngredientRows(pid, l, e.input.ingredients.value)
            else Filter(t.ingredientRows, IngredientTranslationOfLang(pid, l))
  {
    var kept := Filter(t.ingredientRows, IngredientTranslationOfOtherLang(pid, e.lang));
    var added := LangIngredientRows(pid, e.lang, e.input.ingredients.value);
    var ofLang := IngredientTranslationOfLang(pid, l);
    FilterAppend(kept, added, ofLang);
    if l == e.lang {
      FilterNone(kept, ofLang);
      FilterAll(added, ofLang);
    } else {
      FilterSubsumed(t.ingredientRows, IngredientTranslationOfOtherLang(pid, e.lang), ofLang);
      FilterNone(added, ofLang);
    }
  }

  /** A new language whose fields are all empty: lib/db-server.ts stores nothing, while
      lib/db.ts inserts a translation row of NULLs. */
  lemma EmptyNewLanguage(t: TranslationTables, pid: string, e: LangEntry)
    requires !HasTranslation(t.rows, pid, e.lang) && !HasText(e.input)
    ensures UpdateLanguage(t, pid, e).rows == t.rows
    ensures HasTranslation(UpdateLanguageStamped(t, pid, e).rows, pid, e.lang)
    ensures !HasTranslation(UpdateLanguage(t, pid, e).rows, pid, e.lang)
  {
    var r := UpdateLanguageStamped(t, pid, e).rows;
    assert IsTranslationOf(r[|t.rows|], pid, e.lang);
  }

  /** The two `updateProduct`s write the same product columns; the lib/db.ts one also
      sets `updatedAt` to `now` on the product's rows when some column is given. */
  lemma StampedDiffersOnlyInUpdatedAt(s: Store, pid: string, p: ProductPatch, now: int, i: nat)
    requires i < |s.products|
    ensures var a := UpdateProduct(s, pid, p, false).0.products;
      var b := UpdateProductStamped(s, pid, p, now, false).0.products;
      && |a| == |b| == |s.products|
      && b[i].(updatedAt := s.products[i].updatedAt) == a[i]
      && b[i].updatedAt == (if s.products[i].id == pid && HasScalar(p) then now else s.products[i].updatedAt)
  {
  }

  // ------------------------------------------------------------ deleteProduct

  /** After `deleteProduct` the product is gone; every other product reads back as before. */
  lemma DeleteProductReads(s: Store, pid: string, q: string)
    ensures GetProductById(DeleteProduct(s, pid, false).0, pid, false).None?
    ensures q != pid ==> GetProductById(DeleteProduct(s, pid, false).0, q, false) == GetProductById(s, q, false)
  {
    var t := DeleteProduct(s, pid, false).0;
    assert GetProductByIdFixed(t, pid, false).None?;
    if q != pid {
      DeleteKeepsOtherFixed(s, pid, q);
      DeleteKeepsOtherTranslations(s, pid, q);
    }
  }

  /** Without the throwing sort, too, every other product reads back as before. */
  lemma DeleteKeepsOtherFixed(s: Store, pid: string, q: string)
    requires q != pid
    ensures GetProductByIdFixed(DeleteProduct(s, pid, false).0, q, false) == GetProductByIdFixed(s, q, false)
  {
    var t := DeleteProduct(s, pid, false).0;
    DeleteKeepsOtherChildren(s, pid, q);
    DeleteKeepsOtherTranslations(s, pid, q);
    FilterSubsumed(s.products, ProductOfOther(pid), IdIs(q));
    var hits := Filter(s.products, IdIs(q));
    if |hits| > 0 {
      assert Assemble(hits[0], t) == Assemble(hits[0], s);
    }
  }

  lemma DeleteKeepsOtherChildren(s: Store, pid: string, q: string)
    requires q != pid
    ensures ImagesOf(DeleteProduct(s, pid, false).0, q) == ImagesOf(s, q)
    ensures IngredientsOf(DeleteProduct(s, pid, false).0, q) == IngredientsOf(s, q)
  {
    SelectFilter(s.images, ImageOfOther(pid), ImagePick(q));
    SelectFilter(s.ingredients, IngredientOfOther(pid), IngredientPick(q));
  }

  lemma DeleteKeepsOtherTranslations(s: Store, pid: string, q: string)
    requires q != pid
    ensures TranslationsOf(DeleteProduct(s, pid, false).0, q) == TranslationsOf(s, q)
    ensures IngredientSortThrows(DeleteProduct(s, pid, false).0, q) == IngredientSortThrows(s, q)
  {
    FilterSubsumed(s.translations, TranslationOfOther(pid), TranslationOf(q));
    SelectFilter(s.ingredientTranslations, IngredientTranslationOfOther(pid), IngredientTranslationPick(q));
  }

  // ------------------------------------------------------------ addProductImages

  /** As written, a product whose highest display order is 0 (a product created with
      only its main image) gets its first added image at 0 too. */
  lemma AddImagesAsWrittenCollides(s: Store, pid: string, urls: seq<string>)
    requires MaxDisplayOrder(s.images, pid) == Some(0) && |urls| > 0
    ensures var t := AddProductImagesAsWritten(s, pid, urls, false).0;
      exists i, j | 0 <= i < j < |t.images| ::
        && t.images[i].productId == pid && t.images[j].productId == pid
        && t.images[i].displayOrder == 0 && t.images[j].displayOrder == 0
  {
    var t := AddProductImagesAsWritten(s, pid, urls, false).0;
    var i :| 0 <= i < |s.images| && s.images[i].productId == pid && s.images[i].displayOrder == 0;
    assert t.images[i] == s.images[i];
    assert t.images[|s.images|] == ImageRow(pid, urls[0], 0);
  }

  /** The input that shows it: create a product without additional images, then add one. */
  lemma CreateThenAddImageCollides(s: Store, pid: string, now: int, p: NewProduct, url: string)
    requires !ProductIdUsed(s, pid) && p.additionalImages == []
    ensures var t := CreateProduct(s, pid, now, p, false).0;
      var u := AddProductImagesAsWritten(t, pid, [url], false).0;
      u.images == t.images + [ImageRow(pid, url, 0)]
      && t.images[|s.images|] == ImageRow(pid, p.image, 0)
  {
    var t := CreateProduct(s, pid, now, p, false).0;
    assert t.images == s.images + [ImageRow(pid, p.image, 0)];
    var m := MaxDisplayOrder(t.images, pid);
    assert t.images[|s.images|].productId == pid;
    var k :| 0 <= k < |t.images| && t.images[k].productId == pid && t.images[k].displayOrder == m.value;
    assert k == |s.images|;
  }

  /** Apart from a maximum of 0, the source and the corrected version agree. */
  lemma AddImagesAgreeUnlessMaxIsZero(s: Store, pid: string, urls: seq<string>, fails: bool)
    requires MaxDisplayOrder(s.images, pid) != Some(0)
    ensures AddProductImagesAsWritten(s, pid, urls, fails) == AddProductImages(s, pid, urls, fails)
  {
  }

  function RankAtMost(m: int): Ranked<string> -> bool {
    (v: Ranked<string>) => v.rank <= m
  }

  /** With the NULL test corrected, added images read back after the existing ones,
      in the order given. */
  lemma AddImagesAppends(s: Store, pid: string, urls: seq<string>)
    ensures ImagesOf(AddProductImages(s, pid, urls, false).0, pid) == ImagesOf(s, pid) + urls
  {
    var first := NullishMinusOne(MaxDisplayOrder(s.images, pid)) + 1;
    assert AddProductImages(s, pid, urls, false).0 == s.(images := s.images + ImageRowsFrom(pid, urls, first));
    ExistingRanksBelow(s.images, pid);
    RunAfterRead(s, pid, urls, first);
  }

  /** Every image the product has sits below the corrected starting order. */
  lemma ExistingRanksBelow(images: seq<ImageRow>, pid: string)
    ensures forall i :: 0 <= i < |Select(images, ImagePick(pid))| ==>
      Select(images, ImagePick(pid))[i].rank < NullishMinusOne(MaxDisplayOrder(images, pid)) + 1
  {
    SelectEvery(images, ImagePick(pid), RankAtMost(NullishMinusOne(MaxDisplayOrder(images, pid))));
  }

  /** A run numbered above every existing image of the product reads back after them. */
  lemma RunAfterRead(s: Store, pid: string, urls: seq<string>, first: int)
    requires forall i :: 0 <= i < |Select(s.images, ImagePick(pid))| ==> Select(s.images, ImagePick(pid))[i].rank < first
    ensures ImagesOf(s.(images := s.images + ImageRowsFrom(pid, urls, first)), pid) == ImagesOf(s, pid) + urls
  {
    var rows := ImageRowsFrom(pid, urls, first);
    var before := Select(s.images, ImagePick(pid));
    var run := RankedRun(urls, first);
    SelectAppend(s.images, rows, ImagePick(pid));
    SelectAllSome(rows, ImagePick(pid));
    assert Select(rows, ImagePick(pid)) == run;
    SortAppendGreater(before, run);
    ValuesAppend(SortByRank(before), run);
  }

  // ------------------------------------------------------------ addProductIngredients

  /** `addProductIngredients` reads back the new list as the product's ingredients. */
  lemma AddIngredientsReadsBack(s: Store, pid: string, items: seq<string>, lists: seq<LangList>)
    ensures IngredientsOf(AddProductIngredients(s, pid, items, lists, false).0, pid) == items
  {
    var t := AddProductIngredients(s, pid, items, lists, false).0;
    IngredientsOfAppended(t, Filter(s.ingredients, IngredientOfOther(pid)), pid, items);
    assert t.(ingredients := t.ingredients) == t;
  }

  lemma {:induction false} AddedOmitsLang(pid: string, lists: seq<LangList>, n: nat, l: string)
    requires forall k :: 0 <= k < |lists| ==> lists[k].lang != l
    ensures Filter(AddedIngredientTranslations(pid, lists, n), IngredientTranslationOfLang(pid, l)) == []
  {
    if |lists| > 0 {
      var last := lists[|lists| - 1];
      AddedOmitsLang(pid, lists[..|lists| - 1], n, l);
      FilterAppend(AddedIngredientTranslations(pid, lists[..|lists| - 1], n),
                   LangIngredientRows(pid, last.lang, Truncate(last.items, n)),
                   IngredientTranslationOfLang(pid, l));
      FilterNone(LangIngredientRows(pid, last.lang, Truncate(last.items, n)), IngredientTranslationOfLang(pid, l));
    }
  }

  /** A language missing from the `translations` argument loses every ingredient
      translation of the product. */
  lemma AddIngredientsDropsUnlisted(s: Store, pid: string, items: seq<string>, lists: seq<LangList>, l: string)
    requires forall k :: 0 <= k < |lists| ==> lists[k].lang != l
    ensures Filter(AddProductIngredients(s, pid, items, lists, false).0.ingredientTranslations,
                   IngredientTranslationOfLang(pid, l)) == []
  {
    var kept := Filter(s.ingredientTranslations, IngredientTranslationOfOther(pid));
    FilterAppend(kept, AddedIngredientTranslations(pid, lists, |items|), IngredientTranslationOfLang(pid, l));
    FilterNone(kept, IngredientTranslationOfLang(pid, l));
    AddedOmitsLang(pid, lists, |items|, l);
  }

  // ------------------------------------------------------------ by slug

  /** Without the throwing sort, a created product with a slug no other product has is
      found by that slug. */
  lemma CreateThenGetBySlugFixed(s: Store, pid: string, now: int, p: NewProduct)
    requires !ProductIdUsed(s, pid)
    requires DistinctLangs(p.translations)
    requires forall i :: 0 <= i < |s.products| ==> s.products[i].slug != p.slug
    ensures GetProductBySlugFixed(CreateProduct(s, pid, now, p, false).0, p.slug, false) == Some(CreatedProduct(pid, p))
    ensures IngredientSortThrows(CreateProduct(s, pid, now, p, false).0, pid) <==> !SortSafe(p.translations)
  {
    var t := CreateProduct(s, pid, now, p, false).0;
    var row := ProductRow(pid, p.name, p.slug, p.price, p.image, Some(OrEmpty(p.description)),
                          Some(OrEmpty(p.fullDescription)), now, now);
    CreateThenGetByIdFixed(s, pid, now, p);
    FilterAppend(s.products, [row], IdIs(pid));
    FilterNone(s.products, IdIs(pid));
    FilterAppend(s.products, [row], SlugIs(p.slug));
    FilterNone(s.products, SlugIs(p.slug));
    assert Filter(t.products, IdIs(pid)) == [row];
    assert Filter(t.products, SlugIs(p.slug)) == [row];
  }

  /** As written, the same holds when no language with text was sent an ingredient
      list on which the read's `.sort` throws. */
  lemma CreateThenGetBySlug(s: Store, pid: string, now: int, p: NewProduct)
    requires !ProductIdUsed(s, pid)
    requires DistinctLangs(p.translations) && SortSafe(p.translations)
    requires forall i :: 0 <= i < |s.products| ==> s.products[i].slug != p.slug
    ensures GetProductBySlug(CreateProduct(s, pid, now, p, false).0, p.slug, false) == Some(CreatedProduct(pid, p))
  {
    CreateThenGetBySlugFixed(s, pid, now, p);
  }

  /** As written, a product created with a `null` in a translated ingredient list of
      two or more entries, for a language with text, is not found by its slug. */
  lemma CreateThenGetBySlugThrows(s: Store, pid: string, now: int, p: NewProduct)
    requires !ProductIdUsed(s, pid)
    requires DistinctLangs(p.translations) && !SortSafe(p.translations)
    requires forall i :: 0 <= i < |s.products| ==> s.products[i].slug != p.slug
    ensures GetProductBySlugFixed(CreateProduct(s, pid, now, p, false).0, p.slug, false).Some?
    ensures GetProductBySlug(CreateProduct(s, pid, now, p, false).0, p.slug, false).None?
  {
    CreateThenGetBySlugFixed(s, pid, now, p);
  }
}

=== FILE: catalog_read.dfy ===
/** The read paths of lib/db-server.ts (shared verbatim by lib/db.ts): the per-product
    child queries, the assembly of a `Product` from them, and the four queries
    `getProducts`, `getProductBySlug`, `getProductById`, `getRelatedProducts`,
    plus `isSlugUnique`. Every query takes `fails` for a database error, which the
    source catches and turns into its sentinel. */
module CatalogRead {
  import opened Common
  import opened Ranking
  import opened Schema

  // ------------------------------------------------------------ child queries

  /** `SELECT imageUrl FROM product_images WHERE productId = ?`, ranked by `displayOrder`. */
  function ImagePick(pid: string): ImageRow -> Option<Ranked<string>> {
    (r: ImageRow) => if r.productId == pid then Some(Ranked(r.imageUrl, r.displayOrder)) else None
  }

  function IngredientPick(pid: string): IngredientRow -> Option<Ranked<string>> {
    (r: IngredientRow) => if r.productId == pid then Some(Ranked(r.ingredient, r.displayOrder)) else None
  }

  function IngredientTranslationPick(pid: string): IngredientTranslationRow -> Option<Ranked<IngredientTranslationRow>> {
    (r: IngredientTranslationRow) => if r.productId == pid then Some(Ranked(r, r.displayOrder)) else None
  }

  function TranslationOf(pid: string): TranslationRow -> bool {
    (r: TranslationRow) => r.productId == pid
  }

  function IdIs(id: string): ProductRow -> bool {
    (p: ProductRow) => p.id == id
  }

  function SlugIs(slug: string): ProductRow -> bool {
    (p: ProductRow) => p.slug == slug
  }

  /** The product's image URLs `ORDER BY displayOrder ASC`. */
  function ImagesOf(s: Store, pid: string): (r: seq<string>)
    ensures |r| <= |s.images|
  {
    Values(SortByRank(Select(s.images, ImagePick(pid))))
  }

  /** The product's ingredients `ORDER BY displayOrder ASC`. */
  function IngredientsOf(s: Store, pid: string): (r: seq<string>)
    ensures |r| <= |s.ingredients|
  {
    Values(SortByRank(Select(s.ingredients, IngredientPick(pid))))
  }

  /** The rows of product `pid`, in table order, as payloads ranked by `displayOrder`:
      a reference for what the child queries select. */
  function ImageEntries(s: Store, pid: string): seq<Ranked<string>> {
    MapRows(Filter(s.images, (r: ImageRow) => r.productId == pid), (r: ImageRow) => Ranked(r.imageUrl, r.displayOrder))
  }

  function IngredientEntries(s: Store, pid: string): seq<Ranked<string>> {
    MapRows(Filter(s.ingredients, (r: IngredientRow) => r.productId == pid),
            (r: IngredientRow) => Ranked(r.ingredient, r.displayOrder))
  }

  /** The image query returns the URLs of exactly the product's image rows, each as
      often as it is stored, arranged by a rearrangement of those rows that is sorted
      by display order. */
  lemma ImagesOfSpec(s: Store, pid: string)
    ensures multiset(ImagesOf(s, pid)) == multiset(Values(ImageEntries(s, pid)))
    ensures exists sorted :: SortedByRank(sorted) && multiset(sorted) == multiset(ImageEntries(s, pid))
                             && Values(sorted) == ImagesOf(s, pid)
  {
    var picked := Select(s.images, ImagePick(pid));
    SelectIsFilterMap(s.images, ImagePick(pid), (r: ImageRow) => r.productId == pid,
                      (r: ImageRow) => Ranked(r.imageUrl, r.displayOrder));
    SortByRankSpec(picked);
    ValuesSortMultiset(picked);
  }

  /** The ingredient query returns exactly the product's ingredients, each as often as
      it is stored, arranged by a rearrangement sorted by display order. */
  lemma IngredientsOfSpec(s: Store, pid: string)
    ensures multiset(IngredientsOf(s, pid)) == multiset(Values(IngredientEntries(s, pid)))
    ensures exists sorted :: SortedByRank(sorted) && multiset(sorted) == multiset(IngredientEntries(s, pid))
                             && Values(sorted) == IngredientsOf(s, pid)
  {
    var picked := Select(s.ingredients, IngredientPick(pid));
    SelectIsFilterMap(s.ingredients, IngredientPick(pid), (r: IngredientRow) => r.productId == pid,
                      (r: IngredientRow) => Ranked(r.ingredient, r.displayOrder));
    SortByRankSpec(picked);
    ValuesSortMultiset(picked);
  }

  /** The product's ingredient-translation rows `ORDER BY displayOrder ASC`. */
  function SortedIngredientTranslations(s: Store, pid: string): seq<Ranked<IngredientTranslationRow>> {
    SortByRank(Select(s.ingredientTranslations, IngredientTranslationPick(pid)))
  }

  // ------------------------------------------------------------ translations

  function BaseTranslation(r: TranslationRow): Translation {
    Translation(r.name, r.description, r.fullDescription, None)
  }

  /** `translations.forEach(t => formatted[t.lang] = {...})`: one entry per language,
      a later row for a language replacing an earlier one. */
  function FormatTranslations(rows: seq<TranslationRow>): (m: map<string, Translation>)
    ensures forall l :: l in m <==> exists i | 0 <= i < |rows| :: rows[i].lang == l
  {
    if |rows| == 0 then map[]
    else
      var last := rows[|rows| - 1];
      assert forall i | 0 <= i < |rows| - 1 :: rows[..|rows| - 1][i] == rows[i];
      FormatTranslations(rows[..|rows| - 1])[last.lang := BaseTranslation(last)]
  }

  /** The last row for a language is the one that survives. */
  lemma {:induction false} FormatTranslationsLastWins(rows: seq<TranslationRow>, i: nat)
    requires i < |rows|
    requires forall j | i < j < |rows| :: rows[j].lang != rows[i].lang
    ensures rows[i].lang in FormatTranslations(rows)
    ensures FormatTranslations(rows)[rows[i].lang] == BaseTranslation(rows[i])
  {
    if i < |rows| - 1 {
      var front := rows[..|rows| - 1];
      assert front[i] == rows[i];
      FormatTranslationsLastWins(front, i);
    }
  }

  predicate LangIs(l: string, r: IngredientTranslationRow) {
    r.lang == l
  }

  function IngredientNames(rs: seq<Ranked<IngredientTranslationRow>>): (r: seq<NullableText>)
    ensures |r| == |rs|
    ensures forall i :: 0 <= i < |rs| ==> r[i] == rs[i].value.ingredient
  {
    seq(|rs|, i requires 0 <= i < |rs| => rs[i].value.ingredient)
  }

  /** `ingredientTranslations.filter(t => t.lang === lang).map(t => t.ingredient)`:
      the list the `.sort` that follows receives, and returns unchanged when it does
      not throw (see `SortThrows`). */
  function LangIngredients(sorted: seq<Ranked<IngredientTranslationRow>>, l: string): seq<NullableText> {
    IngredientNames(KeepValues(sorted, LangFilter(l)))
  }

  /** `.sort((a, b) => a.displayOrder - b.displayOrder)` applied to the list of
      ingredient VALUES. On a string `displayOrder` is undefined, the difference is
      NaN, which counts as "equal", and the stable sort keeps the order. On `null`
      reading the field throws a TypeError. `Array.prototype.sort` calls no comparator
      on a list shorter than two, and on a longer list every entry is an argument of
      some comparison. So the sort throws exactly when the list has two or more
      entries and one of them is `null`. */
  predicate SortThrows(list: seq<NullableText>) {
    |list| >= 2 && None in list
  }

  /** Some language that has a translation row for product `pid` has an ingredient
      list on which the `.sort` throws, so the read ends in its `catch`. Languages
      without a translation row are never sorted. */
  predicate IngredientSortThrows(s: Store, pid: string) {
    exists l | l in FormatTranslations(Filter(s.translations, TranslationOf(pid))) ::
      SortThrows(LangIngredients(SortedIngredientTranslations(s, pid), l))
  }

  function LangFilter(l: string): IngredientTranslationRow -> bool {
    r => LangIs(l, r)
  }

  /** The `Object.keys(formatted).forEach` pass: a language that has a translation row
      and a non-empty ingredient list gets that list; nothing else changes. The lists
      are the ones the `.sort` receives; whether it throws is `IngredientSortThrows`. */
  function AttachIngredients(base: map<string, Translation>, sorted: seq<Ranked<IngredientTranslationRow>>)
    : (m: map<string, Translation>)
    ensures m.Keys == base.Keys
    ensures forall l | l in m ::
      && m[l].name == base[l].name
      && m[l].description == base[l].description
      && m[l].fullDescription == base[l].fullDescription
      && (|LangIngredients(sorted, l)| > 0 ==> m[l].ingredients == Some(LangIngredients(sorted, l)))
      && (|LangIngredients(sorted, l)| == 0 ==> m[l].ingredients == base[l].ingredients)
  {
    map l | l in base ::
      if |LangIngredients(sorted, l)| > 0 then base[l].(ingredients := Some(LangIngredients(sorted, l)))
      else base[l]
  }

  function TranslationsOf(s: Store, pid: string): map<string, Translation> {
    AttachIngredients(FormatTranslations(Filter(s.translations, TranslationOf(pid))),
                      SortedIngredientTranslations(s, pid))
  }

  // ------------------------------------------------------------ assembly

  /** The object literal every full read path returns for a product row, when no
      ingredient `.sort` of the product throws (`IngredientSortThrows`). */
  function Assemble(row: ProductRow, s: Store): (p: Product)
    ensures p.id == row.id && p.slug == row.slug && p.name == row.name
    ensures p.description == Some(OrEmpty(row.description))
    ensures p.fullDescription == Some(OrEmpty(row.fullDescription))
    ensures p.images == Some(ImagesOf(s, row.id)) && p.ingredients == Some(IngredientsOf(s, row.id))
    ensures p.translations == TranslationsOf(s, row.id)
  {
    Product(row.id, row.name, row.slug, row.price, row.image,
            Some(ImagesOf(s, row.id)),
            Some(OrEmpty(row.description)),
            Some(OrEmpty(row.fullDescription)),
            Some(IngredientsOf(s, row.id)),
            TranslationsOf(s, row.id))
  }

  /** The assembled product has a translation for exactly the languages that have a
      translation row for it; ingredient rows alone never create one. */
  lemma TranslationLangs(s: Store, pid: string, l: string)
    ensures l in TranslationsOf(s, pid) <==>
      exists i | 0 <= i < |s.translations| :: s.translations[i].productId == pid && s.translations[i].lang == l
  {
    var ts := Filter(s.translations, TranslationOf(pid));
    if l in TranslationsOf(s, pid) {
      var k :| 0 <= k < |ts| && ts[k].lang == l;
      assert ts[k] in s.translations;
    } else if exists i | 0 <= i < |s.translations| :: s.translations[i].productId == pid && s.translations[i].lang == l {
      var i :| 0 <= i < |s.translations| && s.translations[i].productId == pid && s.translations[i].lang == l;
      assert TranslationOf(pid)(s.translations[i]);
      assert s.translations[i] in ts;
    }
  }

  // ------------------------------------------------------------ queries

  /** `SELECT * FROM products ORDER BY createdAt DESC`: newest first, ties in table order. */
  function ProductsNewestFirst(s: Store): (r: seq<ProductRow>)
    ensures |r| == |s.products|
    ensures multiset(r) == multiset(s.products)
    ensures forall i, j :: 0 <= i < j < |r| ==> r[i].createdAt >= r[j].createdAt
  {
    NewestFirstSorted(s.products);
    Values(SortByRank(AgeRanks(s.products)))
  }

  /** Each row ranked by its negated creation time, so that ascending rank is newest first. */
  function AgeRanks(rows: seq<ProductRow>): (r: seq<Ranked<ProductRow>>)
    ensures |r| == |rows|
    ensures forall i :: 0 <= i < |rows| ==> r[i] == Ranked(rows[i], -rows[i].createdAt)
  {
    seq(|rows|, i requires 0 <= i < |rows| => Ranked(rows[i], -rows[i].createdAt))
  }

  lemma NewestFirstSorted(rows: seq<ProductRow>)
    ensures multiset(Values(SortByRank(AgeRanks(rows)))) == multiset(rows)
    ensures forall i, j :: 0 <= i < j < |rows| ==>
      Values(SortByRank(AgeRanks(rows)))[i].createdAt >= Values(SortByRank(AgeRanks(rows)))[j].createdAt
  {
    var ranked := AgeRanks(rows);
    var sorted := SortByRank(ranked);
    SortByRankSpec(ranked);
    assert Values(ranked) == rows;
    ValuesSortMultiset(ranked);
    forall k | 0 <= k < |sorted| ensures sorted[k].rank == -sorted[k].value.createdAt {
      assert sorted[k] in multiset(ranked);
    }
  }

  /** Some product's assembly throws in the ingredient `.sort`. */
  predicate AnySortThrows(s: Store) {
    exists i | 0 <= i < |s.products| :: IngredientSortThrows(s, s.products[i].id)
  }

  /** `getProducts()` as written: every product, assembled, newest first. The
      products are assembled under one `Promise.all`, so a single product whose
      ingredient `.sort` throws makes the whole call end in its `catch` with `[]`,
      as does a database error. */
  function GetProducts(s: Store, fails: bool): (r: seq<Product>)
    ensures fails ==> r == []
    ensures !fails ==> (r == [] <==> |s.products| == 0 || AnySortThrows(s))
    ensures r != [] ==> r == GetProductsFixed(s, fails)
  {
    if fails || AnySortThrows(s) then [] else GetProductsFixed(s, fails)
  }

  /** `getProducts()` with the ingredient `.sort` taken out (or applied to the rows
      before their values are taken, which the `ORDER BY` already did): every product
      is listed, and only a database error gives `[]`. */
  function GetProductsFixed(s: Store, fails: bool): (r: seq<Product>)
    ensures fails ==> r == []
    ensures !fails ==> |r| == |s.products|
    ensures !fails ==> forall i :: 0 <= i < |r| ==> r[i] == Assemble(ProductsNewestFirst(s)[i], s)
  {
    if fails then []
    else
      var rows := ProductsNewestFirst(s);
      seq(|rows|, i requires 0 <= i < |rows| => Assemble(rows[i], s))
  }

  /** `getProductBySlug(slug)` as written: the fixed read, except that `null` also
      comes back when the found product's ingredient `.sort` throws. */
  function GetProductBySlug(s: Store, slug: string, fails: bool): (r: Option<Product>)
    ensures fails ==> r.None?
    ensures r.Some? ==> r == GetProductBySlugFixed(s, slug, fails)
    ensures r.None? <==>
      GetProductBySlugFixed(s, slug, fails).None? || IngredientSortThrows(s, GetProductBySlugFixed(s, slug, fails).value.id)
  {
    var found := GetProductBySlugFixed(s, slug, fails);
    if found.None? || IngredientSortThrows(s, found.value.id) then None else found
  }

  /** `getProductBySlug(slug)` without the throwing `.sort`: the first product row
      with that slug, assembled; `null` when there is none or on a database error. */
  function GetProductBySlugFixed(s: Store, slug: string, fails: bool): (r: Option<Product>)
    ensures fails ==> r.None?
    ensures !fails ==> (r.None? <==> forall i :: 0 <= i < |s.products| ==> s.products[i].slug != slug)
    ensures r.Some? ==> (r.value.slug == slug
      && exists i | 0 <= i < |s.products| :: s.products[i].slug == slug && r.value == Assemble(s.products[i], s))
  {
    var hits := Filter(s.products, SlugIs(slug));
    if fails || |hits| == 0 then None else Some(Assemble(hits[0], s))
  }

  /** `getProductById(id)` as written: the fixed read, except that `null` also comes
      back when the product's ingredient `.sort` throws. */
  function GetProductById(s: Store, id: string, fails: bool): (r: Option<ProductRecord>)
    ensures fails ==> r.None?
    ensures !fails ==> (r.None? <==>
      (forall i :: 0 <= i < |s.products| ==> s.products[i].id != id) || IngredientSortThrows(s, id))
    ensures r.Some? ==> r == GetProductByIdFixed(s, id, fails)
  {
    var found := GetProductByIdFixed(s, id, fails);
    if found.None? || IngredientSortThrows(s, id) then None else found
  }

  /** `getProductById(id)` without the throwing `.sort`: the product row with that
      id, assembled, with its timestamps; `null` when there is none or on a database
      error. */
  function GetProductByIdFixed(s: Store, id: string, fails: bool): (r: Option<ProductRecord>)
    ensures fails ==> r.None?
    ensures !fails ==> (r.None? <==> forall i :: 0 <= i < |s.products| ==> s.products[i].id != id)
    ensures r.Some? ==> (r.value.product.id == id
      && exists i | 0 <= i < |s.products| :: s.products[i].id == id
           && r.value == ProductRecord(Assemble(s.products[i], s), s.products[i].createdAt, s.products[i].updatedAt))
  {
    var hits := Filter(s.products, IdIs(id));
    if fails || |hits| == 0 then None
    else Some(ProductRecord(Assemble(hits[0], s), hits[0].createdAt, hits[0].updatedAt))
  }

  /** The card-sized product `getRelatedProducts` builds: translations carry only
      name and description, and there are no images, full description or ingredients. */
  function RelatedCard(row: ProductRow, s: Store): (p: Product)
    ensures p.id == row.id && p.images.None? && p.fullDescription.None? && p.ingredients.None?
    ensures forall l | l in p.translations ::
      p.translations[l].fullDescription.None? && p.translations[l].ingredients.None?
  {
    var base := FormatTranslations(Filter(s.translations, TranslationOf(row.id)));
    Product(row.id, row.name, row.slug, row.price, row.image, None, Some(OrEmpty(row.description)),
            None, None,
            map l | l in base :: Translation(base[l].name, base[l].description, None, None))
  }

  /** `getRelatedProducts(currentId, limit)`. `ORDER BY RAND()` is the parameter
      `shuffled`, any arrangement of the rows whose id differs from `currentId`. */
  function GetRelatedProducts(s: Store, currentId: string, limit: nat, shuffled: seq<ProductRow>, fails: bool)
    : (r: seq<Product>)
    requires multiset(shuffled) == multiset(Filter(s.products, (p: ProductRow) => p.id != currentId))
    ensures fails ==> r == []
    ensures |r| <= limit
    ensures !fails ==> |r| == if limit < |shuffled| then limit else |shuffled|
    ensures forall i :: 0 <= i < |r| ==> (r[i].id != currentId
      && exists j | 0 <= j < |s.products| :: r[i] == RelatedCard(s.products[j], s))
  {
    if fails then []
    else
      var n := if limit < |shuffled| then limit else |shuffled|;
      ShuffledRowsAreOthers(s, currentId, shuffled);
      seq(n, i requires 0 <= i < n => RelatedCard(shuffled[i], s))
  }

  /** Each row of the shuffled list is a product row with another id. */
  lemma ShuffledRowsAreOthers(s: Store, currentId: string, shuffled: seq<ProductRow>)
    requires multiset(shuffled) == multiset(Filter(s.products, (p: ProductRow) => p.id != currentId))
    ensures forall i :: 0 <= i < |shuffled| ==>
      shuffled[i].id != currentId && exists j | 0 <= j < |s.products| :: s.products[j] == shuffled[i]
  {
    forall i | 0 <= i < |shuffled|
      ensures shuffled[i].id != currentId && exists j | 0 <= j < |s.products| :: s.products[j] == shuffled[i]
    {
      assert shuffled[i] in multiset(shuffled);
    }
  }

  /** `isSlugUnique(slug, excludeProductId)`: no product has `slug`, not counting the
      one whose id is a non-empty `excludeProductId`; `false` on a database error. */
  function IsSlugUnique(s: Store, slug: string, excludeProductId: Option<string>, fails: bool): (r: bool)
    ensures r <==> !fails && forall i :: 0 <= i < |s.products| && s.products[i].slug == slug ==>
      Truthy(excludeProductId) && s.products[i].id == excludeProductId.value
  {
    var clashes := Filter(s.products, (p: ProductRow) =>
      p.slug == slug && (!Truthy(excludeProductId) || p.id != excludeProductId.value));
    if |clashes| > 0 then
      assert clashes[0] in s.products;
      false
    else !fails
  }
}

=== FILE: catalog_write.dfy ===
/** The write paths of the catalog. `createProduct` and `updateProduct` exist twice:
    the lib/db-server.ts versions (used by the admin routes) also write images,
    ingredients and ingredient translations; the lib/db.ts versions write only the
    product row and its translations, stamp `updatedAt`, and insert a new language's
    translation row unconditionally. `deleteProduct`, `addProductImages`,
    `deleteProductImage` and `addProductIngredients` are from lib/db.ts.

    Every transaction takes `fails` for a database error: it then commits nothing
    and returns its sentinel. A fresh product id stands for `uuidv4()`; inserting an
    id that already exists violates the primary key and fails the same way. */
module CatalogWrite {
  import opened Common
  import opened Schema

  // ------------------------------------------------------------ row builders

  /** Image rows for `urls` with display orders `first`, `first + 1`, ... */
  function ImageRowsFrom(pid: string, urls: seq<string>, first: int): (r: seq<ImageRow>)
    ensures |r| == |urls|
    ensures forall i :: 0 <= i < |r| ==> r[i] == ImageRow(pid, urls[i], first + i)
  {
    seq(|urls|, i requires 0 <= i < |urls| => ImageRow(pid, urls[i], first + i))
  }

  /** Ingredient rows with display orders 0, 1, ... */
  function IngredientRowsOf(pid: string, items: seq<string>): (r: seq<IngredientRow>)
    ensures |r| == |items|
    ensures forall i :: 0 <= i < |r| ==> r[i] == IngredientRow(pid, items[i], i)
  {
    seq(|items|, i requires 0 <= i < |items| => IngredientRow(pid, items[i], i))
  }

  /** Ingredient-translation rows of one language with display orders 0, 1, ... */
  function LangIngredientRows(pid: string, lang: string, items: seq<NullableText>): (r: seq<IngredientTranslationRow>)
    ensures |r| == |items|
    ensures forall i :: 0 <= i < |r| ==> r[i] == IngredientTranslationRow(pid, lang, items[i], i)
  {
    seq(|items|, i requires 0 <= i < |items| => IngredientTranslationRow(pid, lang, items[i], i))
  }

  /** The ingredient list of a translation payload; absent counts as empty. */
  function IngredientsIn(t: TranslationInput): seq<NullableText> {
    t.ingredients.GetOr([])
  }

  /** The row inserted for a new language: empty strings are stored as NULL. */
  function NewTranslationRow(pid: string, e: LangEntry): (r: TranslationRow)
    ensures r.productId == pid && r.lang == e.lang
    ensures r.name.Some? <==> Truthy(e.input.name)
    ensures r.description.Some? <==> Truthy(e.input.description)
    ensures r.fullDescription.Some? <==> Truthy(e.input.fullDescription)
  {
    TranslationRow(pid, e.lang, NullIfEmpty(e.input.name), NullIfEmpty(e.input.description),
                   NullIfEmpty(e.input.fullDescription))
  }

  /** The translation rows `createProduct` inserts: one per language with some text. */
  function CreatedTranslationRows(pid: string, entries: seq<LangEntry>): (r: seq<TranslationRow>)
    ensures forall i :: 0 <= i < |r| ==> r[i].productId == pid
  {
    if |entries| == 0 then []
    else
      var last := entries[|entries| - 1];
      CreatedTranslationRows(pid, entries[..|entries| - 1])
        + (if HasText(last.input) then [NewTranslationRow(pid, last)] else [])
  }

  /** The ingredient-translation rows `createProduct` inserts: every language's
      non-empty list, whether or not that language got a translation row. */
  function CreatedIngredientTranslationRows(pid: string, entries: seq<LangEntry>): (r: seq<IngredientTranslationRow>)
    ensures forall i :: 0 <= i < |r| ==> r[i].productId == pid
  {
    if |entries| == 0 then []
    else
      var last := entries[|entries| - 1];
      CreatedIngredientTranslationRows(pid, entries[..|entries| - 1])
        + LangIngredientRows(pid, last.lang, IngredientsIn(last.input))
  }

  // ------------------------------------------------------------ row filters

  function ImageOfOther(pid: string): ImageRow -> bool {
    (r: ImageRow) => r.productId != pid
  }

  function IngredientOfOther(pid: string): IngredientRow -> bool {
    (r: IngredientRow) => r.productId != pid
  }

  function TranslationOfOther(pid: string): TranslationRow -> bool {
    (r: TranslationRow) => r.productId != pid
  }

  function IngredientTranslationOfOther(pid: string): IngredientTranslationRow -> bool {
    (r: IngredientTranslationRow) => r.productId != pid
  }

  function IngredientTranslationOfOtherLang(pid: string, lang: string): IngredientTranslationRow -> bool {
    (r: IngredientTranslationRow) => !(r.productId == pid && r.lang == lang)
  }

  function ProductOfOther(pid: string): ProductRow -> bool {
    (r: ProductRow) => r.id != pid
  }

  function ImageKept(pid: string, url: string): ImageRow -> bool {
    (r: ImageRow) => !(r.productId == pid && r.imageUrl == url)
  }

  predicate HasProduct(s: Store, pid: string) {
    exists i | 0 <= i < |s.products| :: s.products[i].id == pid
  }

  // ------------------------------------------------------------ createProduct

  /** The payload `createProduct` reads. Absent lists are empty: the source guards
      each with `list && list.length > 0`. */
  datatype NewProduct = NewProduct(
    name: string,
    slug: string,
    price: int,
    image: string,
    description: Option<string>,
    fullDescription: Option<string>,
    additionalImages: seq<string>,
    ingredients: seq<string>,
    translations: seq<LangEntry>)

  /** `createProduct` of lib/db-server.ts: the product row (absent descriptions become
      ""), the main image at order 0, the additional images at 1, 2, ..., the
      ingredients at 0, 1, ..., and the translations. Returns the new id, or `None`
      with the store unchanged. */
  function CreateProduct(s: Store, pid: string, now: int, p: NewProduct, fails: bool): (r: (Store, Option<string>))
    ensures r.1.Some? <==> !fails && !HasProduct(s, pid)
    ensures r.1.None? ==> r.0 == s
    ensures r.1.Some? ==> (r.1.value == pid
      && r.0.products == s.products
           + [ProductRow(pid, p.name, p.slug, p.price, p.image, Some(OrEmpty(p.description)),
                         Some(OrEmpty(p.fullDescription)), now, now)]
      && r.0.orders == s.orders && r.0.orderItems == s.orderItems && r.0.subscribers == s.subscribers
      && r.0.viewCounter == s.viewCounter)
  {
    if fails || HasProduct(s, pid) then (s, None)
    else
      var row := ProductRow(pid, p.name, p.slug, p.price, p.image, Some(OrEmpty(p.description)),
                            Some(OrEmpty(p.fullDescription)), now, now);
      (s.(products := s.products + [row],
          images := s.images + [ImageRow(pid, p.image, 0)] + ImageRowsFrom(pid, p.additionalImages, 1),
          ingredients := s.ingredients + IngredientRowsOf(pid, p.ingredients),
          translations := s.translations + CreatedTranslationRows(pid, p.translations),
          ingredientTranslations := s.ingredientTranslations
                                      + CreatedIngredientTranslationRows(pid, p.translations)),
       Some(pid))
  }

  /** `createProduct` of lib/db.ts: only the product row (absent or empty descriptions
      become NULL) and the translation rows; images and ingredients are not written. */
  function CreateProductStamped(s: Store, pid: string, now: int, p: NewProduct, fails: bool)
    : (r: (Store, Option<string>))
    ensures r.1.Some? <==> !fails && !HasProduct(s, pid)
    ensures r.1.None? ==> r.0 == s
    ensures r.1.Some? ==> (r.1.value == pid
      && r.0.products == s.products
           + [ProductRow(pid, p.name, p.slug, p.price, p.image, NullIfEmpty(p.description),
                         NullIfEmpty(p.fullDescription), now, now)]
      && r.0.images == s.images && r.0.ingredients == s.ingredients
      && r.0.ingredientTranslations == s.ingredientTranslations
      && r.0.translations == s.translations + CreatedTranslationRows(pid, p.translations))
  {
    if fails || HasProduct(s, pid) then (s, None)
    else
      var row := ProductRow(pid, p.name, p.slug, p.price, p.image, NullIfEmpty(p.description),
                            NullIfEmpty(p.fullDescription), now, now);
      (s.(products := s.products + [row],
          translations := s.translations + CreatedTranslationRows(pid, p.translations)),
       Some(pid))
  }

  // ------------------------------------------------------------ updateProduct

  /** The payload `updateProduct` reads; `None` is an undefined field. */
  datatype ProductPatch = ProductPatch(
    name: Option<string>,
    slug: Option<string>,
    price: Option<int>,
    image: Option<string>,
    description: Option<string>,
    fullDescription: Option<string>,
    additionalImages: Option<seq<string>>,
    ingredients: Option<seq<string>>,
    translations: seq<LangEntry>)

  predicate HasScalar(p: ProductPatch) {
    p.name.Some? || p.slug.Some? || p.price.Some? || p.image.Some? || p.description.Some?
      || p.fullDescription.Some?
  }

  /** The dynamic `UPDATE products SET ...`: each defined field overwrites its column. */
  function PatchRow(row: ProductRow, p: ProductPatch): (r: ProductRow)
    ensures r.id == row.id && r.createdAt == row.createdAt && r.updatedAt == row.updatedAt
    ensures r.name == p.name.GetOr(row.name) && r.slug == p.slug.GetOr(row.slug)
    ensures r.price == p.price.GetOr(row.price) && r.image == p.image.GetOr(row.image)
    ensures r.description == (if p.description.Some? then p.description else row.description)
    ensures r.fullDescription == (if p.fullDescription.Some? then p.fullDescription else row.fullDescription)
    ensures !HasScalar(p) ==> r == row
  {
    row.(name := p.name.GetOr(row.name),
         slug := p.slug.GetOr(row.slug),
         price := p.price.GetOr(row.price),
         image := p.image.GetOr(row.image),
         description := if p.description.Some? then p.description else row.description,
         fullDescription := if p.fullDescription.Some? then p.fullDescription else row.fullDescription)
  }

  /** Applies `f` to the rows whose id is `pid`. */
  function UpdateWhereId(rows: seq<ProductRow>, pid: string, f: ProductRow -> ProductRow): (r: seq<ProductRow>)
    ensures |r| == |rows|
    ensures forall i :: 0 <= i < |rows| ==> r[i] == if rows[i].id == pid then f(rows[i]) else rows[i]
  {
    seq(|rows|, i requires 0 <= i < |rows| => if rows[i].id == pid then f(rows[i]) else rows[i])
  }

  /** The `UPDATE product_translations SET ...` of an existing row: each defined field overwrites. */
  function PatchTranslation(row: TranslationRow, t: TranslationInput): (r: TranslationRow)
    ensures r.productId == row.productId && r.lang == row.lang
    ensures r.name == (if t.name.Some? then t.name else row.name)
    ensures r.description == (if t.description.Some? then t.description else row.description)
    ensures r.fullDescription == (if t.fullDescription.Some? then t.fullDescription else row.fullDescription)
  {
    row.(name := if t.name.Some? then t.name else row.name,
         description := if t.description.Some? then t.description else row.description,
         fullDescription := if t.fullDescription.Some? then t.fullDescription else row.fullDescription)
  }

  predicate IsTranslationOf(r: TranslationRow, pid: string, lang: string) {
    r.productId == pid && r.lang == lang
  }

  predicate HasTranslation(rows: seq<TranslationRow>, pid: string, lang: string) {
    exists i | 0 <= i < |rows| :: IsTranslationOf(rows[i], pid, lang)
  }

  /** The index of the first row of (`pid`, `lang`): the row `SELECT id ...` returns first. */
  function FirstTranslation(rows: seq<TranslationRow>, pid: string, lang: string): (k: nat)
    requires HasTranslation(rows, pid, lang)
    ensures k < |rows| && IsTranslationOf(rows[k], pid, lang)
    ensures forall j :: 0 <= j < k ==> !IsTranslationOf(rows[j], pid, lang)
  {
    if IsTranslationOf(rows[0], pid, lang) then 0
    else
      var i :| 0 <= i < |rows| && IsTranslationOf(rows[i], pid, lang);
      assert IsTranslationOf(rows[1..][i - 1], pid, lang);
      1 + FirstTranslation(rows[1..], pid, lang)
  }

  /** Patches the first row of (`pid`, `lang`) and leaves every other row as it was. */
  function PatchFirst(rows: seq<TranslationRow>, pid: string, lang: string, t: TranslationInput)
    : (r: seq<TranslationRow>)
    requires HasTranslation(rows, pid, lang)
    ensures |r| == |rows|
    ensures var k := FirstTranslation(rows, pid, lang);
      r[k] == PatchTranslation(rows[k], t) && forall j :: 0 <= j < |rows| && j != k ==> r[j] == rows[j]
  {
    var k := FirstTranslation(rows, pid, lang);
    rows[k := PatchTranslation(rows[k], t)]
  }

  /** The translation and ingredient-translation tables, written together per language. */
  datatype TranslationTables = TranslationTables(
    rows: seq<TranslationRow>,
    ingredientRows: seq<IngredientTranslationRow>)

  /** One language of `updateProduct` in lib/db-server.ts: patch an existing row, or
      insert one when some field has text; a defined ingredient list replaces that
      language's ingredient translations. */
  function UpdateLanguage(t: TranslationTables, pid: string, e: LangEntry): (r: TranslationTables)
    ensures HasTranslation(r.rows, pid, e.lang) <==> HasTranslation(t.rows, pid, e.lang) || HasText(e.input)
    ensures |r.rows| == |t.rows| + (if !HasTranslation(t.rows, pid, e.lang) && HasText(e.input) then 1 else 0)
    ensures forall i :: 0 <= i < |t.rows| && !IsTranslationOf(t.rows[i], pid, e.lang) ==> r.rows[i] == t.rows[i]
    ensures e.input.ingredients.None? ==> r.ingredientRows == t.ingredientRows
    ensures e.input.ingredients.Some? ==>
      forall i :: 0 <= i < |r.ingredientRows| && r.ingredientRows[i].productId == pid && r.ingredientRows[i].lang == e.lang ==>
        r.ingredientRows[i].ingredient in e.input.ingredients.value
  {
    var rows :=
      if HasTranslation(t.rows, pid, e.lang) then
        var k := FirstTranslation(t.rows, pid, e.lang);
        assert IsTranslationOf(PatchFirst(t.rows, pid, e.lang, e.input)[k], pid, e.lang);
        PatchFirst(t.rows, pid, e.lang, e.input)
      else if HasText(e.input) then
        assert IsTranslationOf((t.rows + [NewTranslationRow(pid, e)])[|t.rows|], pid, e.lang);
        t.rows + [NewTranslationRow(pid, e)]
      else t.rows;
    var ingredientRows :=
      if e.input.ingredients.Some? then
        Filter(t.ingredientRows, IngredientTranslationOfOtherLang(pid, e.lang))
          + LangIngredientRows(pid, e.lang, e.input.ingredients.value)
      else t.ingredientRows;
    TranslationTables(rows, ingredientRows)
  }

  /** One language of `updateProduct` in lib/db.ts: patch an existing row, or insert
      one even when every field is empty; ingredient translations are not touched. */
  function UpdateLanguageStamped(t: TranslationTables, pid: string, e: LangEntry): TranslationTables {
    if HasTranslation(t.rows, pid, e.lang) then t.(rows := PatchFirst(t.rows, pid, e.lang, e.input))
    else t.(rows := t.rows + [NewTranslationRow(pid, e)])
  }

  function UpdateLanguages(t: TranslationTables, pid: string, entries: seq<LangEntry>, stamped: bool)
    : TranslationTables
    decreases |entries|
  {
    if |entries| == 0 then t
    else
      var next := if stamped then UpdateLanguageStamped(t, pid, entries[0]) else UpdateLanguage(t, pid, entries[0]);
      UpdateLanguages(next, pid, entries[1..], stamped)
  }

  /** The image rows after the image block of `updateProduct`: all of the product's
      rows are deleted, the main image goes back at 0 only when it is truthy, and the
      additional images follow at 1, 2, ... */
  function ReplacedImages(images: seq<ImageRow>, pid: string, p: ProductPatch): seq<ImageRow> {
    Filter(images, ImageOfOther(pid))
      + (if Truthy(p.image) then [ImageRow(pid, p.image.value, 0)] else [])
      + ImageRowsFrom(pid, p.additionalImages.GetOr([]), 1)
  }

  /** `updateProduct` of lib/db-server.ts. */
  function UpdateProduct(s: Store, pid: string, p: ProductPatch, fails: bool): (r: (Store, bool))
    ensures r.1 == !fails
    ensures !r.1 ==> r.0 == s
    ensures r.1 ==> (r.0.orders == s.orders && r.0.orderItems == s.orderItems
      && r.0.subscribers == s.subscribers && r.0.viewCounter == s.viewCounter)
    ensures r.1 && p.image.None? && p.additionalImages.None? ==> r.0.images == s.images
    ensures r.1 && p.ingredients.None? ==> r.0.ingredients == s.ingredients
    ensures r.1 && p.translations == [] ==>
      r.0.translations == s.translations && r.0.ingredientTranslations == s.ingredientTranslations
    ensures r.1 ==> |r.0.products| == |s.products|
    ensures r.1 ==> forall i :: 0 <= i < |s.products| ==>
      r.0.products[i] == if s.products[i].id == pid then PatchRow(s.products[i], p) else s.products[i]
    ensures r.1 && !HasScalar(p) ==> r.0.products == s.products
  {
    if fails then (s, false)
    else
      var images :=
        if p.image.Some? || p.additionalImages.Some? then ReplacedImages(s.images, pid, p) else s.images;
      var ingredients :=
        if p.ingredients.Some? then Filter(s.ingredients, IngredientOfOther(pid)) + IngredientRowsOf(pid, p.ingredients.value)
        else s.ingredients;
      var t := UpdateLanguages(TranslationTables(s.translations, s.ingredientTranslations), pid, p.translations, false);
      (s.(products := UpdateWhereId(s.products, pid, row => PatchRow(row, p)),
          images := images,
          ingredients := ingredients,
          translations := t.rows,
          ingredientTranslations := t.ingredientRows),
       true)
  }

  /** The row update of `updateProduct` in lib/db.ts: as in lib/db-server.ts, and
      when any column is set `updatedAt` becomes `now`. */
  function PatchRowStamped(row: ProductRow, p: ProductPatch, now: int): (r: ProductRow)
    ensures r.updatedAt == if HasScalar(p) then now else row.updatedAt
    ensures r.(updatedAt := row.updatedAt) == PatchRow(row, p)
  {
    if HasScalar(p) then PatchRow(row, p).(updatedAt := now) else row
  }

  /** `updateProduct` of lib/db.ts: the product row and translations only. */
  function UpdateProductStamped(s: Store, pid: string, p: ProductPatch, now: int, fails: bool): (r: (Store, bool))
    ensures r.1 == !fails
    ensures !r.1 ==> r.0 == s
    ensures r.1 ==> (r.0.images == s.images && r.0.ingredients == s.ingredients
      && r.0.ingredientTranslations == s.ingredientTranslations)
  {
    if fails then (s, false)
    else
      var t := UpdateLanguages(TranslationTables(s.translations, s.ingredientTranslations), pid, p.translations, true);
      assert t.ingredientRows == s.ingredientTranslations by {
        UpdateLanguagesStampedKeepsIngredients(TranslationTables(s.translations, s.ingredientTranslations), pid, p.translations);
      }
      (s.(products := UpdateWhereId(s.products, pid, row => PatchRowStamped(row, p, now)),
          translations := t.rows),
       true)
  }

  lemma {:induction false} UpdateLanguagesStampedKeepsIngredients(t: TranslationTables, pid: string, entries: seq<LangEntry>)
    ensures UpdateLanguages(t, pid, entries, true).ingredientRows == t.ingredientRows
    decreases |entries|
  {
    if |entries| > 0 {
      UpdateLanguagesStampedKeepsIngredients(UpdateLanguageStamped(t, pid, entries[0]), pid, entries[1..]);
    }
  }

  // ------------------------------------------------------------ lib/db.ts helpers

  /** `deleteProduct`: every row of the product in the four child tables and the
      product row itself; `order_items` is not touched. */
  function DeleteProduct(s: Store, pid: string, fails: bool): (r: (Store, bool))
    ensures r.1 == !fails
    ensures !r.1 ==> r.0 == s
    ensures r.1 ==> !ProductIdUsed(r.0, pid)
    ensures r.1 ==> (r.0.orderItems == s.orderItems && r.0.orders == s.orders
      && r.0.subscribers == s.subscribers && r.0.viewCounter == s.viewCounter)
  {
    if fails then (s, false)
    else
      (s.(products := Filter(s.products, ProductOfOther(pid)),
          images := Filter(s.images, ImageOfOther(pid)),
          ingredients := Filter(s.ingredients, IngredientOfOther(pid)),
          translations := Filter(s.translations, TranslationOfOther(pid)),
          ingredientTranslations := Filter(s.ingredientTranslations, IngredientTranslationOfOther(pid))),
       true)
  }

  /** `SELECT MAX(displayOrder) FROM product_images WHERE productId = ?`: NULL when the
      product has no image. */
  function MaxDisplayOrder(images: seq<ImageRow>, pid: string): (m: Option<int>)
    ensures m.None? <==> forall i :: 0 <= i < |images| ==> images[i].productId != pid
    ensures m.Some? ==> ((forall i :: 0 <= i < |images| && images[i].productId == pid ==> images[i].displayOrder <= m.value)
      && (exists i | 0 <= i < |images| :: images[i].productId == pid && images[i].displayOrder == m.value))
  {
    if |images| == 0 then None
    else
      var rest := MaxDisplayOrder(images[1..], pid);
      assert forall i | 1 <= i < |images| :: images[i] == images[1..][i - 1];
      if images[0].productId != pid then rest
      else if rest.None? || rest.value < images[0].displayOrder then Some(images[0].displayOrder)
      else rest
  }

  /** `maxOrder || -1`: NULL and also 0 become -1. */
  function OrMinusOne(m: Option<int>): int {
    if m.Some? && m.value != 0 then m.value else -1
  }

  /** `maxOrder ?? -1`: only NULL becomes -1. */
  function NullishMinusOne(m: Option<int>): int {
    if m.Some? then m.value else -1
  }

  /** `addProductImages` as written: new images numbered from `(maxOrder || -1) + 1`. */
  function AddProductImagesAsWritten(s: Store, pid: string, urls: seq<string>, fails: bool): (r: (Store, bool))
    ensures r.1 == !fails
    ensures !r.1 ==> r.0 == s
    ensures r.1 ==> r.0 == s.(images := s.images
                                + ImageRowsFrom(pid, urls, OrMinusOne(MaxDisplayOrder(s.images, pid)) + 1))
  {
    if fails then (s, false)
    else (s.(images := s.images + ImageRowsFrom(pid, urls, OrMinusOne(MaxDisplayOrder(s.images, pid)) + 1)), true)
  }

  /** `addProductImages` with the NULL test it evidently means: numbering continues
      after the current maximum, whatever it is. */
  function AddProductImages(s: Store, pid: string, urls: seq<string>, fails: bool): (r: (Store, bool))
    ensures r.1 == !fails
    ensures !r.1 ==> r.0 == s
    ensures r.1 ==> |r.0.images| == |s.images| + |urls| && r.0.images[..|s.images|] == s.images
    ensures r.1 ==> (forall i, j :: 0 <= i < |s.images| <= j < |r.0.images| && s.images[i].productId == pid ==>
                       r.0.images[i].displayOrder < r.0.images[j].displayOrder)
  {
    if fails then (s, false)
    else
      var added := s.images + ImageRowsFrom(pid, urls, NullishMinusOne(MaxDisplayOrder(s.images, pid)) + 1);
      assert added[..|s.images|] == s.images;
      (s.(images := added), true)
  }

  /** `deleteProductImage`: every image row of the product with that URL, duplicates included. */
  function DeleteProductImage(s: Store, pid: string, url: string, fails: bool): (r: (Store, bool))
    ensures r.1 == !fails
    ensures !r.1 ==> r.0 == s
    ensures r.1 ==> (r.0.products == s.products
      && (forall i :: 0 <= i < |r.0.images| ==> !(r.0.images[i].productId == pid && r.0.images[i].imageUrl == url))
      && (forall i :: 0 <= i < |s.images| && !(s.images[i].productId == pid && s.images[i].imageUrl == url)
            ==> s.images[i] in r.0.images))
  {
    if fails then (s, false)
    else (s.(images := Filter(s.images, ImageKept(pid, url))), true)
  }

  /** One language of `addProductIngredients`' `translations` argument. */
  datatype LangList = LangList(lang: string, items: seq<NullableText>)

  /** The translated entries kept for one language: those whose index is below the
      number of base ingredients. */
  function Truncate<T>(items: seq<T>, n: nat): (r: seq<T>)
    ensures |r| == if |items| < n then |items| else n
    ensures r == items[..|r|]
  {
    if |items| < n then items else items[..n]
  }

  function AddedIngredientTranslations(pid: string, lists: seq<LangList>, n: nat): (r: seq<IngredientTranslationRow>)
    ensures forall i :: 0 <= i < |r| ==> r[i].productId == pid && r[i].displayOrder < n
  {
    if |lists| == 0 then []
    else
      var last := lists[|lists| - 1];
      AddedIngredientTranslations(pid, lists[..|lists| - 1], n)
        + LangIngredientRows(pid, last.lang, Truncate(last.items, n))
  }

  /** `addProductIngredients`: replaces the product's ingredients and ALL of its
      ingredient translations (every language, listed or not). */
  function AddProductIngredients(s: Store, pid: string, items: seq<string>, lists: seq<LangList>, fails: bool)
    : (r: (Store, bool))
    ensures r.1 == !fails
    ensures !r.1 ==> r.0 == s
    ensures r.1 ==> r.0.products == s.products && r.0.images == s.images && r.0.translations == s.translations
    ensures r.1 ==> (forall i :: 0 <= i < |r.0.ingredientTranslations| && r.0.ingredientTranslations[i].productId == pid ==>
                       r.0.ingredientTranslations[i].displayOrder < |items|)
  {
    if fails then (s, false)
    else
      var kept := Filter(s.ingredientTranslations, IngredientTranslationOfOther(pid));
      (s.(ingredients := Filter(s.ingredients, IngredientOfOther(pid)) + IngredientRowsOf(pid, items),
          ingredientTranslations := kept + AddedIngredientTranslations(pid, lists, |items|)),
       true)
  }
}

=== FILE: checkout.dfy ===
/** The checkout dialog of components/checkout-form.tsx: form validation, the order
    payload built from the cart, the submit sequence and the per-field error clearing. */
module Checkout {
  import opened Common
  import opened Text
  import opened Patterns
  import opened Schema
  import opened Cart
  import opened Orders

  datatype Field = Name | Email | Phone | City | Address

  datatype FormData = FormData(name: string, email: string, phone: string, city: string, address: string)

  const EmptyForm := FormData("", "", "", "", "")

  function Get(form: FormData, f: Field): string {
    match f
    case Name => form.name
    case Email => form.email
    case Phone => form.phone
    case City => form.city
    case Address => form.address
  }

  /** The message `validateForm` records for one field, if any. */
  function FieldError(form: FormData, f: Field): (r: Option<string>)
    ensures r.Some? ==> r.value != ""
  {
    match f
    case Name => if Trim(form.name) == "" then Some("Name is required") else None
    case Email =>
      if Trim(form.email) == "" then Some("Email is required")
      else if !EmailTest(form.email) then Some("Email is invalid")
      else None
    case Phone =>
      if Trim(form.phone) == "" then Some("Phone number is required")
      else if !PhoneTest(Trim(form.phone)) then Some("Please enter a valid phone number")
      else None
    case City => if Trim(form.city) == "" then Some("City is required") else None
    case Address => if Trim(form.address) == "" then Some("Address is required") else None
  }

  /** The `FormErrors` object: one optional message per field. */
  datatype FormErrors = FormErrors(name: Option<string>, email: Option<string>, phone: Option<string>,
                                   city: Option<string>, address: Option<string>)

  const NoErrors := FormErrors(None, None, None, None, None)

  function GetError(e: FormErrors, f: Field): Option<string> {
    match f
    case Name => e.name
    case Email => e.email
    case Phone => e.phone
    case City => e.city
    case Address => e.address
  }

  /** The errors `validateForm` collects. */
  function Errors(form: FormData): (e: FormErrors)
    ensures forall f :: GetError(e, f) == FieldError(form, f)
  {
    FormErrors(FieldError(form, Name), FieldError(form, Email), FieldError(form, Phone),
               FieldError(form, City), FieldError(form, Address))
  }

  /** `validateForm()`: the collected object has no keys. */
  predicate ValidateForm(form: FormData) {
    Errors(form) == NoErrors
  }

  /** A field is flagged exactly when it is blank, or, for the email, when it holds
      no match of `\S+@\S+\.\S+`, or, for the phone, when the trimmed text does not
      match `^\+?[0-9\s-]{8,}$`. */
  lemma FieldErrorIff(form: FormData, f: Field)
    ensures FieldError(form, f).Some? <==>
      || IsBlank(Get(form, f))
      || (f == Email && !EmailTest(form.email))
      || (f == Phone && !PhoneTest(Trim(form.phone)))
  {
    TrimEmptyIffBlank(Get(form, f));
  }

  /** The form is accepted exactly when every field has a non-space character and the
      email and phone tests pass. The email is checked untrimmed. */
  lemma ValidateFormIff(form: FormData)
    ensures ValidateForm(form) <==>
      && !IsBlank(form.name) && !IsBlank(form.email) && !IsBlank(form.phone)
      && !IsBlank(form.city) && !IsBlank(form.address)
      && EmailTest(form.email) && PhoneTest(Trim(form.phone))
  {
    FieldErrorIff(form, Name);
    FieldErrorIff(form, Email);
    FieldErrorIff(form, Phone);
    FieldErrorIff(form, City);
    FieldErrorIff(form, Address);
  }

  // ------------------------------------------------------------ the order payload

  function ItemsOf(items: seq<CartItem>): (r: seq<ItemInput>)
    ensures |r| == |items|
    ensures forall i :: 0 <= i < |items| ==>
      r[i] == ItemInput(items[i].product.id, items[i].quantity, items[i].product.price)
  {
    seq(|items|, i requires 0 <= i < |items| => ItemInput(items[i].product.id, items[i].quantity, items[i].product.price))
  }

  /** `orderData`: the form fields, `getTotal()` and one line per cart entry. */
  function OrderData(form: FormData, items: seq<CartItem>): (o: OrderInput)
    ensures o.customerName == form.name && o.email == form.email && o.phone == form.phone
    ensures o.city == form.city && o.address == form.address
    ensures |o.items| == |items|
  {
    OrderInput(form.name, form.email, form.phone, form.city, form.address, Total(items), ItemsOf(items))
  }

  function LineSum(lines: seq<ItemInput>): int {
    if |lines| == 0 then 0
    else LineSum(lines[..|lines| - 1]) + lines[|lines| - 1].price * lines[|lines| - 1].quantity
  }

  function QuantitySum(lines: seq<ItemInput>): int {
    if |lines| == 0 then 0 else QuantitySum(lines[..|lines| - 1]) + lines[|lines| - 1].quantity
  }

  /** The order's total agrees with its lines, and the dialog's `totalItems` with their
      quantities: both folds see the same prices and quantities as the cart. */
  lemma {:induction false} OrderDataConsistent(form: FormData, items: seq<CartItem>)
    ensures OrderData(form, items).total == LineSum(OrderData(form, items).items)
    ensures ItemCount(items) == QuantitySum(OrderData(form, items).items)
  {
    if |items| > 0 {
      var n := |items| - 1;
      OrderDataConsistent(form, items[..n]);
      assert ItemsOf(items)[..n] == ItemsOf(items[..n]);
    }
  }

  // ------------------------------------------------------------ submitting

  datatype State = State(form: FormData, errors: FormErrors, items: seq<CartItem>, success: bool)

  /** `handleSubmit`: validation records the errors (none when the form passes); a
      valid form places the order and a returned id shows the success message. A
      failed order leaves the form and the cart as they were. */
  function HandleSubmit(st: State, s: Store, n: nat, now: int, fails: bool): (r: (Store, State))
    requires n < 1000
    ensures r.1.errors == Errors(st.form) && r.1.form == st.form && r.1.items == st.items
    ensures !ValidateForm(st.form) ==> r == (s, st.(errors := Errors(st.form)))
    ensures r.1.success <==>
      st.success || (ValidateForm(st.form) && CreateOrder(s, n, now, OrderData(st.form, st.items), fails).1.Some?)
    ensures ValidateForm(st.form) ==> r.0 == CreateOrder(s, n, now, OrderData(st.form, st.items), fails).0
  {
    if !ValidateForm(st.form) then (s, st.(errors := Errors(st.form)))
    else
      var (t, id) := CreateOrder(s, n, now, OrderData(st.form, st.items), fails);
      if id.Some? then (t, st.(errors := NoErrors, success := true))
      else (s, st.(errors := NoErrors))
  }

  /** The two-second timeout after a placed order: the cart is emptied and the form reset. */
  function AfterSuccess(st: State): (r: State)
    ensures r.items == [] && r.form == EmptyForm && !r.success
    ensures ItemCount(r.items) == 0
    ensures r.errors == st.errors
  {
    State(EmptyForm, st.errors, ClearCart(st.items), false)
  }

  /** An invalid form never reaches the store and shows no success. */
  lemma InvalidFormCreatesNoOrder(st: State, s: Store, n: nat, now: int, fails: bool)
    requires n < 1000 && !ValidateForm(st.form)
    ensures HandleSubmit(st, s, n, now, fails).0 == s
    ensures HandleSubmit(st, s, n, now, fails).1 == st.(errors := Errors(st.form))
  {
  }

  /** A placed order stores exactly the cart: one item row per cart entry, in order,
      carrying its product id, quantity and price, under the total the cart showed. */
  lemma PlacedOrderMatchesCart(st: State, s: Store, n: nat, now: int)
    requires n < 1000
    requires !st.success && HandleSubmit(st, s, n, now, false).1.success
    ensures var t := HandleSubmit(st, s, n, now, false).0;
      && t.orders == s.orders + [OrderRow(OrderId(n), st.form.name, st.form.email, st.form.phone,
                                          st.form.city, st.form.address, "processing", Total(st.items), now)]
      && |t.orderItems| == |s.orderItems| + |st.items|
      && forall i :: 0 <= i < |st.items| ==>
           t.orderItems[|s.orderItems| + i] ==
             OrderItemRow(OrderId(n), st.items[i].product.id, st.items[i].quantity, st.items[i].product.price)
  {
    var o := OrderData(st.form, st.items);
    assert ValidateForm(st.form) && CreateOrder(s, n, now, o, false).1.Some?;
    assert o.items == ItemsOf(st.items) && o.total == Total(st.items);
  }

  // ------------------------------------------------------------ editing

  function SetField(form: FormData, f: Field, v: string): (r: FormData)
    ensures Get(r, f) == v
    ensures forall g :: g != f ==> Get(r, g) == Get(form, g)
  {
    match f
    case Name => form.(name := v)
    case Email => form.(email := v)
    case Phone => form.(phone := v)
    case City => form.(city := v)
    case Address => form.(address := v)
  }

  /** `handleChange`: sets the field and clears that field's error, if it had one. */
  function HandleChange(st: State, f: Field, v: string): (r: State)
    ensures Get(r.form, f) == v && GetError(r.errors, f).None?
    ensures forall g :: g != f ==> Get(r.form, g) == Get(st.form, g) && GetError(r.errors, g) == GetError(st.errors, g)
    ensures r.items == st.items && r.success == st.success
  {
    var errors :=
      if GetError(st.errors, f).Some? then
        match f
        case Name => st.errors.(name := None)
        case Email => st.errors.(email := None)
        case Phone => st.errors.(phone := None)
        case City => st.errors.(city := None)
        case Address => st.errors.(address := None)
      else st.errors;
    st.(form := SetField(st.form, f, v), errors := errors)
  }

  /** Correcting every flagged field clears every error. */
  lemma {:induction false} EditingClearsErrors(st: State, edits: seq<(Field, string)>)
    requires forall f :: GetError(st.errors, f).Some? ==> exists i :: 0 <= i < |edits| && edits[i].0 == f
    ensures Edit(st, edits).errors == NoErrors
    decreases |edits|
  {
    if |edits| == 0 {
      assert GetError(st.errors, Name).None? && GetError(st.errors, Email).None?;
      assert GetError(st.errors, Phone).None? && GetError(st.errors, City).None?;
      assert GetError(st.errors, Address).None?;
    } else {
      var next := HandleChange(st, edits[0].0, edits[0].1);
      forall f | GetError(next.errors, f).Some?
        ensures exists i :: 0 <= i < |edits[1..]| && edits[1..][i].0 == f
      {
        var i :| 0 <= i < |edits| && edits[i].0 == f;
        assert i != 0;
        assert edits[1..][i - 1].0 == f;
      }
      EditingClearsErrors(next, edits[1..]);
    }
  }

  function Edit(st: State, edits: seq<(Field, string)>): State
    decreases |edits|
  {
    if |edits| == 0 then st else Edit(HandleChange(st, edits[0].0, edits[0].1), edits[1..])
  }
}

=== FILE: common.dfy ===
/** Small shared vocabulary: optional values (JavaScript `undefined` / SQL `NULL`),
    JavaScript truthiness of strings, and generic selection over row sequences. */
module Common {

  /** An optional value: `None` stands for an absent JSON field or a NULL column. */
  datatype Option<+T> = None | Some(value: T) {
    function GetOr(default: T): T {
      match this
      case Some(v) => v
      case None => default
    }
  }

  /** JavaScript truthiness of a possibly-absent string: present and non-empty. */
  predicate Truthy(s: Option<string>) {
    s.Some? && s.value != ""
  }

  /** `s || ""` */
  function OrEmpty(s: Option<string>): (r: string)
    ensures Truthy(s) ==> r == s.value
    ensures !Truthy(s) ==> r == ""
  {
    if Truthy(s) then s.value else ""
  }

  /** `s || null` */
  function NullIfEmpty(s: Option<string>): (r: Option<string>)
    ensures Truthy(s) <==> r.Some?
    ensures r.Some? ==> r == s
  {
    if Truthy(s) then s else None
  }

  function Max(a: int, b: int): int {
    if a < b then b else a
  }

  /** `rows.filter(keep)`: the rows that satisfy `keep`, in order. */
  function Filter<R>(rows: seq<R>, keep: R -> bool): (r: seq<R>)
    ensures |r| <= |rows|
    ensures forall i :: 0 <= i < |r| ==> r[i] in rows && keep(r[i])
    ensures forall i :: 0 <= i < |rows| && keep(rows[i]) ==> rows[i] in r
  {
    if |rows| == 0 then []
    else (if keep(rows[0]) then [rows[0]] else []) + Filter(rows[1..], keep)
  }

  lemma {:induction false} FilterAppend<R>(a: seq<R>, b: seq<R>, keep: R -> bool)
    ensures Filter(a + b, keep) == Filter(a, keep) + Filter(b, keep)
  {
    if |a| == 0 {
      assert a + b == b;
    } else {
      assert (a + b)[0] == a[0];
      assert (a + b)[1..] == a[1..] + b;
      FilterAppend(a[1..], b, keep);
      FilterStep(a + b, keep);
      FilterStep(a, keep);
    }
  }

  /** One step of the filter: the head, if kept, then the filtered tail. */
  lemma FilterStep<R>(rows: seq<R>, keep: R -> bool)
    requires |rows| > 0
    ensures Filter(rows, keep) == (if keep(rows[0]) then [rows[0]] else []) + Filter(rows[1..], keep)
  {
  }

  lemma FilterAll<R>(rows: seq<R>, keep: R -> bool)
    requires forall i :: 0 <= i < |rows| ==> keep(rows[i])
    ensures Filter(rows, keep) == rows
  {
    if |rows| > 0 {
      FilterAll(rows[1..], keep);
    }
  }

  lemma FilterNone<R>(rows: seq<R>, keep: R -> bool)
    requires forall i :: 0 <= i < |rows| ==> !keep(rows[i])
    ensures Filter(rows, keep) == []
  {
    if |rows| > 0 {
      FilterNone(rows[1..], keep);
    }
  }

  lemma FilterHead<R>(rows: seq<R>, keep: R -> bool)
    requires |rows| > 0 && keep(rows[0])
    ensures |Filter(rows, keep)| > 0 && Filter(rows, keep)[0] == rows[0]
  {
  }

  /** A kept last row is the last row of the filtered sequence. */
  lemma {:induction false} FilterLast<R>(rows: seq<R>, keep: R -> bool)
    requires |rows| > 0 && keep(rows[|rows| - 1])
    ensures |Filter(rows, keep)| > 0 && Filter(rows, keep)[|Filter(rows, keep)| - 1] == rows[|rows| - 1]
  {
    var head := if keep(rows[0]) then [rows[0]] else [];
    var tail := Filter(rows[1..], keep);
    assert Filter(rows, keep) == head + tail;
    if |rows| > 1 {
      assert rows[1..][|rows| - 2] == rows[|rows| - 1];
      FilterLast(rows[1..], keep);
      assert (head + tail)[|head| + |tail| - 1] == tail[|tail| - 1];
    }
  }

  /** Filtering first by a predicate that every row of interest satisfies changes nothing. */
  lemma {:induction false} FilterSubsumed<R>(rows: seq<R>, weak: R -> bool, strong: R -> bool)
    requires forall i :: 0 <= i < |rows| && strong(rows[i]) ==> weak(rows[i])
    ensures Filter(Filter(rows, weak), strong) == Filter(rows, strong)
  {
    if |rows| > 0 {
      FilterSubsumed(rows[1..], weak, strong);
      var head := if weak(rows[0]) then [rows[0]] else [];
      FilterAppend(head, Filter(rows[1..], weak), strong);
    }
  }

  /** Filtering twice with the same predicate changes nothing the second time. */
  lemma FilterIdempotent<R>(rows: seq<R>, keep: R -> bool)
    ensures Filter(Filter(rows, keep), keep) == Filter(rows, keep)
  {
    var f := Filter(rows, keep);
    FilterAll(f, keep);
  }

  /** `rows.flatMap(pick)` for a `pick` yielding zero or one value: a SELECT with a projection. */
  function Select<R, V>(rows: seq<R>, pick: R -> Option<V>): (r: seq<V>)
    ensures |r| <= |rows|
  {
    if |rows| == 0 then []
    else (if pick(rows[0]).Some? then [pick(rows[0]).value] else []) + Select(rows[1..], pick)
  }

  /** `rows.map(f)` */
  function MapRows<R, V>(rows: seq<R>, f: R -> V): (r: seq<V>)
    ensures |r| == |rows|
    ensures forall i :: 0 <= i < |rows| ==> r[i] == f(rows[i])
  {
    seq(|rows|, i requires 0 <= i < |rows| => f(rows[i]))
  }

  /** A selection whose `pick` keeps a row exactly when `keep` holds, projecting it
      with `proj`, is a filter followed by a projection. */
  lemma {:induction false} SelectIsFilterMap<R, V>(rows: seq<R>, pick: R -> Option<V>, keep: R -> bool, proj: R -> V)
    requires forall i :: 0 <= i < |rows| ==> pick(rows[i]) == if keep(rows[i]) then Some(proj(rows[i])) else None
    ensures Select(rows, pick) == MapRows(Filter(rows, keep), proj)
  {
    if |rows| > 0 {
      SelectIsFilterMap(rows[1..], pick, keep, proj);
      FilterStep(rows, keep);
      var head := if keep(rows[0]) then [rows[0]] else [];
      var rest := Filter(rows[1..], keep);
      assert MapRows(head + rest, proj) == MapRows(head, proj) + MapRows(rest, proj);
    }
  }

  lemma {:induction false} SelectAppend<R, V>(a: seq<R>, b: seq<R>, pick: R -> Option<V>)
    ensures Select(a + b, pick) == Select(a, pick) + Select(b, pick)
  {
    if |a| == 0 {
      assert a + b == b;
    } else {
      var head := if pick(a[0]).Some? then [pick(a[0]).value] else [];
      assert (a + b)[0] == a[0];
      assert (a + b)[1..] == a[1..] + b;
      SelectAppend(a[1..], b, pick);
      assert Select(a + b, pick) == head + Select(a[1..] + b, pick);
      assert Select(a, pick) == head + Select(a[1..], pick);
    }
  }

  lemma SelectNone<R, V>(rows: seq<R>, pick: R -> Option<V>)
    requires forall i :: 0 <= i < |rows| ==> pick(rows[i]).None?
    ensures Select(rows, pick) == []
  {
    if |rows| > 0 {
      SelectNone(rows[1..], pick);
    }
  }

  /** Selecting from a filtered table sees only the kept rows; when every row the
      filter drops is invisible to `pick`, the selection is unchanged. */
  lemma SelectFilter<R, V>(rows: seq<R>, keep: R -> bool, pick: R -> Option<V>)
    requires forall i :: 0 <= i < |rows| && !keep(rows[i]) ==> pick(rows[i]).None?
    ensures Select(Filter(rows, keep), pick) == Select(rows, pick)
  {
    if |rows| > 0 {
      SelectFilter(rows[1..], keep, pick);
      var head := if keep(rows[0]) then [rows[0]] else [];
      SelectAppend(head, Filter(rows[1..], keep), pick);
    }
  }

  /** Selecting from a filtered table where the filter drops every row `pick` sees. */
  lemma SelectFilterDropped<R, V>(rows: seq<R>, keep: R -> bool, pick: R -> Option<V>)
    requires forall i :: 0 <= i < |rows| && keep(rows[i]) ==> pick(rows[i]).None?
    ensures Select(Filter(rows, keep), pick) == []
  {
    var f := Filter(rows, keep);
    forall i | 0 <= i < |f| ensures pick(f[i]).None? {
      var j :| 0 <= j < |rows| && rows[j] == f[i];
    }
    SelectNone(f, pick);
  }

  /** When `pick` sees every row, the selection is the picked values in row order. */
  lemma {:induction false} SelectAllSome<R, V>(rows: seq<R>, pick: R -> Option<V>)
    requires forall i :: 0 <= i < |rows| ==> pick(rows[i]).Some?
    ensures Select(rows, pick) == seq(|rows|, i requires 0 <= i < |rows| => pick(rows[i]).value)
  {
    if |rows| > 0 {
      SelectAllSome(rows[1..], pick);
    }
  }

  /** Rows `pick` does not see may precede the ones it does without changing the selection. */
  lemma SelectAfterNone<R, V>(a: seq<R>, b: seq<R>, pick: R -> Option<V>)
    requires forall i :: 0 <= i < |a| ==> pick(a[i]).None?
    ensures Select(a + b, pick) == Select(b, pick)
  {
    SelectAppend(a, b, pick);
    SelectNone(a, pick);
  }

  /** A property every row `pick` sees has of its value holds of every selected value. */
  lemma {:induction false} SelectEvery<R, V>(rows: seq<R>, pick: R -> Option<V>, P: V -> bool)
    requires forall j :: 0 <= j < |rows| && pick(rows[j]).Some? ==> P(pick(rows[j]).value)
    ensures forall i :: 0 <= i < |Select(rows, pick)| ==> P(Select(rows, pick)[i])
  {
    if |rows| > 0 {
      SelectEvery(rows[1..], pick, P);
      var head := if pick(rows[0]).Some? then [pick(rows[0]).value] else [];
      assert Select(rows, pick) == head + Select(rows[1..], pick);
    }
  }
}

=== FILE: footer.dfy ===
/** The language switcher of components/footer.tsx: the initial choice and the path
    the browser is sent to. */
module Footer {
  import opened Common
  import opened Text

  datatype Language = Language(code: string, name: string, native: string)

  /** The switcher's list; English comes first. */
  const Languages: seq<Language> := [
    Language("en", "English", "English"),
    Language("fr", "French", "Français"),
    Language("ar", "Arabic", "العربية")
  ]

  /** `languages.find(l => l.code === lang) || languages[0]` */
  function FindLanguage(langs: seq<Language>, lang: string): (r: Option<Language>)
    ensures r.Some? <==> exists i :: 0 <= i < |langs| && langs[i].code == lang
    ensures r.Some? ==> r.value.code == lang && r.value in langs
    ensures r.Some? ==>
      exists i :: 0 <= i < |langs| && langs[i] == r.value && (forall j :: 0 <= j < i ==> langs[j].code != lang)
  {
    if |langs| == 0 then None
    else if langs[0].code == lang then Some(langs[0])
    else
      var rest := FindLanguage(langs[1..], lang);
      if rest.Some? then
        var i :| 0 <= i < |langs[1..]| && langs[1..][i] == rest.value
          && forall j :: 0 <= j < i ==> langs[1..][j].code != lang;
        assert langs[i + 1] == rest.value;
        rest
      else None
  }

  function InitialLanguage(lang: string): (r: Language)
    ensures r in Languages
    ensures (exists i :: 0 <= i < |Languages| && Languages[i].code == lang) ==> r.code == lang
    ensures (forall i :: 0 <= i < |Languages| ==> Languages[i].code != lang) ==> r == Languages[0]
  {
    var found := FindLanguage(Languages, lang);
    if found.Some? then found.value else Languages[0]
  }

  /** The end of the segment that starts at `i`: the first slash at or after `i`, or
      the end of the path. */
  function SegmentEnd(p: string, i: nat): (r: nat)
    requires i <= |p|
    ensures i <= r <= |p|
    ensures forall j :: i <= j < r ==> p[j] != '/'
    ensures r == |p| || p[r] == '/'
    decreases |p| - i
  {
    if i == |p| || p[i] == '/' then i else SegmentEnd(p, i + 1)
  }

  /** `pathname.replace(/^\/[^/]+/, "")`: a leading slash and the non-empty run of
      non-slash characters after it are removed; a path that does not start that way
      is left as it is. */
  function StripFirstSegment(p: string): (r: string)
    ensures |p| >= 2 && p[0] == '/' && p[1] != '/' ==> r == p[SegmentEnd(p, 1)..]
    ensures !(|p| >= 2 && p[0] == '/' && p[1] != '/') ==> r == p
  {
    if |p| >= 2 && p[0] == '/' && p[1] != '/' then p[SegmentEnd(p, 1)..] else p
  }

  /** The path `selectLanguage` pushes. */
  function SwitchPath(p: string, code: string): string {
    "/" + code + StripFirstSegment(p)
  }

  predicate IsCode(code: string) {
    |code| > 0 && forall i :: 0 <= i < |code| ==> code[i] != '/'
  }

  /** What remains after stripping a path that starts with a slash is empty or again
      starts with a slash. */
  lemma StrippedStartsWithSlash(p: string)
    requires |p| > 0 && p[0] == '/'
    ensures var r := StripFirstSegment(p); r == [] || r[0] == '/'
  {
  }

  /** The pattern needs at least one character after the slash, so the root keeps its
      slash: "/" becomes "/c/". */
  lemma RootGetsTrailingSlash(code: string)
    ensures SwitchPath("/", code) == "/" + code + "/"
  {
  }

  /** On the page of product "x" in French, switching to Arabic keeps the rest of the path. */
  lemma SwitchKeepsRest()
    ensures SwitchPath("/fr/products/x", "ar") == "/ar/products/x"
  {
    var p := "/fr/products/x";
    assert SegmentEnd(p, 3) == 3;
    assert SegmentEnd(p, 1) == 3;
  }

  /** Switching to `a` and then to `b` lands where switching straight to `b` does. */
  lemma SwitchTwice(p: string, a: string, b: string)
    requires |p| > 0 && p[0] == '/'
    requires IsCode(a)
    ensures SwitchPath(SwitchPath(p, a), b) == SwitchPath(p, b)
  {
    var rest := StripFirstSegment(p);
    StrippedStartsWithSlash(p);
    var q := "/" + a + rest;
    assert q[1] == a[0];
    var e := SegmentEnd(q, 1);
    assert forall j :: 1 <= j < 1 + |a| ==> q[j] == a[j - 1];
    assert 1 + |a| == |q| || q[1 + |a|] == '/';
    assert e == 1 + |a|;
    assert q[e..] == rest;
  }
}

=== FILE: middleware.dfy ===
/** The locale redirect of middleware.ts. The supported locales and the default one
    come from lib/i18n/i18n-config.ts, which is not part of this model: they are
    parameters here. */
module Middleware {
  import opened Common
  import opened Text

  /** Static assets, API calls, files with an extension and the admin area pass
      through untouched. */
  predicate Skipped(path: string) {
    StartsWith(path, "/_next") || Contains(path, "/api/") || '.' in path || StartsWith(path, "/admin")
  }

  /** The path names locale `loc` as its first segment. */
  predicate HasLocale(path: string, loc: string) {
    StartsWith(path, "/" + loc + "/") || path == "/" + loc
  }

  /** `pathnameIsMissingLocale`: `every` over the locales. */
  function MissingLocale(locales: seq<string>, path: string): (r: bool)
    ensures r <==> forall i :: 0 <= i < |locales| ==> !HasLocale(path, locales[i])
  {
    if |locales| == 0 then true
    else !HasLocale(path, locales[0]) && MissingLocale(locales[1..], path)
  }

  /** The languages handed to the matcher: the negotiated ones, or the default alone. */
  function MatcherInput(languages: seq<string>, defaultLocale: string): (r: seq<string>)
    ensures |r| > 0
    ensures |languages| == 0 ==> r == [defaultLocale]
    ensures |languages| > 0 ==> r == languages
  {
    if |languages| == 0 then [defaultLocale] else languages
  }

  /** `getLocale`. `matched` is the matcher's answer, `None` when it throws; the
      matcher only answers with one of the locales it is given. */
  function GetLocale(locales: seq<string>, defaultLocale: string, matched: Option<string>): (r: string)
    requires defaultLocale in locales
    requires matched.Some? ==> matched.value in locales
    ensures r in locales
    ensures matched.None? ==> r == defaultLocale
  {
    if matched.Some? then matched.value else defaultLocale
  }

  /** The redirect target: the locale, then a slash when the path lacks one, then the path. */
  function RedirectPath(locale: string, path: string): (r: string)
    ensures StartsWith(path, "/") ==> r == "/" + locale + path
    ensures !StartsWith(path, "/") ==> r == "/" + locale + "/" + path
  {
    "/" + locale + (if StartsWith(path, "/") then "" else "/") + path
  }

  datatype Outcome = Next | Redirect(target: string, cookie: string)

  /** `middleware(request)`. */
  function Run(locales: seq<string>, defaultLocale: string, matched: Option<string>, path: string): (r: Outcome)
    requires defaultLocale in locales
    requires matched.Some? ==> matched.value in locales
    ensures r.Next? <==> Skipped(path) || !MissingLocale(locales, path)
    ensures r.Redirect? ==> r.cookie in locales && r.target == RedirectPath(r.cookie, path)
  {
    if Skipped(path) || !MissingLocale(locales, path) then Next
    else
      var locale := GetLocale(locales, defaultLocale, matched);
      Redirect(RedirectPath(locale, path), locale)
  }

  /** `config.matcher`, `/((?!api|_next/static|_next/image|favicon.ico).*)`: the
      framework calls the middleware only for a path that starts with a slash not
      followed by one of the four excluded prefixes. The dot of `favicon.ico` is a
      pattern dot and stands for any character. */
  predicate Matched(path: string) {
    && |path| > 0 && path[0] == '/'
    && !StartsWith(path[1..], "api")
    && !StartsWith(path[1..], "_next/static")
    && !StartsWith(path[1..], "_next/image")
    && !(|path| >= 12 && path[1..8] == "favicon" && path[9..12] == "ico")
  }

  /** One request as the framework handles it: paths outside the matcher pass without
      running the middleware; the others go through `middleware(request)`. */
  function Handle(locales: seq<string>, defaultLocale: string, matched: Option<string>, path: string): (r: Outcome)
    requires defaultLocale in locales
    requires matched.Some? ==> matched.value in locales
    ensures r.Next? <==> !Matched(path) || Skipped(path) || !MissingLocale(locales, path)
    ensures r.Redirect? ==> StartsWith(path, "/") && r.cookie in locales && r.target == "/" + r.cookie + path
  {
    if !Matched(path) then Next else Run(locales, defaultLocale, matched, path)
  }

  /** Every redirect target starts with `/locale/`, so it names its locale. */
  lemma RedirectHasLocale(locale: string, path: string)
    ensures StartsWith(RedirectPath(locale, path), "/" + locale + "/")
  {
    var r := RedirectPath(locale, path);
    var pre := "/" + locale + "/";
    if StartsWith(path, "/") {
      assert r == "/" + locale + path;
      assert r[..|pre|] == pre;
    } else {
      assert r == pre + path;
      assert r[..|pre|] == pre;
    }
  }

  /** There is no redirect loop: the middleware passes every target it sends the
      browser to. */
  lemma NoRedirectLoop(locales: seq<string>, defaultLocale: string, matched: Option<string>, matched2: Option<string>, path: string)
    requires defaultLocale in locales
    requires matched.Some? ==> matched.value in locales
    requires matched2.Some? ==> matched2.value in locales
    requires Run(locales, defaultLocale, matched, path).Redirect?
    ensures Run(locales, defaultLocale, matched2, Run(locales, defaultLocale, matched, path).target) == Next
  {
    var o := Run(locales, defaultLocale, matched, path);
    RedirectHasLocale(o.cookie, path);
    var i :| 0 <= i < |locales| && locales[i] == o.cookie;
    assert HasLocale(o.target, locales[i]);
  }

  /** With the matcher in front there is still no redirect loop. */
  lemma NoRedirectLoopHandled(locales: seq<string>, defaultLocale: string, matched: Option<string>, matched2: Option<string>, path: string)
    requires defaultLocale in locales
    requires matched.Some? ==> matched.value in locales
    requires matched2.Some? ==> matched2.value in locales
    requires Handle(locales, defaultLocale, matched, path).Redirect?
    ensures Handle(locales, defaultLocale, matched2, Handle(locales, defaultLocale, matched, path).target) == Next
  {
    NoRedirectLoop(locales, defaultLocale, matched, matched2, path);
  }

  /** The matcher's `api` has no trailing slash: "/apiary" never reaches the
      middleware, although the middleware itself would send it to "/en/apiary". */
  lemma ApiPrefixSkipsMiddleware()
    ensures !Matched("/apiary")
    ensures Handle(["en", "fr", "ar"], "en", None, "/apiary") == Next
    ensures Run(["en", "fr", "ar"], "en", None, "/apiary") == Redirect("/en/apiary", "en")
  {
    ApiaryUnmatched();
    ApiaryRedirectedByBody();
  }

  lemma ApiaryUnmatched()
    ensures !Matched("/apiary")
  {
    assert "/apiary"[1..][..3] == "api";
  }

  lemma ApiaryRedirectedByBody()
    ensures Run(["en", "fr", "ar"], "en", None, "/apiary") == Redirect("/en/apiary", "en")
  {
    ApiaryNamesNoLocale();
    ApiaryNotSkipped();
    var locales := ["en", "fr", "ar"];
    assert GetLocale(locales, "en", None) == "en";
    assert RedirectPath("en", "/apiary") == "/en/apiary";
  }

  lemma ApiaryNamesNoLocale()
    ensures MissingLocale(["en", "fr", "ar"], "/apiary")
  {
    assert !StartsWith("/apiary", "/en/") by { assert "/apiary"[1] != "/en/"[1]; }
    assert !StartsWith("/apiary", "/fr/") by { assert "/apiary"[1] != "/fr/"[1]; }
    assert !StartsWith("/apiary", "/ar/") by { assert "/apiary"[2] != "/ar/"[2]; }
  }

  lemma ApiaryNotSkipped()
    ensures !Skipped("/apiary")
  {
    assert !StartsWith("/apiary", "/_next") by { assert "/apiary"[1] != "/_next"[1]; }
    assert !StartsWith("/apiary", "/admin") by { assert "/apiary"[2] != "/admin"[2]; }
    assert '.' !in "/apiary";
    assert !StartsWith("/apiary", "/api/") by { assert "/apiary"[4] != "/api/"[4]; }
    assert '/' !in "/apiary"[1..];
    NotContained("/apiary", "/api/");
  }

  /** A locale code only counts as a whole segment: "/english" is missing a locale
      among en, fr, ar and is sent to "/en/english" when English is chosen. */
  lemma PrefixIsNotALocale()
    ensures MissingLocale(["en", "fr", "ar"], "/english")
    ensures Run(["en", "fr", "ar"], "en", None, "/english") == Redirect("/en/english", "en")
  {
    EnglishNamesNoLocale();
    EnglishNotSkipped();
    assert RedirectPath("en", "/english") == "/en/english";
  }

  lemma EnglishNamesNoLocale()
    ensures MissingLocale(["en", "fr", "ar"], "/english")
  {
    assert !StartsWith("/english", "/en/") by { assert "/english"[3] != "/en/"[3]; }
    assert !StartsWith("/english", "/fr/") by { assert "/english"[..4] != "/fr/"; }
    assert !StartsWith("/english", "/ar/") by { assert "/english"[..4] != "/ar/"; }
  }

  lemma EnglishNotSkipped()
    ensures !Skipped("/english")
  {
    assert !StartsWith("/english", "/_next") by { assert "/english"[1] != "/_next"[1]; }
    assert !StartsWith("/english", "/admin") by { assert "/english"[1] != "/admin"[1]; }
    assert '.' !in "/english";
    assert !StartsWith("/english", "/api/") by { assert "/english"[1] != "/api/"[1]; }
    assert '/' !in "/english"[1..];
    NotContained("/english", "/api/");
  }
}

=== FILE: newsletter.dfy ===
/** The newsletter form of components/newsletter-signup.tsx: its own checks, then the
    request to the subscribe route and the handling of the reply. */
module Newsletter {
  import opened Common
  import opened Patterns
  import opened Schema
  import opened SiteData
  import opened Routes

  datatype Form = Form(email: string, error: string, success: bool)

  const EmptyMessage := "Please enter your email address"
  const InvalidMessage := "Please enter a valid email address"
  const FallbackMessage := "Failed to subscribe"
  const NetworkMessage := "An error occurred. Please try again."

  /** The message of the error thrown for a reply without `success`. */
  function ReplyError(reply: Response): (m: string)
    ensures m != ""
    ensures reply.message != "" ==> m == reply.message
  {
    if reply.message != "" then reply.message else FallbackMessage
  }

  /** `handleSubmit`. `network` is `Some(message)` when the request itself or the
      reading of its reply throws; otherwise the reply is the route's. */
  function HandleSubmit(f: Form, s: Store, network: Option<string>, sid: string, now: int, fails: bool)
    : (r: (Store, Form))
    ensures f.email == "" ==> r == (s, f.(error := EmptyMessage))
    ensures f.email != "" && !EmailTest(f.email) ==> r == (s, f.(error := InvalidMessage))
    ensures r.1.error == "" <==>
      f.email != "" && EmailTest(f.email) && network.None? && Subscribe(s, Some(f.email), false, sid, now, fails).1.success
    ensures r.1.success <==> f.success || r.1.error == ""
    ensures r.1.error == "" ==> r.1.email == "" && r.0 == AddSubscriber(s, sid, now, f.email, false).0
    ensures r.1.error != "" ==> r.1.email == f.email && r.0 == s
  {
    if f.email == "" then (s, f.(error := EmptyMessage))
    else if !EmailTest(f.email) then (s, f.(error := InvalidMessage))
    else if network.Some? then (s, f.(error := if network.value != "" then network.value else NetworkMessage))
    else
      var (t, reply) := Subscribe(s, Some(f.email), false, sid, now, fails);
      if reply.success then (t, Form("", "", true))
      else (s, f.(error := ReplyError(reply)))
  }

  /** The form runs the route's own checks first: an address the form sends is never
      refused by the route as missing or malformed. */
  lemma SentAddressPassesRoute(email: string, s: Store, sid: string, now: int, fails: bool)
    requires email != "" && EmailTest(email)
    ensures Subscribe(s, Some(email), false, sid, now, fails).1.status != 400
  {
  }

  /** A failed subscription shows the route's message: the database error reads
      "Failed to subscribe" and the address stays in the input. */
  lemma DatabaseErrorShown(f: Form, s: Store, sid: string, now: int)
    requires f.email != "" && EmailTest(f.email)
    ensures var (t, g) := HandleSubmit(f, s, None, sid, now, true);
      t == s && g.error == "Failed to subscribe" && g.email == f.email
  {
  }
}

=== FILE: orders.dfy ===
/** Orders: `createOrder` (identical in lib/db.ts and lib/db-server.ts),
    `getOrderDetails` and `updateOrderStatus` of lib/db.ts.

    The order number `Math.floor(Math.random() * 1000)` is the parameter `n`, any
    value in [0, 999]; `orders.id` is the primary key, so a number already taken
    makes the insert fail and the transaction roll back. */
module Orders {
  import opened Common
  import opened Text
  import opened Schema
  import opened CatalogRead
  import opened CatalogWrite

  // ------------------------------------------------------------ order ids

  /** `` `ORD-${n.toString().padStart(3, "0")}` `` */
  function OrderId(n: nat): (id: string)
    requires n < 1000
    ensures |id| == 7 && id[..4] == "ORD-"
    ensures forall i :: 4 <= i < 7 ==> IsDigit(id[i])
  {
    "ORD-" + PadStart(DecimalString(n), 3, '0')
  }

  /** Reads the number back out of an order id; `None` for anything of another shape. */
  function OrderNumber(id: string): (r: Option<nat>)
    ensures r.Some? ==> r.value < 1000
  {
    if |id| == 7 && id[..4] == "ORD-" && IsDigit(id[4]) && IsDigit(id[5]) && IsDigit(id[6]) then
      Some(100 * DigitValue(id[4]) + 10 * DigitValue(id[5]) + DigitValue(id[6]))
    else None
  }

  lemma DecimalDigits(n: nat)
    requires n < 1000
    ensures |PadStart(DecimalString(n), 3, '0')| == 3
    ensures 100 * DigitValue(PadStart(DecimalString(n), 3, '0')[0])
      + 10 * DigitValue(PadStart(DecimalString(n), 3, '0')[1])
      + DigitValue(PadStart(DecimalString(n), 3, '0')[2]) == n
  {
    var h, t, u := n / 100, n / 10 % 10, n % 10;
    PaddedDigits(n);
    DigitPlaces(n);
    assert DigitValue(DigitChar(h)) == h && DigitValue(DigitChar(t)) == t && DigitValue(DigitChar(u)) == u;
  }

  /** The three characters of the padded number are its hundreds, tens and units. */
  lemma PaddedDigits(n: nat)
    requires n < 1000
    ensures PadStart(DecimalString(n), 3, '0') == [DigitChar(n / 100), DigitChar(n / 10 % 10), DigitChar(n % 10)]
  {
    if n < 10 {
      assert DigitChar(0) == '0';
    } else if n < 100 {
      TwoDigits(n);
      assert DigitChar(0) == '0';
    } else {
      ThreeDigits(n);
    }
  }

  lemma DigitPlaces(n: nat)
    ensures 100 * (n / 100) + 10 * (n / 10 % 10) + n % 10 == n
  {
    var q := n / 10;
    assert n == 10 * q + n % 10;
    assert q == 10 * (q / 10) + q % 10;
    assert q / 10 == n / 100;
  }

  lemma TwoDigits(n: nat)
    requires 10 <= n < 100
    ensures DecimalString(n) == [DigitChar(n / 10), DigitChar(n % 10)]
  {
    assert DecimalString(n / 10) == [DigitChar(n / 10)];
  }

  lemma ThreeDigits(n: nat)
    requires 100 <= n < 1000
    ensures DecimalString(n) == [DigitChar(n / 100), DigitChar(n / 10 % 10), DigitChar(n % 10)]
  {
    TwoDigits(n / 10);
    assert n / 10 / 10 == n / 100;
  }

  /** Every order id carries its number: the generator is injective, so two orders
      get the same id exactly when they draw the same number. */
  lemma OrderIdRoundTrip(n: nat)
    requires n < 1000
    ensures OrderNumber(OrderId(n)) == Some(n)
  {
    var p := PadStart(DecimalString(n), 3, '0');
    DecimalDigits(n);
    assert OrderId(n)[4..] == p;
  }

  lemma OrderIdInjective(m: nat, n: nat)
    requires m < 1000 && n < 1000
    ensures OrderId(m) == OrderId(n) <==> m == n
  {
    OrderIdRoundTrip(m);
    OrderIdRoundTrip(n);
  }

  // ------------------------------------------------------------ createOrder

  datatype ItemInput = ItemInput(productId: string, quantity: int, price: int)

  datatype OrderInput = OrderInput(
    customerName: string,
    email: string,
    phone: string,
    city: string,
    address: string,
    total: int,
    items: seq<ItemInput>)

  predicate OrderIdTaken(s: Store, id: string) {
    exists i | 0 <= i < |s.orders| :: s.orders[i].id == id
  }

  function ItemRows(id: string, items: seq<ItemInput>): (r: seq<OrderItemRow>)
    ensures |r| == |items|
    ensures forall i :: 0 <= i < |items| ==>
      r[i] == OrderItemRow(id, items[i].productId, items[i].quantity, items[i].price)
  {
    seq(|items|, i requires 0 <= i < |items| => OrderItemRow(id, items[i].productId, items[i].quantity, items[i].price))
  }

  /** `createOrder`: the order row with status "processing" and the total as sent
      (never recomputed from the items), then one item row per input item, in order.
      Returns the order id, or `None` with nothing written. */
  function CreateOrder(s: Store, n: nat, now: int, o: OrderInput, fails: bool): (r: (Store, Option<string>))
    requires n < 1000
    ensures r.1.Some? <==> !fails && !OrderIdTaken(s, OrderId(n))
    ensures r.1.None? ==> r.0 == s
    ensures r.1.Some? ==> (r.1.value == OrderId(n)
      && r.0.orders == s.orders + [OrderRow(OrderId(n), o.customerName, o.email, o.phone, o.city, o.address,
                                            "processing", o.total, now)]
      && |r.0.orderItems| == |s.orderItems| + |o.items|
      && r.0.orderItems[..|s.orderItems|] == s.orderItems
      && (forall i :: 0 <= i < |o.items| ==>
            r.0.orderItems[|s.orderItems| + i] == OrderItemRow(OrderId(n), o.items[i].productId, o.items[i].quantity, o.items[i].price))
      && r.0.products == s.products && r.0.subscribers == s.subscribers)
  {
    var id := OrderId(n);
    if fails || OrderIdTaken(s, id) then (s, None)
    else
      var row := OrderRow(id, o.customerName, o.email, o.phone, o.city, o.address, "processing", o.total, now);
      var items := s.orderItems + ItemRows(id, o.items);
      assert items[..|s.orderItems|] == s.orderItems;
      (s.(orders := s.orders + [row], orderItems := items), Some(id))
  }

  /** Once all thousand ids are taken, no order can be created any more. */
  lemma OrdersExhausted(s: Store, n: nat, now: int, o: OrderInput, fails: bool)
    requires n < 1000
    requires forall m :: 0 <= m < 1000 ==> OrderIdTaken(s, OrderId(m))
    ensures CreateOrder(s, n, now, o, fails) == (s, None)
  {
    assert OrderIdTaken(s, OrderId(n));
  }

  // ------------------------------------------------------------ getOrderDetails

  /** A row of `SELECT oi.*, p.name AS productName, p.image AS productImage ...`. */
  datatype ItemDetail = ItemDetail(item: OrderItemRow, productName: string, productImage: string)

  datatype OrderDetails = OrderDetails(order: OrderRow, items: seq<ItemDetail>)

  /** `order_items oi JOIN products p ON oi.productId = p.id`: one row per matching
      pair, so an item whose product is gone yields nothing. */
  function JoinProducts(items: seq<OrderItemRow>, products: seq<ProductRow>): (r: seq<ItemDetail>)
  {
    if |items| == 0 then []
    else
      var matches := Filter(products, IdIs(items[0].productId));
      seq(|matches|, k requires 0 <= k < |matches| => ItemDetail(items[0], matches[k].name, matches[k].image))
        + JoinProducts(items[1..], products)
  }

  /** Every joined row comes from an item of the list and a product with its id. */
  lemma {:induction false} JoinProductsSound(items: seq<OrderItemRow>, products: seq<ProductRow>)
    ensures forall k :: 0 <= k < |JoinProducts(items, products)| ==>
      JoinProducts(items, products)[k].item in items
      && exists j | 0 <= j < |products| :: products[j].id == JoinProducts(items, products)[k].item.productId
  {
    if |items| > 0 {
      JoinProductsSound(items[1..], products);
      var matches := Filter(products, IdIs(items[0].productId));
      var r := JoinProducts(items, products);
      var head := seq(|matches|, k requires 0 <= k < |matches| => ItemDetail(items[0], matches[k].name, matches[k].image));
      assert r == head + JoinProducts(items[1..], products);
      forall k | 0 <= k < |r|
        ensures r[k].item in items
        ensures exists j | 0 <= j < |products| :: products[j].id == r[k].item.productId
      {
        if k < |head| {
          assert matches[k] in products;
          var j :| 0 <= j < |products| && products[j] == matches[k];
        } else {
          assert r[k] == JoinProducts(items[1..], products)[k - |head|];
        }
      }
    }
  }

  /** When each item's product exists exactly once, the join keeps every item, in order. */
  lemma {:induction false} JoinProductsUnique(items: seq<OrderItemRow>, products: seq<ProductRow>)
    requires forall i :: 0 <= i < |items| ==> |Filter(products, IdIs(items[i].productId))| == 1
    ensures |JoinProducts(items, products)| == |items|
    ensures forall k :: 0 <= k < |items| ==> JoinProducts(items, products)[k].item == items[k]
  {
    if |items| > 0 {
      assert forall i :: 0 <= i < |items| - 1 ==> items[1..][i] == items[i + 1];
      JoinProductsUnique(items[1..], products);
    }
  }

  function ItemOf(orderId: string): OrderItemRow -> bool {
    (r: OrderItemRow) => r.orderId == orderId
  }

  function OrderIs(orderId: string): OrderRow -> bool {
    (r: OrderRow) => r.id == orderId
  }

  /** `getOrderDetails(orderId)`: the first order row with that id and its joined
      items; `null` when there is no such order or on a database error. */
  function GetOrderDetails(s: Store, orderId: string, fails: bool): (r: Option<OrderDetails>)
    ensures r.None? <==> fails || !OrderIdTaken(s, orderId)
    ensures r.Some? ==> r.value.order.id == orderId && r.value.order in s.orders
  {
    var hits := Filter(s.orders, OrderIs(orderId));
    if fails then None
    else if |hits| == 0 then None
    else
      Some(OrderDetails(hits[0], JoinProducts(Filter(s.orderItems, ItemOf(orderId)), s.products)))
  }

  /** Each detail row is an item of the order whose product still exists. */
  lemma DetailsAreOrderItems(s: Store, orderId: string)
    requires GetOrderDetails(s, orderId, false).Some?
    ensures var d := GetOrderDetails(s, orderId, false).value;
      forall k :: 0 <= k < |d.items| ==>
        d.items[k].item in s.orderItems && d.items[k].item.orderId == orderId
        && exists j | 0 <= j < |s.products| :: s.products[j].id == d.items[k].item.productId
  {
    var mine := Filter(s.orderItems, ItemOf(orderId));
    JoinProductsSound(mine, s.products);
    forall k | 0 <= k < |JoinProducts(mine, s.products)|
      ensures JoinProducts(mine, s.products)[k].item.orderId == orderId
    {
      var m :| 0 <= m < |mine| && mine[m] == JoinProducts(mine, s.products)[k].item;
    }
  }

  /** The rows `createOrder` leaves for its id, when none were there before. */
  lemma CreatedOrderRows(s: Store, n: nat, now: int, o: OrderInput)
    requires n < 1000 && !OrderIdTaken(s, OrderId(n))
    requires forall i :: 0 <= i < |s.orderItems| ==> s.orderItems[i].orderId != OrderId(n)
    ensures Filter(CreateOrder(s, n, now, o, false).0.orderItems, ItemOf(OrderId(n))) == ItemRows(OrderId(n), o.items)
    ensures Filter(CreateOrder(s, n, now, o, false).0.orders, OrderIs(OrderId(n)))
         == [OrderRow(OrderId(n), o.customerName, o.email, o.phone, o.city, o.address, "processing", o.total, now)]
  {
    var id := OrderId(n);
    var rows := ItemRows(id, o.items);
    var row := OrderRow(id, o.customerName, o.email, o.phone, o.city, o.address, "processing", o.total, now);
    FilterAppend(s.orderItems, rows, ItemOf(id));
    FilterNone(s.orderItems, ItemOf(id));
    FilterAll(rows, ItemOf(id));
    FilterAppend(s.orders, [row], OrderIs(id));
    FilterNone(s.orders, OrderIs(id));
  }

  /** An order placed for products that each exist once reads back with every item,
      in the order sent. */
  lemma CreateOrderThenDetails(s: Store, n: nat, now: int, o: OrderInput)
    requires n < 1000 && !OrderIdTaken(s, OrderId(n))
    requires forall i :: 0 <= i < |s.orderItems| ==> s.orderItems[i].orderId != OrderId(n)
    requires forall i :: 0 <= i < |o.items| ==> |Filter(s.products, IdIs(o.items[i].productId))| == 1
    ensures GetOrderDetails(CreateOrder(s, n, now, o, false).0, OrderId(n), false).Some?
    ensures GetOrderDetails(CreateOrder(s, n, now, o, false).0, OrderId(n), false).value.order.status == "processing"
    ensures GetOrderDetails(CreateOrder(s, n, now, o, false).0, OrderId(n), false).value.order.total == o.total
    ensures |GetOrderDetails(CreateOrder(s, n, now, o, false).0, OrderId(n), false).value.items| == |o.items|
    ensures forall k :: 0 <= k < |o.items| ==>
      GetOrderDetails(CreateOrder(s, n, now, o, false).0, OrderId(n), false).value.items[k].item
        == OrderItemRow(OrderId(n), o.items[k].productId, o.items[k].quantity, o.items[k].price)
  {
    CreatedOrderDetails(s, n, now, o);
    JoinedItemRows(OrderId(n), o.items, s.products);
  }

  lemma JoinedItemRows(id: string, items: seq<ItemInput>, products: seq<ProductRow>)
    requires forall i :: 0 <= i < |items| ==> |Filter(products, IdIs(items[i].productId))| == 1
    ensures |JoinProducts(ItemRows(id, items), products)| == |items|
    ensures forall k :: 0 <= k < |items| ==>
      JoinProducts(ItemRows(id, items), products)[k].item == OrderItemRow(id, items[k].productId, items[k].quantity, items[k].price)
  {
    var rows := ItemRows(id, items);
    assert forall i :: 0 <= i < |rows| ==> rows[i].productId == items[i].productId;
    JoinProductsUnique(rows, products);
  }

  /** What `getOrderDetails` reads for a freshly created order: its row and the join
      of exactly the items sent. */
  lemma CreatedOrderDetails(s: Store, n: nat, now: int, o: OrderInput)
    requires n < 1000 && !OrderIdTaken(s, OrderId(n))
    requires forall i :: 0 <= i < |s.orderItems| ==> s.orderItems[i].orderId != OrderId(n)
    ensures GetOrderDetails(CreateOrder(s, n, now, o, false).0, OrderId(n), false)
      == Some(OrderDetails(OrderRow(OrderId(n), o.customerName, o.email, o.phone, o.city, o.address, "processing", o.total, now),
                           JoinProducts(ItemRows(OrderId(n), o.items), s.products)))
  {
    CreatedOrderRows(s, n, now, o);
  }

  /** `deleteProduct` keeps the product's order items, but the join no longer sees
      them: the order's details lose those lines while the table still holds them. */
  lemma DeletedProductLeavesDetails(s: Store, pid: string, orderId: string)
    requires GetOrderDetails(s, orderId, false).Some?
    ensures var t := DeleteProduct(s, pid, false).0;
      && t.orderItems == s.orderItems
      && GetOrderDetails(t, orderId, false).Some?
      && forall k :: 0 <= k < |GetOrderDetails(t, orderId, false).value.items| ==>
           GetOrderDetails(t, orderId, false).value.items[k].item.productId != pid
  {
    var t := DeleteProduct(s, pid, false).0;
    DetailsAreOrderItems(t, orderId);
  }

  // ------------------------------------------------------------ updateOrderStatus

  /** `updateOrderStatus`: every order with that id gets exactly `status`; `true`
      even when no row matched. */
  function UpdateOrderStatus(s: Store, orderId: string, status: string, fails: bool): (r: (Store, bool))
    ensures r.1 == !fails
    ensures !r.1 ==> r.0 == s
    ensures r.1 ==> (|r.0.orders| == |s.orders|
      && (forall i :: 0 <= i < |s.orders| ==>
            r.0.orders[i] == if s.orders[i].id == orderId then s.orders[i].(status := status) else s.orders[i])
      && r.0.orderItems == s.orderItems && r.0.products == s.products)
  {
    if fails then (s, false)
    else
      (s.(orders := seq(|s.orders|, i requires 0 <= i < |s.orders| =>
                          if s.orders[i].id == orderId then s.orders[i].(status := status) else s.orders[i])),
       true)
  }

  /** After an update, the order's details show the new status. */
  lemma UpdateStatusThenDetails(s: Store, orderId: string, status: string)
    requires OrderIdTaken(s, orderId)
    ensures var t := UpdateOrderStatus(s, orderId, status, false).0;
      GetOrderDetails(t, orderId, false).Some? && GetOrderDetails(t, orderId, false).value.order.status == status
  {
    var t := UpdateOrderStatus(s, orderId, status, false).0;
    var d := GetOrderDetails(t, orderId, false).value;
    var i :| 0 <= i < |t.orders| && t.orders[i] == d.order;
  }
}

=== FILE: patterns.dfy ===
/** The two regular expressions of the storefront: the unanchored email test
    `/\S+@\S+\.\S+/.test(s)` and the anchored phone test `/^\+?[0-9\s-]{8,}$/`.

    Each regex has a declarative reading (a witness of where the match lies) and
    the email one also has a left-to-right scanner, proved equal to it. */
module Patterns {
  import opened Text

  /** A match of `\S+@\S+\.\S+` with the `@` at `at` and the `.` at `dot`.
      The outer `\S+` groups may shrink to one character each, so a match exists
      iff there is a non-space before `@`, a non-empty run of non-spaces between
      `@` and `.`, and a non-space after `.`. */
  ghost predicate EmailMatchAt(s: string, at: int, dot: int) {
    && 0 < at && at + 1 < dot && dot + 1 < |s|
    && !IsSpace(s[at - 1]) && s[at] == '@'
    && (forall m :: at < m < dot ==> !IsSpace(s[m]))
    && s[dot] == '.' && !IsSpace(s[dot + 1])
  }

  /** Some substring of `s` matches the email pattern. */
  ghost predicate EmailMatches(s: string) {
    exists at, dot :: EmailMatchAt(s, at, dot)
  }

  /** Scans forward from `m` over the non-space run that starts after the `@` at `at`,
      looking for a `.` that closes a match. */
  function DotAfter(s: string, at: int, m: int): bool
    requires 0 <= at < m <= |s|
    decreases |s| - m
  {
    if m == |s| || IsSpace(s[m]) then false
    else if s[m] == '.' && at + 1 < m && m + 1 < |s| && !IsSpace(s[m + 1]) then true
    else DotAfter(s, at, m + 1)
  }

  /** Looks for a match whose `@` is at position `i` or later. */
  function ScanFrom(s: string, i: nat): bool
    requires i <= |s|
    decreases |s| - i
  {
    if i == |s| then false
    else if 0 < i && s[i] == '@' && !IsSpace(s[i - 1]) && DotAfter(s, i, i + 1) then true
    else ScanFrom(s, i + 1)
  }

  /** `/\S+@\S+\.\S+/.test(s)`, as a left-to-right scan. */
  function EmailTest(s: string): bool {
    ScanFrom(s, 0)
  }

  lemma {:induction false} DotAfterSound(s: string, at: int, m: int)
    requires 0 <= at < m <= |s|
    requires forall k :: at < k < m ==> !IsSpace(s[k])
    ensures DotAfter(s, at, m) <==> exists dot :: m <= dot && EmailMatchAtDot(s, at, dot)
    decreases |s| - m
  {
    if m == |s| {
    } else if IsSpace(s[m]) {
    } else if s[m] == '.' && at + 1 < m && m + 1 < |s| && !IsSpace(s[m + 1]) {
      assert EmailMatchAtDot(s, at, m);
    } else {
      DotAfterSound(s, at, m + 1);
      if exists dot :: m <= dot && EmailMatchAtDot(s, at, dot) {
        var dot :| m <= dot && EmailMatchAtDot(s, at, dot);
        assert dot != m;
      }
    }
  }

  /** The part of `EmailMatchAt` that concerns the text after the `@`. */
  ghost predicate EmailMatchAtDot(s: string, at: int, dot: int) {
    && 0 <= at && at + 1 < dot && dot + 1 < |s|
    && (forall m :: at < m < dot ==> !IsSpace(s[m]))
    && s[dot] == '.' && !IsSpace(s[dot + 1])
  }

  lemma {:induction false} ScanFromSound(s: string, i: nat)
    requires i <= |s|
    ensures ScanFrom(s, i) <==> exists at, dot :: i <= at && EmailMatchAt(s, at, dot)
    decreases |s| - i
  {
    if i < |s| {
      ScanFromSound(s, i + 1);
      if 0 < i && s[i] == '@' && !IsSpace(s[i - 1]) {
        DotAfterSound(s, i, i + 1);
        if DotAfter(s, i, i + 1) {
          var dot :| i + 1 <= dot && EmailMatchAtDot(s, i, dot);
          assert EmailMatchAt(s, i, dot);
        }
      }
      if exists at, dot :: i <= at && EmailMatchAt(s, at, dot) {
        var at, dot :| i <= at && EmailMatchAt(s, at, dot);
        if at == i {
          DotAfterSound(s, i, i + 1);
          assert EmailMatchAtDot(s, i, dot);
        } else {
          assert i + 1 <= at;
        }
      }
    }
  }

  /** The scanner accepts exactly the strings that contain a match. */
  lemma EmailTestCorrect(s: string)
    ensures EmailTest(s) <==> EmailMatches(s)
  {
    ScanFromSound(s, 0);
  }

  /** Every accepted email is at least five characters long and has an `@` followed later by a `.`. */
  lemma EmailAcceptedShape(s: string)
    requires EmailTest(s)
    ensures |s| >= 5
    ensures exists at, dot :: 0 < at < dot < |s| - 1 && s[at] == '@' && s[dot] == '.'
  {
    EmailTestCorrect(s);
    var at, dot :| EmailMatchAt(s, at, dot);
  }

  /** The pattern is not anchored: anything may surround a match. */
  lemma EmailUnanchored(pre: string, s: string, post: string)
    requires EmailTest(s)
    ensures EmailTest(pre + s + post)
  {
    EmailTestCorrect(s);
    var at, dot :| EmailMatchAt(s, at, dot);
    var t := pre + s + post;
    assert forall k :: 0 <= k < |s| ==> t[|pre| + k] == s[k];
    assert EmailMatchAt(t, |pre| + at, |pre| + dot);
    EmailTestCorrect(t);
  }

  /** "x a@b.c y" passes although it contains spaces. */
  lemma EmailAcceptsSurroundingText()
    ensures EmailTest("x a@b.c y")
  {
    var s := "x a@b.c y";
    assert EmailMatchAt(s, 3, 5);
    EmailTestCorrect(s);
  }

  /** A string without `@` never passes. */
  lemma EmailNeedsAt(s: string)
    requires forall i :: 0 <= i < |s| ==> s[i] != '@'
    ensures !EmailTest(s)
  {
    EmailTestCorrect(s);
  }

  // ---------------------------------------------------------------- phone

  /** The character class `[0-9\s-]`. */
  predicate PhoneClass(c: char) {
    IsDigit(c) || IsSpace(c) || c == '-'
  }

  predicate AllPhoneClass(s: string) {
    forall i :: 0 <= i < |s| ==> PhoneClass(s[i])
  }

  /** `/^\+?[0-9\s-]{8,}$/.test(t)`: an optional leading `+`, then at least eight
      characters of the class and nothing else. Because `+` is not in the class, a
      leading `+` must be the optional one. */
  predicate PhoneTest(t: string) {
    || (|t| >= 8 && AllPhoneClass(t))
    || (|t| >= 9 && t[0] == '+' && AllPhoneClass(t[1..]))
  }

  /** What the phone pattern admits: eight or more class characters, with at most a
      leading `+`; in particular no letters anywhere. */
  lemma PhoneTestShape(t: string)
    requires PhoneTest(t)
    ensures |t| >= 8
    ensures forall i :: 0 < i < |t| ==> PhoneClass(t[i])
    ensures PhoneClass(t[0]) || t[0] == '+'
  {
    if !(|t| >= 8 && AllPhoneClass(t)) {
      assert forall i :: 0 < i < |t| ==> t[i] == t[1..][i - 1];
    }
  }

  /** The class admits hyphens, so a string of eight hyphens and no digit passes. */
  lemma PhoneAcceptsOnlyHyphens()
    ensures PhoneTest("--------")
  {
  }

  /** Seven digits are one too few. */
  lemma PhoneRejectsSevenDigits()
    ensures !PhoneTest("1234567")
    ensures PhoneTest("12345678")
    ensures PhoneTest("+212 600-000000")
  {
  }
}

=== FILE: product_card.dfy ===
/** What components/product-card.tsx shows for a product: the translated name and
    description with their fallbacks, the 80-character cut and the link. */
module ProductCard {
  import opened Common
  import opened Text
  import opened Schema
  import opened Middleware

  const MaxDescription: nat := 80

  function TranslationFor(p: Product, lang: string): Option<Translation> {
    if lang in p.translations then Some(p.translations[lang]) else None
  }

  /** `product.translations?.[lang]?.name || product.name` */
  function DisplayName(p: Product, lang: string): (r: string)
    ensures var t := TranslationFor(p, lang);
      && (t.Some? && Truthy(t.value.name) ==> r == t.value.name.value)
      && (t.None? || !Truthy(t.value.name) ==> r == p.name)
  {
    var t := TranslationFor(p, lang);
    if t.Some? && Truthy(t.value.name) then t.value.name.value else p.name
  }

  /** `translations?.[lang]?.description || product.description || ""` */
  function DisplayDescription(p: Product, lang: string): (r: string)
    ensures var t := TranslationFor(p, lang);
      && (t.Some? && Truthy(t.value.description) ==> r == t.value.description.value)
      && (!(t.Some? && Truthy(t.value.description)) ==> r == OrEmpty(p.description))
  {
    var t := TranslationFor(p, lang);
    if t.Some? && Truthy(t.value.description) then t.value.description.value else OrEmpty(p.description)
  }

  /** Longer descriptions are cut to their first 80 characters followed by "...". */
  function Truncate(d: string): (r: string)
    ensures |r| <= MaxDescription + 3
    ensures |d| <= MaxDescription ==> r == d
    ensures |d| > MaxDescription ==>
      |r| == MaxDescription + 3 && r[..MaxDescription] == d[..MaxDescription] && r[MaxDescription..] == "..."
  {
    if |d| > 80 then d[..80] + "..." else d
  }

  /** The card's link. */
  function Href(lang: string, slug: string): (r: string)
    ensures StartsWith(r, "/" + lang + "/products/")
    ensures r[|"/" + lang + "/products/"|..] == slug
  {
    var pre := "/" + lang + "/products/";
    assert (pre + slug)[..|pre|] == pre;
    pre + slug
  }

  /** A card link in a supported language is never redirected by the middleware. */
  lemma HrefNeedsNoRedirect(locales: seq<string>, defaultLocale: string, matched: Option<string>, lang: string, slug: string)
    requires defaultLocale in locales
    requires matched.Some? ==> matched.value in locales
    requires lang in locales
    ensures Run(locales, defaultLocale, matched, Href(lang, slug)) == Next
  {
    var h := Href(lang, slug);
    var pre := "/" + lang + "/";
    assert h == pre + ("products/" + slug);
    assert h[..|pre|] == pre;
    var i :| 0 <= i < |locales| && locales[i] == lang;
    assert HasLocale(h, locales[i]);
  }

  /** An empty translated name falls back to the base name. */
  lemma EmptyTranslatedNameFallsBack(p: Product, lang: string)
    requires lang in p.translations && p.translations[lang].name == Some("")
    ensures DisplayName(p, lang) == p.name
  {
  }
}

=== FILE: product_form.dfy ===
/** The admin product editor of components/admin/product-form.tsx: its field and
    list edits, the slug rule, the submit check and the payload it posts to the
    create and update routes. */
module ProductForm {
  import opened Common
  import opened Text
  import opened Schema
  import opened Slug
  import opened Routes
  import opened CatalogRead
  import opened CatalogWrite
  import opened CatalogProofs

  /** One translated tab (`fr` or `ar`). Its ingredient list is a JavaScript array
      that can have holes (`None`), which `JSON.stringify` sends as `null`. */
  datatype LangForm = LangForm(name: string, description: string, fullDescription: string, ingredients: seq<NullableText>)

  /** `formData`. The price is the text of its input. */
  datatype Form = Form(
    name: string,
    slug: string,
    price: string,
    image: string,
    description: string,
    fullDescription: string,
    ingredients: seq<string>,
    additionalImages: seq<string>,
    fr: LangForm,
    ar: LangForm)

  const EmptyLang := LangForm("", "", "", [])
  const EmptyForm := Form("", "", "", "", "", "", [], [], EmptyLang, EmptyLang)

  datatype Field = NameField | SlugField | PriceField | ImageField | DescriptionField | FullDescriptionField

  /** `handleChange`: in create mode a new name also regenerates the slug. */
  function HandleChange(f: Form, field: Field, v: string, isEdit: bool): (r: Form)
    ensures field == NameField && !isEdit ==> r == f.(name := v, slug := GenerateSlug(v))
    ensures isEdit && field != SlugField ==> r.slug == f.slug
    ensures r.ingredients == f.ingredients && r.additionalImages == f.additionalImages
    ensures r.fr == f.fr && r.ar == f.ar
  {
    match field
    case NameField => if !isEdit then f.(name := v, slug := GenerateSlug(v)) else f.(name := v)
    case SlugField => f.(slug := v)
    case PriceField => f.(price := v)
    case ImageField => f.(image := v)
    case DescriptionField => f.(description := v)
    case FullDescriptionField => f.(fullDescription := v)
  }

  /** Typing a name in create mode always leaves a slug-shaped slug. */
  lemma TypedNameGivesSlug(f: Form, v: string)
    ensures IsSlugShaped(HandleChange(f, NameField, v, false).slug)
  {
    GenerateSlugShape(v);
  }

  // ------------------------------------------------------------ list edits

  /** `list.filter((_, i) => i !== index)` */
  function RemoveAt(xs: seq<string>, index: int): (r: seq<string>)
    ensures !(0 <= index < |xs|) ==> r == xs
    ensures 0 <= index < |xs| ==> |r| == |xs| - 1
    ensures 0 <= index < |xs| ==> forall j :: 0 <= j < |r| ==> r[j] == (if j < index then xs[j] else xs[j + 1])
  {
    if 0 <= index < |xs| then xs[..index] + xs[index + 1..] else xs
  }

  /** `updated[index] = value` on a copy, for an index of an existing entry. */
  function SetAt(xs: seq<string>, index: nat, v: string): (r: seq<string>)
    requires index < |xs|
    ensures |r| == |xs| && r[index] == v
    ensures forall j :: 0 <= j < |xs| && j != index ==> r[j] == xs[j]
  {
    xs[index := v]
  }

  /** `addIngredient`: one empty entry at the end. */
  function AddIngredient(f: Form): (r: Form)
    ensures r.ingredients == f.ingredients + [""]
  {
    f.(ingredients := f.ingredients + [""])
  }

  function RemoveIngredient(f: Form, index: int): Form {
    f.(ingredients := RemoveAt(f.ingredients, index))
  }

  function ChangeIngredient(f: Form, index: nat, v: string): Form
    requires index < |f.ingredients|
  {
    f.(ingredients := SetAt(f.ingredients, index, v))
  }

  /** Adding a row and removing it again restores the list. */
  lemma AddThenRemove(f: Form)
    ensures RemoveIngredient(AddIngredient(f), |f.ingredients|) == f
  {
    var r := RemoveIngredient(AddIngredient(f), |f.ingredients|);
    assert r.ingredients == f.ingredients;
  }

  /** Removing row `i` keeps the other rows in their order: the result is the rows
      before `i` followed by the rows after it. */
  lemma RemoveKeepsOrder(xs: seq<string>, i: nat)
    requires i < |xs|
    ensures RemoveAt(xs, i) == xs[..i] + xs[i + 1..]
  {
    var r := RemoveAt(xs, i);
    assert forall j :: 0 <= j < |r| ==> r[j] == (xs[..i] + xs[i + 1..])[j];
  }

  /** `removeAdditionalImage` */
  function RemoveAdditionalImage(f: Form, index: int): Form {
    f.(additionalImages := RemoveAt(f.additionalImages, index))
  }

  // ------------------------------------------------------------ translations

  datatype Lang = Fr | Ar
  datatype LangField = LangName | LangDescription | LangFullDescription

  function Tab(f: Form, lang: Lang): LangForm {
    if lang == Fr then f.fr else f.ar
  }

  function WithTab(f: Form, lang: Lang, t: LangForm): (r: Form)
    ensures Tab(r, lang) == t
    ensures forall other :: other != lang ==> Tab(r, other) == Tab(f, other)
    ensures r.(fr := f.fr, ar := f.ar) == f
  {
    if lang == Fr then f.(fr := t) else f.(ar := t)
  }

  /** `handleTranslationChange`: one text field of one tab. */
  function HandleTranslationChange(f: Form, lang: Lang, field: LangField, v: string): (r: Form)
    ensures forall other :: other != lang ==> Tab(r, other) == Tab(f, other)
    ensures r.(fr := f.fr, ar := f.ar) == f
    ensures Tab(r, lang).ingredients == Tab(f, lang).ingredients
  {
    var t := Tab(f, lang);
    WithTab(f, lang, match field
      case LangName => t.(name := v)
      case LangDescription => t.(description := v)
      case LangFullDescription => t.(fullDescription := v))
  }

  /** `updated[index] = value` on a copy of a JavaScript array. An index past the end
      grows the array to `index + 1`; the places between the old end and `index` are
      holes. */
  function AssignAt(xs: seq<NullableText>, index: nat, v: string): (r: seq<NullableText>)
    ensures |r| == Max(|xs|, index + 1)
  {
    if index < |xs| then xs[index := Some(v)]
    else xs + seq(index - |xs|, _ => None) + [Some(v)]
  }

  /** `handleTranslationIngredientChange`. The inputs are drawn once per base
      ingredient while the translated list starts empty, so `index` may well lie
      past the end of the translated list. */
  function ChangeTranslationIngredient(f: Form, lang: Lang, index: nat, v: string): (r: Form)
    ensures forall other :: other != lang ==> Tab(r, other) == Tab(f, other)
    ensures r.(fr := f.fr, ar := f.ar) == f
    ensures Tab(r, lang).(ingredients := Tab(f, lang).ingredients) == Tab(f, lang)
  {
    var t := Tab(f, lang);
    WithTab(f, lang, t.(ingredients := AssignAt(t.ingredients, index, v)))
  }

  /** What a translated ingredient input shows: `ingredients[index] || ""`. */
  function Shown(xs: seq<NullableText>, index: nat): string {
    if index < |xs| then OrEmpty(xs[index]) else ""
  }

  /** A translated ingredient typed at any row reads back as typed: the list grows to
      cover the row, the entries already there keep their text, and any rows skipped
      over become holes, which the inputs show as empty. */
  lemma TranslationIngredientReadsBack(f: Form, lang: Lang, index: nat, v: string)
    ensures |Tab(ChangeTranslationIngredient(f, lang, index, v), lang).ingredients| == Max(|Tab(f, lang).ingredients|, index + 1)
    ensures Tab(ChangeTranslationIngredient(f, lang, index, v), lang).ingredients[index] == Some(v)
    ensures Shown(Tab(ChangeTranslationIngredient(f, lang, index, v), lang).ingredients, index) == v
    ensures forall j :: 0 <= j < |Tab(f, lang).ingredients| && j != index ==>
      Tab(ChangeTranslationIngredient(f, lang, index, v), lang).ingredients[j] == Tab(f, lang).ingredients[j]
    ensures forall j :: |Tab(f, lang).ingredients| <= j < index ==>
      Tab(ChangeTranslationIngredient(f, lang, index, v), lang).ingredients[j] == None
    ensures forall j: nat :: j != index ==>
      Shown(Tab(ChangeTranslationIngredient(f, lang, index, v), lang).ingredients, j) == Shown(Tab(f, lang).ingredients, j)
  {
    var xs := Tab(f, lang).ingredients;
    var ys := AssignAt(xs, index, v);
    assert Tab(ChangeTranslationIngredient(f, lang, index, v), lang).ingredients == ys;
    if index >= |xs| {
      var holes: seq<NullableText> := seq(index - |xs|, _ => None);
      assert ys == xs + holes + [Some(v)];
      assert forall j :: 0 <= j < |xs| ==> ys[j] == xs[j];
      assert forall j :: |xs| <= j < index ==> ys[j] == holes[j - |xs|];
    }
  }

  /** On a new product, typing the French translation of the second ingredient before
      the first sends a French list whose first entry is `null`. */
  lemma SkippedRowSentAsNull(f: Form, v: string, price: int, id: Option<string>)
    requires f.fr.ingredients == []
    ensures Payload(ChangeTranslationIngredient(f, Fr, 1, v), price, id).translations[0].input.ingredients
              == Some([None, Some(v)])
  {
    var ys := AssignAt([], 1, v);
    assert ys == [None, Some(v)];
  }

  /** As written, submitting a new product whose French tab has text and whose second
      French ingredient was typed first stores the product, but the product cannot be
      read back: the `null` in its French list makes the read's `.sort` throw, so
      fetching it by id gives `null` and the product list comes back empty. */
  lemma SkippedRowMakesProductUnreadable(f: Form, s: Store, v: string, price: int, pid: string, now: int)
    requires f.fr.ingredients == [] && (f.fr.name != "" || f.fr.description != "" || f.fr.fullDescription != "")
    requires CanSubmit(f) && price != 0
    requires !ProductIdUsed(s, pid) && IsSlugUnique(s, f.slug, None, false)
    ensures Submit(ChangeTranslationIngredient(f, Fr, 1, v), s, false, None, price, pid, now, false, false).1
              == Some(Response(200, true, "", Some(pid)))
    ensures GetProductById(Submit(ChangeTranslationIngredient(f, Fr, 1, v), s, false, None, price, pid, now, false, false).0,
                           pid, false).None?
    ensures GetProducts(Submit(ChangeTranslationIngredient(f, Fr, 1, v), s, false, None, price, pid, now, false, false).0,
                        false) == []
  {
    var g := ChangeTranslationIngredient(f, Fr, 1, v);
    var b := Payload(g, price, None);
    SkippedRowSentAsNull(f, v, price, None);
    SkippedRowNotSortSafe(b, v);
    CreateThenGetByIdThrows(s, pid, now, NewProductOf(b));
  }

  /** A payload whose French entry has text and the list `[null, v]` is not sort-safe. */
  lemma SkippedRowNotSortSafe(b: ProductBody, v: string)
    requires |b.translations| == 2 && b.translations[0].lang == "fr" && b.translations[1].lang == "ar"
    requires HasText(b.translations[0].input) && b.translations[0].input.ingredients == Some([None, Some(v)])
    ensures DistinctLangs(b.translations) && !SortSafe(b.translations)
  {
    EntryForDistinct(b.translations, 0);
    assert "fr" in Langs(b.translations);
    assert SortThrows(IngredientsFor(b.translations, "fr"));
  }

  // ------------------------------------------------------------ submitting

  /** The submit check: name, slug, price text and image must be non-empty. */
  predicate CanSubmit(f: Form) {
    f.name != "" && f.slug != "" && f.price != "" && f.image != ""
  }

  function NotBlank(s: string): bool {
    Trim(s) != ""
  }

  function LangEntryOf(lang: string, t: LangForm): LangEntry {
    LangEntry(lang, TranslationInput(Some(t.name), Some(t.description), Some(t.fullDescription), Some(t.ingredients)))
  }

  /** `payload`. `price` is the number `parseFloat` made of the price text; `id` is
      the edited product's id in edit mode. */
  function Payload(f: Form, price: int, id: Option<string>): (b: ProductBody)
    ensures b.id == id && b.name == Some(f.name) && b.slug == Some(f.slug) && b.image == Some(f.image)
    ensures b.price == Some(price)
    ensures b.description == Some(f.description) && b.fullDescription == Some(f.fullDescription)
    ensures b.images == Some([f.image] + f.additionalImages)
    ensures b.ingredients.Some? && forall i :: 0 <= i < |b.ingredients.value| ==> NotBlank(b.ingredients.value[i])
    ensures b.translations == [LangEntryOf("fr", f.fr), LangEntryOf("ar", f.ar)]
  {
    ProductBody(id, Some(f.name), Some(f.slug), Some(price), Some(f.image), Some(f.description), Some(f.fullDescription),
                Some([f.image] + f.additionalImages), Some(Filter(f.ingredients, NotBlank)),
                [LangEntryOf("fr", f.fr), LangEntryOf("ar", f.ar)])
  }

  /** The routes take the first image back out: unless the main image was also added
      as an additional one, the additional images arrive as they were in the form. */
  lemma PayloadImagesRoundTrip(f: Form, price: int, id: Option<string>)
    requires f.image !in f.additionalImages
    ensures AdditionalImages(Payload(f, price, id)) == f.additionalImages
  {
    var keep := NotMain(Some(f.image));
    FilterAppend([f.image], f.additionalImages, keep);
    FilterNone([f.image], keep);
    FilterAll(f.additionalImages, keep);
    assert Filter([f.image] + f.additionalImages, keep) == f.additionalImages;
  }

  /** A main image also listed as an additional one is dropped from the additional
      images, every copy of it. */
  lemma PayloadDropsRepeatedMain(f: Form, price: int, id: Option<string>)
    ensures f.image !in AdditionalImages(Payload(f, price, id))
  {
  }

  /** A form whose ingredients pass the check passes every one of them, in order. */
  lemma PayloadKeepsFilledIngredients(f: Form, price: int, id: Option<string>)
    requires forall i :: 0 <= i < |f.ingredients| ==> NotBlank(f.ingredients[i])
    ensures Payload(f, price, id).ingredients == Some(f.ingredients)
  {
    FilterAll(f.ingredients, NotBlank);
  }

  /** Blank base ingredients are dropped but translated ones are sent as typed, so
      the lists can stop lining up: with a blank row among the base ingredients, the
      payload carries fewer base ingredients than rows, while the French list arrives
      whole. */
  lemma BlankRowMisalignsTranslations(f: Form, price: int, id: Option<string>, k: nat)
    requires k < |f.ingredients| && IsBlank(f.ingredients[k])
    ensures |Payload(f, price, id).ingredients.value| < |f.ingredients|
    ensures Payload(f, price, id).translations[0].input.ingredients == Some(f.fr.ingredients)
  {
    var xs := f.ingredients;
    TrimEmptyIffBlank(xs[k]);
    assert xs == xs[..k] + [xs[k]] + xs[k + 1..];
    FilterAppend(xs[..k] + [xs[k]], xs[k + 1..], NotBlank);
    FilterAppend(xs[..k], [xs[k]], NotBlank);
    FilterNone([xs[k]], NotBlank);
  }

  /** A price typed as "0" passes the form but the create route refuses it as missing. */
  lemma ZeroPricePassesFormNotRoute(f: Form, s: Store, pid: string, now: int, slugFails: bool, createFails: bool)
    requires CanSubmit(f)
    ensures CreateRoute(s, true, Payload(f, 0, None), pid, now, slugFails, createFails).1.status == 400
  {
  }

  /** The form's own check is the create route's check except for the price: the
      form accepts any non-empty price text, the route wants a non-zero number. */
  lemma FormCheckMeetsRoute(f: Form, price: int, id: Option<string>)
    requires CanSubmit(f)
    ensures HasRequiredFields(Payload(f, price, id)) <==> price != 0
  {
  }

  /** `handleSubmit` as far as the store is concerned: nothing is sent unless the
      form's check passes; then the payload goes to the update route in edit mode
      and to the create route otherwise, with the admin session in place. `pid` and
      `now` are the new product's id and the clock. */
  function Submit(f: Form, s: Store, isEdit: bool, productId: Option<string>, price: int,
                  pid: string, now: int, slugFails: bool, writeFails: bool): (r: (Store, Option<Response>))
    ensures !CanSubmit(f) ==> r == (s, None)
    ensures CanSubmit(f) ==> r.1.Some? && r.1.value.status != 401
    ensures CanSubmit(f) && !isEdit ==>
      (r.1.value.success <==>
        && price != 0
        && IsSlugUnique(s, f.slug, None, slugFails)
        && CreateProduct(s, pid, now, NewProductOf(Payload(f, price, None)), writeFails).1.Some?)
    ensures CanSubmit(f) && isEdit ==>
      (r.1.value.success <==> Truthy(productId) && IsSlugUnique(s, f.slug, productId, slugFails) && !writeFails)
    ensures r.1.None? || !r.1.value.success ==> r.0 == s
  {
    if !CanSubmit(f) then (s, None)
    else if isEdit then
      var sent := UpdateRoute(s, true, Payload(f, price, productId), slugFails, writeFails);
      (sent.0, Some(sent.1))
    else
      var sent := CreateRoute(s, true, Payload(f, price, None), pid, now, slugFails, writeFails);
      (sent.0, Some(sent.1))
  }

  /** In edit mode a successful submit writes the parsed price, and the name, slug
      and image, to every row of the edited product, and changes no other row. */
  lemma EditSubmitWritesPrice(f: Form, s: Store, productId: Option<string>, price: int,
                              pid: string, now: int, i: nat)
    requires CanSubmit(f) && i < |s.products|
    requires Submit(f, s, true, productId, price, pid, now, false, false).1.value.success
    ensures var t := Submit(f, s, true, productId, price, pid, now, false, false).0;
      && |t.products| == |s.products|
      && (s.products[i].id == productId.value ==>
            t.products[i].price == price && t.products[i].name == f.name
            && t.products[i].slug == f.slug && t.products[i].image == f.image)
      && (s.products[i].id != productId.value ==> t.products[i] == s.products[i])
  {
    var b := Payload(f, price, productId);
    assert PatchOf(b).price == Some(price);
  }

  /** Loading a product for editing: empty text for absent fields, the gallery
      without its first image, the French and Arabic tabs. The price text is a
      parameter (`toString` of a float is not modelled). */
  function LoadLang(p: Product, lang: string): LangForm {
    if lang in p.translations then
      var t := p.translations[lang];
      LangForm(OrEmpty(t.name), OrEmpty(t.description), OrEmpty(t.fullDescription), t.ingredients.GetOr([]))
    else EmptyLang
  }

  function Load(p: Product, priceText: string): (f: Form)
    ensures p.images.Some? && |p.images.value| > 0 ==> f.additionalImages == p.images.value[1..]
    ensures p.images.None? || |p.images.value| == 0 ==> f.additionalImages == []
  {
    Form(p.name, p.slug, priceText, p.image, OrEmpty(p.description), OrEmpty(p.fullDescription),
         p.ingredients.GetOr([]), if p.images.Some? && |p.images.value| > 0 then p.images.value[1..] else [],
         LoadLang(p, "fr"), LoadLang(p, "ar"))
  }

  /** A product created through the route can be loaded for editing exactly when its
      read does not throw in the ingredient `.sort`, and then loads with exactly the
      additional images the route stored. */
  lemma CreatedProductLoads(s: Store, b: ProductBody, pid: string, now: int, priceText: string)
    requires !ProductIdUsed(s, pid) && DistinctLangs(b.translations)
    requires CreateRoute(s, true, b, pid, now, false, false).1.success
    ensures GetProductById(CreateRoute(s, true, b, pid, now, false, false).0, pid, false).Some?
        <==> SortSafe(b.translations)
    ensures SortSafe(b.translations) ==>
      Load(GetProductById(CreateRoute(s, true, b, pid, now, false, false).0, pid, false).value.product, priceText)
        .additionalImages == AdditionalImages(b)
  {
    CreateRouteReadsBack(s, b, pid, now);
    var imgs := [b.image.value] + AdditionalImages(b);
    assert imgs[1..] == AdditionalImages(b);
  }
}

=== FILE: quantity_picker.dfy ===
/** The quantity counter of components/add-to-cart-button.tsx and the add action
    it feeds into the cart. */
module QuantityPicker {
  import opened Schema
  import opened Cart

  const MinQuantity: int := 1
  const MaxQuantity: int := 10

  /** The counter's state together with the product it was last reset for. */
  datatype Picker = Picker(productId: string, quantity: int)

  predicate InRange(q: int) {
    MinQuantity <= q <= MaxQuantity
  }

  /** `useState(1)` on mount. */
  function Initial(pid: string): (p: Picker)
    ensures p.productId == pid && p.quantity == MinQuantity
  {
    Picker(pid, 1)
  }

  /** The `useEffect` on `[product.id]`: a different product resets the counter to 1. */
  function ShowProduct(p: Picker, pid: string): (r: Picker)
    ensures r.productId == pid
    ensures pid != p.productId ==> r.quantity == MinQuantity
    ensures pid == p.productId ==> r == p
  {
    if pid != p.productId then Initial(pid) else p
  }

  /** `setQuantity(prev => Math.min(prev + 1, 10))` */
  function Increment(q: int): (r: int)
    ensures InRange(q) ==> InRange(r)
    ensures q < MaxQuantity ==> r == q + 1
    ensures q >= MaxQuantity ==> r == MaxQuantity
  {
    if q + 1 < 10 then q + 1 else 10
  }

  /** `setQuantity(prev => Math.max(prev - 1, 1))` */
  function Decrement(q: int): (r: int)
    ensures InRange(q) ==> InRange(r)
    ensures q > MinQuantity ==> r == q - 1
    ensures q <= MinQuantity ==> r == MinQuantity
  {
    if q - 1 > 1 then q - 1 else 1
  }

  /** The buttons' `disabled` conditions. */
  predicate DecrementDisabled(q: int) {
    q <= 1
  }

  predicate IncrementDisabled(q: int) {
    q >= 10
  }

  /** Within range, a button is disabled exactly where pressing it would change nothing. */
  lemma DisabledIffNoOp(q: int)
    requires InRange(q)
    ensures IncrementDisabled(q) <==> Increment(q) == q
    ensures DecrementDisabled(q) <==> Decrement(q) == q
  {
  }

  /** The actions the component can take. */
  datatype Action = Inc | Dec | Show(pid: string)

  function Step(p: Picker, a: Action): Picker {
    match a
    case Inc => p.(quantity := Increment(p.quantity))
    case Dec => p.(quantity := Decrement(p.quantity))
    case Show(pid) => ShowProduct(p, pid)
  }

  function Run(p: Picker, actions: seq<Action>): Picker
    decreases |actions|
  {
    if |actions| == 0 then p else Run(Step(p, actions[0]), actions[1..])
  }

  /** From mount on, whatever the user does, the counter stays within 1..10. */
  lemma {:induction false} AlwaysInRange(p: Picker, actions: seq<Action>)
    requires InRange(p.quantity)
    ensures InRange(Run(p, actions).quantity)
    decreases |actions|
  {
    if |actions| > 0 {
      AlwaysInRange(Step(p, actions[0]), actions[1..]);
    }
  }

  /** `handleAddToCart`: `addItem(product, quantity)` with the counter's value. */
  function HandleAddToCart(items: seq<CartItem>, product: Product, p: Picker): (r: seq<CartItem>)
    ensures UniqueIds(items) ==> UniqueIds(r) && ItemCount(r) == ItemCount(items) + p.quantity
    ensures InCart(r, product.id)
  {
    AddedIsInCart(items, product, p.quantity);
    if UniqueIds(items) then
      AddItemFolds(items, product, p.quantity);
      AddItemKeepsIdsUnique(items, product, p.quantity);
      AddItem(items, product, p.quantity)
    else AddItem(items, product, p.quantity)
  }

  /** The cap of 10 is the counter's, not the cart's: adding 10 twice gives 20. */
  lemma RepeatedAddsPassTheCap(product: Product)
    ensures var p := Picker(product.id, MaxQuantity);
      var items := HandleAddToCart(HandleAddToCart([], product, p), product, p);
      |items| == 1 && items[0].quantity == 2 * MaxQuantity
  {
    var p := Picker(product.id, MaxQuantity);
    var once := HandleAddToCart([], product, p);
    assert once == [CartItem(product, 10)];
    assert InCart(once, product.id);
  }
}

=== FILE: ranking.dfy ===
/** `ORDER BY <column>` over the rows a query selected, modelled as a stable
    insertion sort on a numeric rank. Ties keep table order. */
module Ranking {

  datatype Ranked<T> = Ranked(value: T, rank: int)

  predicate SortedByRank<T>(s: seq<Ranked<T>>) {
    forall i, j :: 0 <= i < j < |s| ==> s[i].rank <= s[j].rank
  }

  /** Places `x` before the first element whose rank is at least its own. */
  function Insert<T>(x: Ranked<T>, s: seq<Ranked<T>>): (r: seq<Ranked<T>>)
    ensures |r| == |s| + 1
  {
    if |s| == 0 || x.rank <= s[0].rank then [x] + s
    else [s[0]] + Insert(x, s[1..])
  }

  /** The rows in ascending rank, equal ranks in their original order. */
  function SortByRank<T>(s: seq<Ranked<T>>): (r: seq<Ranked<T>>)
    ensures |r| == |s|
  {
    if |s| == 0 then [] else Insert(s[0], SortByRank(s[1..]))
  }

  /** The payloads of a ranked sequence, in order. */
  function Values<T>(s: seq<Ranked<T>>): (r: seq<T>)
    ensures |r| == |s|
    ensures forall i :: 0 <= i < |s| ==> r[i] == s[i].value
  {
    seq(|s|, i requires 0 <= i < |s| => s[i].value)
  }

  /** Inserting adds `x` and nothing else. */
  lemma {:induction false} InsertMembers<T>(x: Ranked<T>, s: seq<Ranked<T>>)
    ensures forall i :: 0 <= i < |Insert(x, s)| ==> Insert(x, s)[i] == x || Insert(x, s)[i] in s
  {
    if |s| > 0 && x.rank > s[0].rank {
      InsertMembers(x, s[1..]);
    }
  }

  lemma {:induction false} InsertSorted<T>(x: Ranked<T>, s: seq<Ranked<T>>)
    requires SortedByRank(s)
    ensures SortedByRank(Insert(x, s))
  {
    if |s| > 0 && x.rank > s[0].rank {
      InsertSorted(x, s[1..]);
      InsertMembers(x, s[1..]);
      var tail := Insert(x, s[1..]);
      assert forall i :: 0 <= i < |tail| ==> s[0].rank <= tail[i].rank;
    }
  }

  lemma {:induction false} InsertMultiset<T>(x: Ranked<T>, s: seq<Ranked<T>>)
    ensures multiset(Insert(x, s)) == multiset(s) + multiset{x}
  {
    if |s| > 0 && x.rank > s[0].rank {
      InsertMultiset(x, s[1..]);
      assert s == [s[0]] + s[1..];
    }
  }

  /** The sort returns the selected rows, each as often as selected, in rank order. */
  lemma {:induction false} SortByRankSpec<T>(s: seq<Ranked<T>>)
    ensures SortedByRank(SortByRank(s))
    ensures multiset(SortByRank(s)) == multiset(s)
  {
    if |s| > 0 {
      SortByRankSpec(s[1..]);
      InsertSorted(s[0], SortByRank(s[1..]));
      InsertMultiset(s[0], SortByRank(s[1..]));
      assert s == [s[0]] + s[1..];
    }
  }

  lemma ValuesCons<T>(a: Ranked<T>, t: seq<Ranked<T>>)
    ensures Values([a] + t) == [a.value] + Values(t)
  {
  }

  lemma {:induction false} ValuesInsertMultiset<T>(x: Ranked<T>, s: seq<Ranked<T>>)
    ensures multiset(Values(Insert(x, s))) == multiset(Values(s)) + multiset{x.value}
  {
    if |s| == 0 || x.rank <= s[0].rank {
      ValuesCons(x, s);
    } else {
      ValuesInsertMultiset(x, s[1..]);
      ValuesCons(s[0], Insert(x, s[1..]));
      ValuesCons(s[0], s[1..]);
      assert s == [s[0]] + s[1..];
    }
  }

  /** Sorting rearranges the payloads and neither adds nor loses any. */
  lemma {:induction false} ValuesSortMultiset<T>(s: seq<Ranked<T>>)
    ensures multiset(Values(SortByRank(s))) == multiset(Values(s))
  {
    if |s| > 0 {
      ValuesSortMultiset(s[1..]);
      ValuesInsertMultiset(s[0], SortByRank(s[1..]));
      ValuesCons(s[0], s[1..]);
      assert s == [s[0]] + s[1..];
    }
  }

  /** Rows already in rank order come back unchanged. */
  lemma {:induction false} SortSortedIsIdentity<T>(s: seq<Ranked<T>>)
    requires SortedByRank(s)
    ensures SortByRank(s) == s
  {
    if |s| > 0 {
      SortSortedIsIdentity(s[1..]);
      assert s == [s[0]] + s[1..];
    }
  }

  /** Keeps the rows whose payload satisfies `keep`. */
  function KeepValues<T>(s: seq<Ranked<T>>, keep: T -> bool): (r: seq<Ranked<T>>)
    ensures |r| <= |s|
  {
    if |s| == 0 then []
    else (if keep(s[0].value) then [s[0]] else []) + KeepValues(s[1..], keep)
  }

  lemma KeepValuesCons<T>(a: Ranked<T>, t: seq<Ranked<T>>, keep: T -> bool)
    ensures KeepValues([a] + t, keep) == (if keep(a.value) then [a] else []) + KeepValues(t, keep)
  {
    assert ([a] + t)[0] == a;
    assert ([a] + t)[1..] == t;
  }

  /** Filtering keeps only rows of the input that satisfy `keep`. */
  lemma {:induction false} KeepValuesMembers<T>(s: seq<Ranked<T>>, keep: T -> bool)
    ensures forall i :: 0 <= i < |KeepValues(s, keep)| ==>
      KeepValues(s, keep)[i] in s && keep(KeepValues(s, keep)[i].value)
  {
    if |s| > 0 {
      KeepValuesMembers(s[1..], keep);
    }
  }

  /** Every rank kept from a sorted sequence is at least the sequence's first rank. */
  lemma KeepValuesLowerBound<T>(s: seq<Ranked<T>>, keep: T -> bool)
    requires SortedByRank(s) && |s| > 0
    ensures forall i :: 0 <= i < |KeepValues(s, keep)| ==> s[0].rank <= KeepValues(s, keep)[i].rank
  {
    KeepValuesMembers(s, keep);
  }

  lemma KeepValuesInsertFront<T>(x: Ranked<T>, s: seq<Ranked<T>>, keep: T -> bool)
    requires SortedByRank(s)
    requires |s| == 0 || x.rank <= s[0].rank
    ensures KeepValues([x] + s, keep)
      == if keep(x.value) then Insert(x, KeepValues(s, keep)) else KeepValues(s, keep)
  {
    KeepValuesCons(x, s, keep);
    var k := KeepValues(s, keep);
    if keep(x.value) {
      if |s| > 0 {
        KeepValuesLowerBound(s, keep);
      }
      assert |k| == 0 || x.rank <= k[0].rank;
      assert Insert(x, k) == [x] + k;
    }
  }

  lemma {:induction false} KeepValuesInsert<T>(x: Ranked<T>, s: seq<Ranked<T>>, keep: T -> bool)
    requires SortedByRank(s)
    ensures KeepValues(Insert(x, s), keep)
      == if keep(x.value) then Insert(x, KeepValues(s, keep)) else KeepValues(s, keep)
  {
    if |s| == 0 || x.rank <= s[0].rank {
      KeepValuesInsertFront(x, s, keep);
    } else {
      var t := s[1..];
      assert s == [s[0]] + t;
      assert SortedByRank(t);
      KeepValuesInsert(x, t, keep);
      assert Insert(x, s) == [s[0]] + Insert(x, t);
      KeepValuesCons(s[0], Insert(x, t), keep);
      KeepValuesCons(s[0], t, keep);
      var kt := KeepValues(t, keep);
      var lhs := KeepValues(Insert(x, s), keep);
      assert lhs == (if keep(s[0].value) then [s[0]] else []) + KeepValues(Insert(x, t), keep);
      assert KeepValues(s, keep) == (if keep(s[0].value) then [s[0]] else []) + kt;
      if keep(x.value) {
        assert KeepValues(Insert(x, t), keep) == Insert(x, kt);
        if keep(s[0].value) {
          var u := [s[0]] + kt;
          assert u[0] == s[0] && u[1..] == kt;
          assert Insert(x, u) == [s[0]] + Insert(x, kt);
          assert lhs == [s[0]] + Insert(x, kt);
        } else {
          assert KeepValues(s, keep) == kt;
        }
      } else {
        assert KeepValues(Insert(x, t), keep) == kt;
      }
    }
  }

  /** Sorting and filtering commute: the order a per-language filter sees after the
      query's ORDER BY is the order of that language's rows sorted on their own. */
  lemma {:induction false} KeepValuesSort<T>(s: seq<Ranked<T>>, keep: T -> bool)
    ensures KeepValues(SortByRank(s), keep) == SortByRank(KeepValues(s, keep))
  {
    if |s| > 0 {
      var t := s[1..];
      assert s == [s[0]] + t;
      KeepValuesSort(t, keep);
      SortByRankSpec(t);
      KeepValuesInsert(s[0], SortByRank(t), keep);
      KeepValuesCons(s[0], t, keep);
      if keep(s[0].value) {
        var u := [s[0]] + KeepValues(t, keep);
        assert u[0] == s[0] && u[1..] == KeepValues(t, keep);
      } else {
        assert KeepValues(s, keep) == KeepValues(t, keep);
      }
    }
  }

  lemma {:induction false} KeepValuesAppend<T>(a: seq<Ranked<T>>, b: seq<Ranked<T>>, keep: T -> bool)
    ensures KeepValues(a + b, keep) == KeepValues(a, keep) + KeepValues(b, keep)
  {
    if |a| == 0 {
      assert a + b == b;
    } else {
      assert a + b == [a[0]] + (a[1..] + b);
      assert a == [a[0]] + a[1..];
      KeepValuesCons(a[0], a[1..] + b, keep);
      KeepValuesCons(a[0], a[1..], keep);
      KeepValuesAppend(a[1..], b, keep);
    }
  }

  lemma KeepValuesAll<T>(s: seq<Ranked<T>>, keep: T -> bool)
    requires forall i :: 0 <= i < |s| ==> keep(s[i].value)
    ensures KeepValues(s, keep) == s
  {
    if |s| > 0 {
      KeepValuesAll(s[1..], keep);
    }
  }

  lemma KeepValuesNone<T>(s: seq<Ranked<T>>, keep: T -> bool)
    requires forall i :: 0 <= i < |s| ==> !keep(s[i].value)
    ensures KeepValues(s, keep) == []
  {
    if |s| > 0 {
      KeepValuesNone(s[1..], keep);
    }
  }

  /** Inserting an element ranked below everything in `b` happens inside `a`. */
  lemma {:induction false} InsertBeforeGreater<T>(x: Ranked<T>, a: seq<Ranked<T>>, b: seq<Ranked<T>>)
    requires forall j :: 0 <= j < |b| ==> x.rank < b[j].rank
    ensures Insert(x, a + b) == Insert(x, a) + b
  {
    if |a| == 0 {
      assert a + b == b;
    } else {
      assert (a + b)[0] == a[0];
      assert (a + b)[1..] == a[1..] + b;
      if x.rank > a[0].rank {
        InsertBeforeGreater(x, a[1..], b);
      }
    }
  }

  /** Appending a sorted run ranked above everything already there keeps it at the end. */
  lemma {:induction false} SortAppendGreater<T>(a: seq<Ranked<T>>, b: seq<Ranked<T>>)
    requires SortedByRank(b)
    requires forall i, j :: 0 <= i < |a| && 0 <= j < |b| ==> a[i].rank < b[j].rank
    ensures SortByRank(a + b) == SortByRank(a) + b
  {
    if |a| == 0 {
      assert a + b == b;
      SortSortedIsIdentity(b);
    } else {
      assert (a + b)[0] == a[0];
      assert (a + b)[1..] == a[1..] + b;
      SortAppendGreater(a[1..], b);
      InsertBeforeGreater(a[0], SortByRank(a[1..]), b);
    }
  }

  lemma ValuesAppend<T>(a: seq<Ranked<T>>, b: seq<Ranked<T>>)
    ensures Values(a + b) == Values(a) + Values(b)
  {
  }
}

=== FILE: routes.dfy ===
/** The JSON API routes that guard writes: app/api/newsletter/subscribe/route.ts and
    the admin routes app/api/admin/products/create/route.ts,
    app/api/admin/products/update/route.ts and
    app/api/admin/orders/update-status/route.ts. Each route is a transition of the
    store together with the HTTP response it sends. */
module Routes {
  import opened Common
  import opened Patterns
  import opened Schema
  import opened CatalogRead
  import opened CatalogWrite
  import opened CatalogProofs
  import opened Orders
  import opened SiteData

  /** A `NextResponse.json(...)` reply: its status, the `success` flag, the
      `message` ("" when there is none) and the `productId` of a created product. */
  datatype Response = Response(status: int, success: bool, message: string, productId: Option<string>)

  function Ok(): Response {
    Response(200, true, "", None)
  }

  function Fail(status: int, message: string): Response {
    Response(status, false, message, None)
  }

  /** The messages the routes send with a refusal. */
  const ErrorOccurred := "An error occurred"
  const EmailRequired := "Email is required"
  const InvalidEmail := "Invalid email format"
  const SubscribeFailed := "Failed to subscribe"
  const Unauthorized := "Unauthorized"
  const FieldsRequired := "Name, slug, price, and image are required"
  const SlugTaken := "Slug must be unique"
  const CreateFailed := "Failed to create product"
  const IdRequired := "Product ID is required"
  const UpdateFailed := "Failed to update product"
  const StatusFieldsRequired := "Order ID and status are required"
  const InvalidStatus := "Invalid status"
  const StatusUpdateFailed := "Failed to update order status"

  // ------------------------------------------------------------ newsletter

  /** `POST /api/newsletter/subscribe`. `email` is `None` when the body has no such
      field; `badBody` is a body that is not JSON. */
  function Subscribe(s: Store, email: Option<string>, badBody: bool, sid: string, now: int, fails: bool)
    : (r: (Store, Response))
    ensures r.1.success <==> r.1.status == 200
    ensures r.1.status == 200 ==> Truthy(email) && r.0 == AddSubscriber(s, sid, now, email.value, false).0
    ensures r.1.status != 200 ==> r.0 == s
    ensures !badBody && !Truthy(email) ==> r.1.status == 400
    ensures !badBody && Truthy(email) && !EmailTest(email.value) ==> r.1.status == 400
    ensures r.1.status == 400 <==> !badBody && (!Truthy(email) || !EmailTest(email.value))
    ensures r.1.status == 200 <==> !badBody && Truthy(email) && EmailTest(email.value) && AddSubscriber(s, sid, now, email.value, fails).1
  {
    if badBody then (s, Fail(500, ErrorOccurred))
    else if !Truthy(email) then (s, Fail(400, EmailRequired))
    else if !EmailTest(email.value) then (s, Fail(400, InvalidEmail))
    else
      var (t, ok) := AddSubscriber(s, sid, now, email.value, fails);
      if ok then (t, Ok()) else (s, Fail(500, SubscribeFailed))
  }

  /** The route keeps no list of known addresses: the same address, sent twice under
      fresh ids, is accepted both times. */
  lemma SubscribeSameEmailTwice(s: Store, a: string, b: string, now: int, email: string)
    requires a != b && !SubscriberIdTaken(s, a) && !SubscriberIdTaken(s, b)
    requires email != "" && EmailTest(email)
    ensures var (t, r1) := Subscribe(s, Some(email), false, a, now, false);
      var (u, r2) := Subscribe(t, Some(email), false, b, now, false);
      r1.success && r2.success
      && |Filter(u.subscribers, SubscribersWith(email))| == |Filter(s.subscribers, SubscribersWith(email))| + 2
  {
    SubscribeTwice(s, a, b, now, email);
  }

  // ------------------------------------------------------------ admin: products

  /** A product write's JSON body; `None` is an absent field. */
  datatype ProductBody = ProductBody(
    id: Option<string>,
    name: Option<string>,
    slug: Option<string>,
    price: Option<int>,
    image: Option<string>,
    description: Option<string>,
    fullDescription: Option<string>,
    images: Option<seq<string>>,
    ingredients: Option<seq<string>>,
    translations: seq<LangEntry>)

  /** `!productData.price` is false only for a present, non-zero price. */
  predicate PriceTruthy(price: Option<int>) {
    price.Some? && price.value != 0
  }

  predicate HasRequiredFields(b: ProductBody) {
    Truthy(b.name) && Truthy(b.slug) && PriceTruthy(b.price) && Truthy(b.image)
  }

  function NotMain(main: Option<string>): string -> bool {
    (img: string) => main.None? || img != main.value
  }

  /** `images?.filter(img => img !== mainImage) || []` */
  function AdditionalImages(b: ProductBody): (r: seq<string>)
    ensures b.images.None? ==> r == []
    ensures b.image.Some? ==> forall i :: 0 <= i < |r| ==> r[i] != b.image.value
  {
    Filter(b.images.GetOr([]), NotMain(b.image))
  }

  /** The images that remain are the sent images other than the main one, each once
      for each time it was sent, in the order sent. */
  lemma AdditionalImagesKeepOthers(b: ProductBody, extra: seq<string>)
    requires b.image.Some? && b.images == Some([b.image.value] + extra + [b.image.value])
    ensures AdditionalImages(b) == Filter(extra, NotMain(b.image))
  {
    FilterAppend([b.image.value] + extra, [b.image.value], NotMain(b.image));
    FilterAppend([b.image.value], extra, NotMain(b.image));
    FilterNone([b.image.value], NotMain(b.image));
  }

  /** `...restProductData` with `additionalImages`, as `createProduct` reads it: absent
      lists are empty. */
  function NewProductOf(b: ProductBody): (p: NewProduct)
    requires HasRequiredFields(b)
    ensures p.name == b.name.value && p.slug == b.slug.value && p.image == b.image.value
    ensures p.price == b.price.value && p.additionalImages == AdditionalImages(b)
  {
    NewProduct(b.name.value, b.slug.value, b.price.value, b.image.value, b.description, b.fullDescription,
               AdditionalImages(b), b.ingredients.GetOr([]), b.translations)
  }

  /** `POST /api/admin/products/create`. `authed` is the session check;
      `slugFails` and `createFails` are database errors in the two calls. */
  function CreateRoute(s: Store, authed: bool, b: ProductBody, pid: string, now: int,
                       slugFails: bool, createFails: bool): (r: (Store, Response))
    ensures !authed ==> r == (s, Fail(401, Unauthorized))
    ensures authed && !HasRequiredFields(b) ==> r == (s, Fail(400, FieldsRequired))
    ensures authed && HasRequiredFields(b) && !IsSlugUnique(s, b.slug.value, None, slugFails) ==>
      r == (s, Fail(400, SlugTaken))
    ensures r.1.success <==>
      authed && HasRequiredFields(b) && IsSlugUnique(s, b.slug.value, None, slugFails)
      && CreateProduct(s, pid, now, NewProductOf(b), createFails).1.Some?
    ensures r.1.success ==> r.1.productId == Some(pid) && r.0 == CreateProduct(s, pid, now, NewProductOf(b), false).0
    ensures !r.1.success ==> r.0 == s
  {
    if !authed then (s, Fail(401, Unauthorized))
    else if !HasRequiredFields(b) then (s, Fail(400, FieldsRequired))
    else if !IsSlugUnique(s, b.slug.value, None, slugFails) then (s, Fail(400, SlugTaken))
    else
      var (t, id) := CreateProduct(s, pid, now, NewProductOf(b), createFails);
      if id.Some? then (t, Response(200, true, "", id))
      else (s, Fail(500, CreateFailed))
  }

  /** A zero price is refused as missing. */
  lemma ZeroPriceRejected(s: Store, b: ProductBody, pid: string, now: int, slugFails: bool, createFails: bool)
    requires b.price == Some(0)
    ensures !CreateRoute(s, true, b, pid, now, slugFails, createFails).1.success
    ensures CreateRoute(s, true, b, pid, now, slugFails, createFails).1.status == 400
  {
  }

  /** A product created through the route can be read back exactly when no language
      with text was sent an ingredient list on which the read's `.sort` throws; it then
      reads back with the main image first and the other sent images after it, the
      main image not repeated. */
  lemma CreateRouteReadsBack(s: Store, b: ProductBody, pid: string, now: int)
    requires !ProductIdUsed(s, pid) && DistinctLangs(b.translations)
    requires CreateRoute(s, true, b, pid, now, false, false).1.success
    ensures GetProductById(CreateRoute(s, true, b, pid, now, false, false).0, pid, false).Some?
        <==> SortSafe(b.translations)
    ensures SortSafe(b.translations) ==>
      GetProductById(CreateRoute(s, true, b, pid, now, false, false).0, pid, false).value.product.images
         == Some([b.image.value] + AdditionalImages(b))
    ensures b.image.value !in AdditionalImages(b)
  {
    CreateThenGetByIdFixed(s, pid, now, NewProductOf(b));
  }

  /** The update payload: the body without `id` and `images`, with `additionalImages`
      always present. */
  function PatchOf(b: ProductBody): (p: ProductPatch)
    ensures p.additionalImages == Some(AdditionalImages(b))
    ensures p.name == b.name && p.slug == b.slug && p.price == b.price && p.image == b.image
  {
    ProductPatch(b.name, b.slug, b.price, b.image, b.description, b.fullDescription,
                 Some(AdditionalImages(b)), b.ingredients, b.translations)
  }

  /** `POST /api/admin/products/update`. The slug is checked only when a truthy one
      is sent, and then against every product but this one. */
  function UpdateRoute(s: Store, authed: bool, b: ProductBody, slugFails: bool, updateFails: bool)
    : (r: (Store, Response))
    ensures !authed ==> r == (s, Fail(401, Unauthorized))
    ensures authed && !Truthy(b.id) ==> r == (s, Fail(400, IdRequired))
    ensures authed && Truthy(b.id) && Truthy(b.slug) && !IsSlugUnique(s, b.slug.value, b.id, slugFails) ==>
      r == (s, Fail(400, SlugTaken))
    ensures r.1.success <==>
      authed && Truthy(b.id) && (Truthy(b.slug) ==> IsSlugUnique(s, b.slug.value, b.id, slugFails)) && !updateFails
    ensures r.1.success ==> r.0 == UpdateProduct(s, b.id.value, PatchOf(b), false).0
    ensures !r.1.success ==> r.0 == s
  {
    if !authed then (s, Fail(401, Unauthorized))
    else if !Truthy(b.id) then (s, Fail(400, IdRequired))
    else if Truthy(b.slug) && !IsSlugUnique(s, b.slug.value, b.id, slugFails) then (s, Fail(400, SlugTaken))
    else
      var (t, ok) := UpdateProduct(s, b.id.value, PatchOf(b), updateFails);
      if ok then (t, Ok()) else (s, Fail(500, UpdateFailed))
  }

  /** A product may keep its own slug: the uniqueness check skips its own row. */
  lemma UpdateKeepsOwnSlug(s: Store, b: ProductBody, k: nat)
    requires k < |s.products| && Truthy(b.id) && s.products[k].id == b.id.value && Truthy(b.slug)
    requires forall i :: 0 <= i < |s.products| && s.products[i].slug == b.slug.value ==> i == k
    ensures UpdateRoute(s, true, b, false, false).1.success
  {
  }

  /** No image row of product `pid` sits at display order 0. */
  predicate NoMainImage(rows: seq<ImageRow>, pid: string) {
    forall i :: 0 <= i < |rows| && rows[i].productId == pid ==> rows[i].displayOrder >= 1
  }

  /** Other products' rows followed by rows numbered from 1 hold no main image of `pid`. */
  lemma OthersThenFromOne(images: seq<ImageRow>, pid: string, urls: seq<string>)
    ensures NoMainImage(Filter(images, ImageOfOther(pid)) + ImageRowsFrom(pid, urls, 1), pid)
  {
    var other := Filter(images, ImageOfOther(pid));
    var rows := other + ImageRowsFrom(pid, urls, 1);
    forall i | 0 <= i < |rows| && rows[i].productId == pid ensures rows[i].displayOrder >= 1 {
    }
  }

  /** Every successful update rewrites the gallery; one that sends no `image` leaves
      the product with only the additional images, so nothing at display order 0. */
  lemma UpdateWithoutImage(s: Store, b: ProductBody)
    requires b.image.None?
    requires UpdateRoute(s, true, b, false, false).1.success
    ensures ImagesOf(UpdateRoute(s, true, b, false, false).0, b.id.value) == b.images.GetOr([])
    ensures NoMainImage(UpdateRoute(s, true, b, false, false).0.images, b.id.value)
  {
    var t := UpdateProduct(s, b.id.value, PatchOf(b), false).0;
    assert UpdateRoute(s, true, b, false, false).0 == t;
    UpdateWithoutImageReadsBack(s, b);
    UpdateWithoutImageRows(s, b);
  }

  lemma UpdateWithoutImageReadsBack(s: Store, b: ProductBody)
    requires b.image.None? && b.id.Some?
    ensures ImagesOf(UpdateProduct(s, b.id.value, PatchOf(b), false).0, b.id.value) == b.images.GetOr([])
  {
    var p := PatchOf(b);
    UpdateReplacesImages(s, b.id.value, p);
    assert PatchedImages(p) == AdditionalImages(b);
    FilterAll(b.images.GetOr([]), NotMain(b.image));
  }

  lemma UpdateWithoutImageRows(s: Store, b: ProductBody)
    requires b.image.None? && b.id.Some?
    ensures NoMainImage(UpdateProduct(s, b.id.value, PatchOf(b), false).0.images, b.id.value)
  {
    assert UpdateProduct(s, b.id.value, PatchOf(b), false).0.images ==
      Filter(s.images, ImageOfOther(b.id.value)) + ImageRowsFrom(b.id.value, AdditionalImages(b), 1);
    OthersThenFromOne(s.images, b.id.value, AdditionalImages(b));
  }

  // ------------------------------------------------------------ admin: order status

  predicate KnownStatus(status: string) {
    status == "processing" || status == "completed"
  }

  /** `POST /api/admin/orders/update-status`. */
  function UpdateStatusRoute(s: Store, authed: bool, orderId: Option<string>, status: Option<string>, fails: bool)
    : (r: (Store, Response))
    ensures !authed ==> r == (s, Fail(401, Unauthorized))
    ensures authed && (!Truthy(orderId) || !Truthy(status)) ==> r == (s, Fail(400, StatusFieldsRequired))
    ensures authed && Truthy(orderId) && Truthy(status) && !KnownStatus(status.value) ==> r == (s, Fail(400, InvalidStatus))
    ensures r.1.success <==> authed && Truthy(orderId) && Truthy(status) && KnownStatus(status.value) && !fails
    ensures r.1.success ==> r.0 == UpdateOrderStatus(s, orderId.value, status.value, false).0
    ensures !r.1.success ==> r.0 == s
  {
    if !authed then (s, Fail(401, Unauthorized))
    else if !Truthy(orderId) || !Truthy(status) then (s, Fail(400, StatusFieldsRequired))
    else if !KnownStatus(status.value) then (s, Fail(400, InvalidStatus))
    else
      var (t, ok) := UpdateOrderStatus(s, orderId.value, status.value, fails);
      if ok then (t, Ok()) else (s, Fail(500, StatusUpdateFailed))
  }

  /** Through this route an order can only ever be put into one of the two known
      states: every row either keeps its status or now holds a known one. */
  lemma StatusRouteStoresKnownStatus(s: Store, authed: bool, orderId: Option<string>, status: Option<string>, fails: bool)
    ensures var t := UpdateStatusRoute(s, authed, orderId, status, fails).0;
      |t.orders| == |s.orders|
      && forall i :: 0 <= i < |t.orders| ==> t.orders[i] == s.orders[i] || KnownStatus(t.orders[i].status)
  {
  }
}

=== FILE: schema.dfy ===
/** The storefront's MySQL tables as sequences of rows in one immutable `Store`,
    and the `Product` aggregate the read paths assemble from them (lib/types.ts).

    Row ids generated by `uuidv4()` for child rows are never read back, so child
    rows carry only the columns the code reads. Timestamps are integers; the
    clock is a parameter of every operation that stamps one. Prices are integer
    cents. */
module Schema {
  import opened Common

  datatype ProductRow = ProductRow(
    id: string,
    name: string,
    slug: string,
    price: int,
    image: string,
    description: Option<string>,      // nullable column
    fullDescription: Option<string>,  // nullable column
    createdAt: int,
    updatedAt: int)

  datatype ImageRow = ImageRow(productId: string, imageUrl: string, displayOrder: int)

  datatype IngredientRow = IngredientRow(productId: string, ingredient: string, displayOrder: int)

  /** `product_translations`: every text column is nullable. */
  datatype TranslationRow = TranslationRow(
    productId: string,
    lang: string,
    name: Option<string>,
    description: Option<string>,
    fullDescription: Option<string>)

  /** A text value that may be missing: JSON `null`, a hole in a JavaScript array,
      or SQL NULL. The `ingredient_translations.ingredient` column is taken to be
      nullable. */
  type NullableText = Option<string>

  datatype IngredientTranslationRow =
    IngredientTranslationRow(productId: string, lang: string, ingredient: NullableText, displayOrder: int)

  datatype OrderRow = OrderRow(
    id: string,
    customerName: string,
    email: string,
    phone: string,
    city: string,
    address: string,
    status: string,
    total: int,
    createdAt: int)

  datatype OrderItemRow = OrderItemRow(orderId: string, productId: string, quantity: int, price: int)

  datatype SubscriberRow = SubscriberRow(id: string, email: string, createdAt: int)

  /** The whole database. `viewCounter` is the `count` of the `view_counter` row with
      id 1, or `None` when that row does not exist. */
  datatype Store = Store(
    products: seq<ProductRow>,
    images: seq<ImageRow>,
    ingredients: seq<IngredientRow>,
    translations: seq<TranslationRow>,
    ingredientTranslations: seq<IngredientTranslationRow>,
    orders: seq<OrderRow>,
    orderItems: seq<OrderItemRow>,
    subscribers: seq<SubscriberRow>,
    viewCounter: Option<int>)

  /** One language's entry of `Product.translations`. A field is `None` when it is
      undefined or NULL; both are falsy to every reader. */
  datatype Translation = Translation(
    name: Option<string>,
    description: Option<string>,
    fullDescription: Option<string>,
    ingredients: Option<seq<NullableText>>)

  /** `Product` of lib/types.ts, restricted to the fields the data layer fills. */
  datatype Product = Product(
    id: string,
    name: string,
    slug: string,
    price: int,
    image: string,
    images: Option<seq<string>>,
    description: Option<string>,
    fullDescription: Option<string>,
    ingredients: Option<seq<string>>,
    translations: map<string, Translation>)

  /** What `getProductById` returns: the product plus its two timestamps. */
  datatype ProductRecord = ProductRecord(product: Product, createdAt: int, updatedAt: int)

  /** One language of a write payload's `translations` object. */
  datatype TranslationInput = TranslationInput(
    name: Option<string>,
    description: Option<string>,
    fullDescription: Option<string>,
    ingredients: Option<seq<NullableText>>)

  /** A key of a `translations` object with its value, in `Object.keys` order. */
  datatype LangEntry = LangEntry(lang: string, input: TranslationInput)

  /** Object keys are distinct. */
  predicate DistinctLangs(entries: seq<LangEntry>) {
    forall i, j :: 0 <= i < j < |entries| ==> entries[i].lang != entries[j].lang
  }

  /** `translation.name || translation.description || translation.fullDescription` */
  predicate HasText(t: TranslationInput) {
    Truthy(t.name) || Truthy(t.description) || Truthy(t.fullDescription)
  }

  /** Whether any table holds a row that belongs to product `id`. */
  predicate ProductIdUsed(s: Store, id: string) {
    || (exists i | 0 <= i < |s.products| :: s.products[i].id == id)
    || (exists i | 0 <= i < |s.images| :: s.images[i].productId == id)
    || (exists i | 0 <= i < |s.ingredients| :: s.ingredients[i].productId == id)
    || (exists i | 0 <= i < |s.translations| :: s.translations[i].productId == id)
    || (exists i | 0 <= i < |s.ingredientTranslations| :: s.ingredientTranslations[i].productId == id)
  }
}

=== FILE: sitedata.dfy ===
/** The small site tables: the newsletter `subscribers` (`addSubscriber` of
    lib/db-server.ts, `deleteSubscriber` of lib/db.ts) and the single-row
    `view_counter` (`incrementViewCount` of lib/db-server.ts). */
module SiteData {
  import opened Common
  import opened Schema

  predicate SubscriberIdTaken(s: Store, id: string) {
    exists i | 0 <= i < |s.subscribers| :: s.subscribers[i].id == id
  }

  function SubscribersWith(email: string): SubscriberRow -> bool {
    (r: SubscriberRow) => r.email == email
  }

  /** `addSubscriber(email)`: inserts a row under a fresh id with no check that the
      address is already subscribed; `false` on a database error. */
  function AddSubscriber(s: Store, sid: string, now: int, email: string, fails: bool): (r: (Store, bool))
    ensures r.1 <==> !fails && !SubscriberIdTaken(s, sid)
    ensures !r.1 ==> r.0 == s
    ensures r.1 ==> r.0 == s.(subscribers := s.subscribers + [SubscriberRow(sid, email, now)])
  {
    if fails || SubscriberIdTaken(s, sid) then (s, false)
    else (s.(subscribers := s.subscribers + [SubscriberRow(sid, email, now)]), true)
  }

  /** Subscribing the same address twice succeeds twice and stores it twice. */
  lemma SubscribeTwice(s: Store, a: string, b: string, now: int, email: string)
    requires a != b && !SubscriberIdTaken(s, a) && !SubscriberIdTaken(s, b)
    ensures var (t, ok1) := AddSubscriber(s, a, now, email, false);
      var (u, ok2) := AddSubscriber(t, b, now, email, false);
      ok1 && ok2
      && |Filter(u.subscribers, SubscribersWith(email))| == |Filter(s.subscribers, SubscribersWith(email))| + 2
  {
    var t := AddSubscriber(s, a, now, email, false).0;
    var u := AddSubscriber(t, b, now, email, false).0;
    assert !SubscriberIdTaken(t, b) by {
      assert t.subscribers == s.subscribers + [SubscriberRow(a, email, now)];
    }
    assert u.subscribers == s.subscribers + [SubscriberRow(a, email, now), SubscriberRow(b, email, now)];
    FilterAppend(s.subscribers, [SubscriberRow(a, email, now), SubscriberRow(b, email, now)], SubscribersWith(email));
    FilterAll([SubscriberRow(a, email, now), SubscriberRow(b, email, now)], SubscribersWith(email));
  }

  function SubscriberOther(id: string): SubscriberRow -> bool {
    (r: SubscriberRow) => r.id != id
  }

  /** `deleteSubscriber(id)`: every row with that id goes, the others stay in order;
      `true` even when nothing matched. */
  function DeleteSubscriber(s: Store, id: string, fails: bool): (r: (Store, bool))
    ensures r.1 == !fails
    ensures !r.1 ==> r.0 == s
    ensures r.1 ==> (!SubscriberIdTaken(r.0, id)
      && (forall i :: 0 <= i < |s.subscribers| && s.subscribers[i].id != id ==> s.subscribers[i] in r.0.subscribers)
      && r.0.products == s.products && r.0.orders == s.orders)
    ensures r.1 && !SubscriberIdTaken(s, id) ==> r.0 == s
  {
    if fails then (s, false)
    else
      if !SubscriberIdTaken(s, id) then
        FilterAll(s.subscribers, SubscriberOther(id));
        (s.(subscribers := Filter(s.subscribers, SubscriberOther(id))), true)
      else
        (s.(subscribers := Filter(s.subscribers, SubscriberOther(id))), true)
  }

  /** Adding a subscriber and deleting it again restores the table. */
  lemma AddThenDeleteSubscriber(s: Store, sid: string, now: int, email: string)
    requires !SubscriberIdTaken(s, sid)
    ensures DeleteSubscriber(AddSubscriber(s, sid, now, email, false).0, sid, false) == (s, true)
  {
    var row := SubscriberRow(sid, email, now);
    FilterAppend(s.subscribers, [row], SubscriberOther(sid));
    FilterAll(s.subscribers, SubscriberOther(sid));
    FilterNone([row], SubscriberOther(sid));
    assert s.subscribers + [] == s.subscribers;
    assert s.(subscribers := s.subscribers) == s;
  }

  /** `incrementViewCount()`: `UPDATE ... SET count = count + 1 WHERE id = 1`, then
      reads the count back. The two statements are not one transaction:
      `updateFails` is an error in the UPDATE, `readFails` one in the SELECT after it
      has committed. A missing row makes `result[0].count` throw; every error gives 0. */
  function IncrementViewCount(s: Store, updateFails: bool, readFails: bool): (r: (Store, int))
    ensures updateFails ==> r == (s, 0)
    ensures !updateFails ==> (r.0.viewCounter.Some? <==> s.viewCounter.Some?)
    ensures !updateFails && s.viewCounter.Some? ==> r.0.viewCounter.value == s.viewCounter.value + 1
    ensures r.1 != 0 ==> r.0.viewCounter == Some(r.1)
    ensures !updateFails && !readFails && s.viewCounter.Some? ==> r.1 == s.viewCounter.value + 1
    ensures (readFails || s.viewCounter.None?) ==> r.1 == 0
    ensures r.0.products == s.products && r.0.orders == s.orders && r.0.subscribers == s.subscribers
  {
    if updateFails then (s, 0)
    else
      var t := s.(viewCounter := if s.viewCounter.Some? then Some(s.viewCounter.value + 1) else None);
      if readFails || t.viewCounter.None? then (t, 0) else (t, t.viewCounter.value)
  }

  /** Two visits with no error raise the counter by two and report the second value. */
  lemma TwoVisits(s: Store, c: int)
    requires s.viewCounter == Some(c)
    ensures var (t, _) := IncrementViewCount(s, false, false);
      IncrementViewCount(t, false, false) == (s.(viewCounter := Some(c + 2)), c + 2)
  {
  }
}

=== FILE: sitemap.dfy ===
/** app/sitemap.ts: one entry per locale for the home page, then one per product
    and locale. The locales are a parameter (lib/i18n/i18n-config.ts is not part of
    this model) and so is the product list the page reads. */
module Sitemap {
  import opened Schema

  const BaseUrl := "https://obcosmetique.com"

  /** An entry's URL and its priority in tenths (1.0 and 0.8). The modification
      date and the constant "weekly" frequency are not modelled. */
  datatype Entry = Entry(url: string, priority: int)

  function HomeUrl(base: string, locale: string): string {
    base + "/" + locale
  }

  function ProductUrl(base: string, locale: string, slug: string): string {
    base + "/" + locale + "/products/" + slug
  }

  function HomePages(base: string, locales: seq<string>): (r: seq<Entry>)
    ensures |r| == |locales|
    ensures forall i :: 0 <= i < |locales| ==> r[i] == Entry(HomeUrl(base, locales[i]), 10)
  {
    seq(|locales|, i requires 0 <= i < |locales| => Entry(HomeUrl(base, locales[i]), 10))
  }

  function ProductPagesOf(base: string, locales: seq<string>, slug: string): (r: seq<Entry>)
    ensures |r| == |locales|
    ensures forall i :: 0 <= i < |locales| ==> r[i] == Entry(ProductUrl(base, locales[i], slug), 8)
  {
    seq(|locales|, i requires 0 <= i < |locales| => Entry(ProductUrl(base, locales[i], slug), 8))
  }

  /** `products.flatMap(product => locales.map(...))` */
  function ProductPages(base: string, locales: seq<string>, products: seq<Product>): seq<Entry> {
    if |products| == 0 then []
    else ProductPagesOf(base, locales, products[0].slug) + ProductPages(base, locales, products[1..])
  }

  function Sitemap(base: string, locales: seq<string>, products: seq<Product>): seq<Entry> {
    HomePages(base, locales) + ProductPages(base, locales, products)
  }

  /** `(a + 1) * n` unfolded once. */
  lemma MulSucc(a: nat, n: nat)
    ensures (a + 1) * n == n + a * n
  {
  }

  /** Every product contributes one entry per locale. */
  lemma {:induction false} ProductPagesLength(base: string, locales: seq<string>, products: seq<Product>)
    ensures |ProductPages(base, locales, products)| == |products| * |locales|
    decreases |products|
  {
    if |products| > 0 {
      ProductPagesLength(base, locales, products[1..]);
      MulSucc(|products| - 1, |locales|);
    }
  }

  /** Product entry `l` of product `p` sits at `p * |locales| + l`. */
  lemma {:induction false} ProductPagesAt(base: string, locales: seq<string>, products: seq<Product>, p: nat, l: nat)
    requires p < |products| && l < |locales|
    ensures |ProductPages(base, locales, products)| == |products| * |locales|
    ensures p * |locales| + l < |ProductPages(base, locales, products)|
    ensures ProductPages(base, locales, products)[p * |locales| + l] ==
      Entry(ProductUrl(base, locales[l], products[p].slug), 8)
    decreases |products|
  {
    ProductPagesLength(base, locales, products);
    var n := |locales|;
    var first := ProductPagesOf(base, locales, products[0].slug);
    var rest := ProductPages(base, locales, products[1..]);
    assert ProductPages(base, locales, products) == first + rest;
    if p == 0 {
      assert p * n + l == l;
    } else {
      ProductPagesAt(base, locales, products[1..], p - 1, l);
      var k := (p - 1) * n + l;
      MulSucc(p - 1, n);
      assert p * n + l == n + k;
      assert products[1..][p - 1] == products[p];
      assert (first + rest)[n + k] == rest[k];
    }
  }

  /** The sitemap lists `|locales|` home pages and `|locales|` pages per product: home
      page `l` at `l`, and page `l` of product `p` at `|locales| + p * |locales| + l`. */
  lemma SitemapLayout(base: string, locales: seq<string>, products: seq<Product>, p: nat, l: nat)
    requires p < |products| && l < |locales|
    ensures var m := Sitemap(base, locales, products);
      && |m| == |locales| + |products| * |locales|
      && |locales| + p * |locales| + l < |m|
      && m[l] == Entry(HomeUrl(base, locales[l]), 10)
      && m[|locales| + p * |locales| + l] == Entry(ProductUrl(base, locales[l], products[p].slug), 8)
  {
    ProductPagesAt(base, locales, products, p, l);
    var h := HomePages(base, locales);
    var pp := ProductPages(base, locales, products);
    var k := p * |locales| + l;
    assert Sitemap(base, locales, products)[|h| + k] == pp[k];
    assert Sitemap(base, locales, products)[l] == h[l];
  }

  /** With no products the sitemap is the home pages alone. */
  lemma NoProducts(base: string, locales: seq<string>)
    ensures Sitemap(base, locales, []) == HomePages(base, locales)
  {
    assert HomePages(base, locales) + [] == HomePages(base, locales);
  }
}

=== FILE: slug.dfy ===
/** `generateSlug` of the admin product form: lower-case the name, drop every
    character that is not a word character, white space or '-', turn each run of
    white space into '-', collapse runs of '-', and finally trim. Each stage is its
    own function; the lemmas show what the composition produces, that it is
    idempotent, and that `trim` comes too late to remove edge hyphens. */
module Slug {
  import opened Common
  import opened Text

  /** `\w`: ASCII letters, digits and underscore. */
  predicate IsWordChar(c: char) {
    'a' <= c <= 'z' || 'A' <= c <= 'Z' || IsDigit(c) || c == '_'
  }

  /** The characters the first `replace` keeps: `[\w\s-]`. */
  predicate KeptBySlug(c: char) {
    IsWordChar(c) || IsSpace(c) || c == '-'
  }

  /** The characters a slug is made of: `[a-z0-9_-]`. */
  predicate IsSlugChar(c: char) {
    IsLowerLetter(c) || IsDigit(c) || c == '_' || c == '-'
  }

  /** `.replace(/[^\w\s-]/g, "")` */
  function StripDisallowed(s: string): (r: string)
    ensures forall i :: 0 <= i < |r| ==> KeptBySlug(r[i]) && r[i] in s
  {
    Filter(s, KeptBySlug)
  }

  /** The two run-collapsing replacements: `/\s+/g` and `/-+/g`, both replaced by "-". */
  datatype RunClass = SpaceRun | HyphenRun

  predicate InRun(c: char, cls: RunClass) {
    match cls
    case SpaceRun => IsSpace(c)
    case HyphenRun => c == '-'
  }

  /** Drops the maximal run of `cls` characters at the front of `s`. */
  function DropRun(s: string, cls: RunClass): (r: string)
    ensures |r| <= |s| && r == s[|s| - |r|..]
    ensures |r| > 0 ==> !InRun(r[0], cls)
    ensures forall i :: 0 <= i < |s| - |r| ==> InRun(s[i], cls)
  {
    if |s| > 0 && InRun(s[0], cls) then DropRun(s[1..], cls) else s
  }

  /** Replaces every maximal run of `cls` characters by one hyphen. */
  function ReplaceRuns(s: string, cls: RunClass): (r: string)
    ensures |s| > 0 <==> |r| > 0
    ensures |s| > 0 ==> r[0] == (if InRun(s[0], cls) then '-' else s[0])
    decreases |s|
  {
    if |s| == 0 then ""
    else if InRun(s[0], cls) then "-" + ReplaceRuns(DropRun(s, cls), cls)
    else [s[0]] + ReplaceRuns(s[1..], cls)
  }

  /** Whatever holds of every input character holds of every result character that
      is not a hyphen, and those lie outside the class. */
  lemma {:induction false} ReplaceRunsPreserves(s: string, cls: RunClass, p: char -> bool)
    requires forall i :: 0 <= i < |s| ==> p(s[i])
    ensures forall i :: 0 <= i < |ReplaceRuns(s, cls)| ==>
      ReplaceRuns(s, cls)[i] == '-' || (p(ReplaceRuns(s, cls)[i]) && !InRun(ReplaceRuns(s, cls)[i], cls))
    decreases |s|
  {
    if |s| > 0 {
      var rest := if InRun(s[0], cls) then DropRun(s, cls) else s[1..];
      forall i | 0 <= i < |rest| ensures p(rest[i]) {
        assert rest[i] == s[|s| - |rest| + i];
      }
      ReplaceRunsPreserves(rest, cls, p);
      var head := if InRun(s[0], cls) then "-" else [s[0]];
      var rr := ReplaceRuns(rest, cls);
      assert ReplaceRuns(s, cls) == head + rr;
      forall i | 0 <= i < |head + rr| ensures (head + rr)[i] == '-' || (p((head + rr)[i]) && !InRun((head + rr)[i], cls)) {
        if i > 0 {
          assert (head + rr)[i] == rr[i - 1];
        }
      }
    }
  }

  /** `generateSlug(name)` */
  function GenerateSlug(name: string): string {
    Trim(ReplaceRuns(ReplaceRuns(StripDisallowed(Lower(name)), SpaceRun), HyphenRun))
  }

  /** No two hyphens are adjacent. */
  predicate NoDoubleHyphen(s: string) {
    forall i :: 0 <= i < |s| - 1 ==> !(s[i] == '-' && s[i + 1] == '-')
  }

  /** What a slug looks like: only `[a-z0-9_-]`, and no "--". */
  predicate IsSlugShaped(s: string) {
    (forall i :: 0 <= i < |s| ==> IsSlugChar(s[i])) && NoDoubleHyphen(s)
  }

  /** Collapsing hyphen runs leaves no two hyphens side by side. */
  lemma {:induction false} HyphenRunsCollapsed(s: string)
    ensures NoDoubleHyphen(ReplaceRuns(s, HyphenRun))
    decreases |s|
  {
    if |s| > 0 {
      if InRun(s[0], HyphenRun) {
        var t := DropRun(s, HyphenRun);
        HyphenRunsCollapsed(t);
      } else {
        HyphenRunsCollapsed(s[1..]);
      }
    }
  }

  /** Replacing runs that do not occur changes nothing. */
  lemma {:induction false} ReplaceRunsAbsent(s: string, cls: RunClass)
    requires forall i :: 0 <= i < |s| ==> !InRun(s[i], cls)
    ensures ReplaceRuns(s, cls) == s
  {
    if |s| > 0 {
      ReplaceRunsAbsent(s[1..], cls);
    }
  }

  /** One step of `ReplaceRuns` outside a run. */
  lemma ReplaceRunsKeep(s: string, cls: RunClass)
    requires |s| > 0 && !InRun(s[0], cls)
    ensures ReplaceRuns(s, cls) == [s[0]] + ReplaceRuns(s[1..], cls)
  {
  }

  /** One step of `ReplaceRuns` at the start of a run. */
  lemma ReplaceRunsCollapse(s: string, cls: RunClass)
    requires |s| > 0 && InRun(s[0], cls)
    ensures ReplaceRuns(s, cls) == "-" + ReplaceRuns(DropRun(s, cls), cls)
  {
  }

  /** A run of length one is dropped by removing its single character. */
  lemma DropSingle(s: string, cls: RunClass)
    requires |s| > 0 && InRun(s[0], cls)
    requires |s| == 1 || !InRun(s[1], cls)
    ensures DropRun(s, cls) == s[1..]
  {
    assert |s[1..]| == 0 || !InRun(s[1..][0], cls);
  }

  /** The tail of a string without double hyphens has none either. */
  lemma NoDoubleHyphenTail(s: string)
    requires |s| > 0 && NoDoubleHyphen(s)
    ensures NoDoubleHyphen(s[1..])
  {
    var rest := s[1..];
    forall i | 0 <= i < |rest| - 1 ensures !(rest[i] == '-' && rest[i + 1] == '-') {
      assert rest[i] == s[i + 1] && rest[i + 1] == s[i + 2];
    }
  }

  /** Collapsing hyphen runs in a string that has only single hyphens changes nothing. */
  lemma {:induction false} ReplaceHyphensSingle(s: string)
    requires NoDoubleHyphen(s)
    ensures ReplaceRuns(s, HyphenRun) == s
  {
    if |s| > 0 {
      var rest := s[1..];
      NoDoubleHyphenTail(s);
      ReplaceHyphensSingle(rest);
      if s[0] == '-' {
        assert |s| == 1 || s[1] != '-';
        DropSingle(s, HyphenRun);
        ReplaceRunsCollapse(s, HyphenRun);
      } else {
        ReplaceRunsKeep(s, HyphenRun);
      }
      assert s == [s[0]] + rest;
    }
  }

  predicate NotSpace(c: char) {
    !IsSpace(c)
  }

  predicate AnyChar(c: char) {
    true
  }

  /** After both replacements no white space is left, so the final `trim` has nothing to do. */
  lemma NoSpaceAfterReplace(stripped: string)
    ensures forall i :: 0 <= i < |ReplaceRuns(ReplaceRuns(stripped, SpaceRun), HyphenRun)| ==>
      !IsSpace(ReplaceRuns(ReplaceRuns(stripped, SpaceRun), HyphenRun)[i])
  {
    var spaced := ReplaceRuns(stripped, SpaceRun);
    ReplaceRunsPreserves(stripped, SpaceRun, AnyChar);
    forall i | 0 <= i < |spaced| ensures NotSpace(spaced[i]) {
      assert spaced[i] == '-' || !InRun(spaced[i], SpaceRun);
    }
    ReplaceRunsPreserves(spaced, HyphenRun, NotSpace);
  }

  /** What survives lower-casing and the first `replace`. */
  predicate LowerKept(c: char) {
    KeptBySlug(c) && !IsUpper(c)
  }

  predicate SlugNotSpace(c: char) {
    IsSlugChar(c) && !IsSpace(c)
  }

  /** Every character of a generated slug is one of `[a-z0-9_-]` and no two hyphens touch. */
  lemma GenerateSlugShape(name: string)
    ensures IsSlugShaped(GenerateSlug(name))
  {
    var stripped := StripDisallowed(Lower(name));
    StrippedLowerKept(name);
    var spaced := ReplaceRuns(stripped, SpaceRun);
    SpacedSlugChars(stripped);
    var hyphened := ReplaceRuns(spaced, HyphenRun);
    HyphenedSlugChars(spaced);
    TrimNoSpace(hyphened);
    HyphenRunsCollapsed(spaced);
  }

  /** Lower-casing and then stripping leaves only kept characters that are not upper case. */
  lemma StrippedLowerKept(name: string)
    ensures forall i :: 0 <= i < |StripDisallowed(Lower(name))| ==> LowerKept(StripDisallowed(Lower(name))[i])
  {
    var lowered := Lower(name);
    assert forall i :: 0 <= i < |lowered| ==> !IsUpper(lowered[i]);
  }

  lemma SpacedSlugChars(stripped: string)
    requires forall i :: 0 <= i < |stripped| ==> LowerKept(stripped[i])
    ensures forall i :: 0 <= i < |ReplaceRuns(stripped, SpaceRun)| ==> SlugNotSpace(ReplaceRuns(stripped, SpaceRun)[i])
  {
    ReplaceRunsPreserves(stripped, SpaceRun, LowerKept);
  }

  lemma HyphenedSlugChars(spaced: string)
    requires forall i :: 0 <= i < |spaced| ==> SlugNotSpace(spaced[i])
    ensures forall i :: 0 <= i < |ReplaceRuns(spaced, HyphenRun)| ==> SlugNotSpace(ReplaceRuns(spaced, HyphenRun)[i])
  {
    ReplaceRunsPreserves(spaced, HyphenRun, SlugNotSpace);
  }

  /** Every stage of `generateSlug` is the identity on a slug-shaped string. */
  lemma GenerateSlugFixesSlugs(s: string)
    requires IsSlugShaped(s)
    ensures GenerateSlug(s) == s
  {
    assert Lower(s) == s;
    FilterAll(s, KeptBySlug);
    ReplaceRunsAbsent(s, SpaceRun);
    ReplaceHyphensSingle(s);
    TrimNoSpace(s);
  }

  /** `generateSlug` is idempotent. */
  lemma GenerateSlugIdempotent(name: string)
    ensures GenerateSlug(GenerateSlug(name)) == GenerateSlug(name)
  {
    GenerateSlugShape(name);
    GenerateSlugFixesSlugs(GenerateSlug(name));
  }

  /** White space at the edges turns into a hyphen before `trim` runs, so a name that
      starts (or ends) with a space yields a slug that starts (or ends) with "-". */
  lemma {:induction false} LeadingSpaceGivesLeadingHyphen(name: string)
    requires |name| > 0 && IsSpace(name[0])
    ensures |GenerateSlug(name)| > 0 && GenerateSlug(name)[0] == '-'
  {
    var lowered := Lower(name);
    assert IsSpace(lowered[0]);
    FilterHead(lowered, KeptBySlug);
    var spaced := ReplaceRuns(StripDisallowed(lowered), SpaceRun);
    assert ReplaceRuns(spaced, HyphenRun)[0] == '-';
    TrimComesTooLate(name);
  }

  lemma {:induction false} TrailingSpaceGivesTrailingHyphen(name: string)
    requires |name| > 0 && IsSpace(name[|name| - 1])
    ensures |GenerateSlug(name)| > 0 && GenerateSlug(name)[|GenerateSlug(name)| - 1] == '-'
  {
    var stripped := StripDisallowed(Lower(name));
    StrippedEndsInSpace(name);
    ReplaceRunsEndsInRun(stripped, SpaceRun);
    ReplaceRunsEndsInRun(ReplaceRuns(stripped, SpaceRun), HyphenRun);
    TrimComesTooLate(name);
  }

  /** The final `trim` finds no white space left. */
  lemma TrimComesTooLate(name: string)
    ensures GenerateSlug(name) == ReplaceRuns(ReplaceRuns(StripDisallowed(Lower(name)), SpaceRun), HyphenRun)
  {
    var stripped := StripDisallowed(Lower(name));
    NoSpaceAfterReplace(stripped);
    TrimNoSpace(ReplaceRuns(ReplaceRuns(stripped, SpaceRun), HyphenRun));
  }

  lemma StrippedEndsInSpace(name: string)
    requires |name| > 0 && IsSpace(name[|name| - 1])
    ensures |StripDisallowed(Lower(name))| > 0
    ensures IsSpace(StripDisallowed(Lower(name))[|StripDisallowed(Lower(name))| - 1])
  {
    var lowered := Lower(name);
    assert IsSpace(lowered[|lowered| - 1]);
    FilterLast(lowered, KeptBySlug);
  }

  /** A string that ends inside a run of the class still ends in '-' once its runs
      are replaced. */
  lemma {:induction false} ReplaceRunsEndsInRun(s: string, cls: RunClass)
    requires |s| > 0 && InRun(s[|s| - 1], cls)
    ensures |ReplaceRuns(s, cls)| > 0 && ReplaceRuns(s, cls)[|ReplaceRuns(s, cls)| - 1] == '-'
    decreases |s|
  {
    var rest := if InRun(s[0], cls) then DropRun(s, cls) else s[1..];
    var head := if InRun(s[0], cls) then "-" else [s[0]];
    var rr := ReplaceRuns(rest, cls);
    assert ReplaceRuns(s, cls) == head + rr;
    if |rest| > 0 {
      assert rest[|rest| - 1] == s[|s| - 1];
      ReplaceRunsEndsInRun(rest, cls);
      assert (head + rr)[|head| + |rr| - 1] == rr[|rr| - 1];
    }
  }

  /** The example " Rose Serum " keeps its edge hyphens. */
  lemma RoseSerumSlug()
    ensures var r := GenerateSlug(" Rose Serum "); |r| > 0 && r[0] == '-' && r[|r| - 1] == '-'
  {
    LeadingSpaceGivesLeadingHyphen(" Rose Serum ");
    TrailingSpaceGivesTrailingHyphen(" Rose Serum ");
  }
}

=== FILE: text.dfy ===
/** The JavaScript string primitives the storefront relies on: the `\s` character
    class, `trim`, ASCII `toLowerCase`, `startsWith`, `includes` and `join`. */
module Text {

  /** ECMAScript WhiteSpace and LineTerminator code points: what `\s` matches and `trim` removes. */
  predicate IsSpace(c: char) {
    || c == ' ' || c == '\t' || c == '\n' || c == '\r'
    || c == '\U{000B}' || c == '\U{000C}' || c == '\U{00A0}' || c == '\U{1680}'
    || ('\U{2000}' <= c <= '\U{200A}')
    || c == '\U{2028}' || c == '\U{2029}' || c == '\U{202F}' || c == '\U{205F}'
    || c == '\U{3000}' || c == '\U{FEFF}'
  }

  predicate IsDigit(c: char) {
    '0' <= c <= '9'
  }

  function DigitChar(d: nat): (c: char)
    requires d < 10
    ensures IsDigit(c) && DigitValue(c) == d
  {
    ('0' as int + d) as char
  }

  function DigitValue(c: char): int {
    c as int - '0' as int
  }

  /** `n.toString()` for a natural number: its decimal digits, without leading zeros. */
  function DecimalString(n: nat): (r: string)
    ensures 1 <= |r|
    ensures forall i :: 0 <= i < |r| ==> IsDigit(r[i])
    ensures n < 10 ==> |r| == 1
    ensures 10 <= n < 100 ==> |r| == 2
    ensures 100 <= n < 1000 ==> |r| == 3
  {
    if n < 10 then [DigitChar(n)] else DecimalString(n / 10) + [DigitChar(n % 10)]
  }

  /** `s.padStart(width, c)` with a one-character pad. */
  function PadStart(s: string, width: nat, c: char): (r: string)
    ensures |r| == if |s| < width then width else |s|
    ensures r[|r| - |s|..] == s
    ensures forall i :: 0 <= i < |r| - |s| ==> r[i] == c
  {
    if |s| < width then seq(width - |s|, _ => c) + s else s
  }

  predicate IsUpper(c: char) {
    'A' <= c <= 'Z'
  }

  predicate IsLowerLetter(c: char) {
    'a' <= c <= 'z'
  }

  function LowerChar(c: char): (r: char)
    ensures !IsUpper(r)
    ensures !IsUpper(c) ==> r == c
    ensures IsSpace(r) <==> IsSpace(c)
  {
    if IsUpper(c) then (c as int + 32) as char else c
  }

  /** `s.toLowerCase()` on the ASCII range. */
  function Lower(s: string): (r: string)
    ensures |r| == |s|
    ensures forall i :: 0 <= i < |s| ==> r[i] == LowerChar(s[i])
  {
    seq(|s|, i requires 0 <= i < |s| => LowerChar(s[i]))
  }

  lemma LowerIdempotent(s: string)
    ensures Lower(Lower(s)) == Lower(s)
  {
  }

  predicate StartsWith(s: string, prefix: string) {
    |prefix| <= |s| && s[..|prefix|] == prefix
  }

  /** `haystack.includes(needle)`. */
  predicate Contains(haystack: string, needle: string) {
    exists i | 0 <= i <= |haystack| :: StartsWith(haystack[i..], needle)
  }

  lemma ContainsEmpty(haystack: string)
    ensures Contains(haystack, "")
  {
    assert StartsWith(haystack[0..], "");
  }

  lemma ContainsSelf(s: string)
    ensures Contains(s, s)
  {
    assert s[0..] == s;
    assert StartsWith(s[0..], s);
  }

  /** A match that is not at the front lies in the tail. */
  lemma ContainsTail(haystack: string, needle: string)
    requires Contains(haystack, needle) && !StartsWith(haystack, needle)
    ensures |haystack| > 0 && Contains(haystack[1..], needle)
  {
    var i :| 0 <= i <= |haystack| && StartsWith(haystack[i..], needle);
    assert haystack[0..] == haystack;
    assert haystack[1..][i - 1..] == haystack[i..];
  }

  /** A string holding a non-empty needle holds its first character. */
  lemma ContainsFirstChar(haystack: string, needle: string)
    requires Contains(haystack, needle) && |needle| > 0
    ensures needle[0] in haystack
  {
    var i :| 0 <= i <= |haystack| && StartsWith(haystack[i..], needle);
    assert haystack[i] == haystack[i..][..|needle|][0];
  }

  /** A needle that does not match at the front, and whose first character does not
      occur later, does not occur at all. */
  lemma NotContained(haystack: string, needle: string)
    requires |needle| > 0 && !StartsWith(haystack, needle)
    requires |haystack| > 0 ==> needle[0] !in haystack[1..]
    ensures !Contains(haystack, needle)
  {
    if Contains(haystack, needle) {
      ContainsTail(haystack, needle);
      ContainsFirstChar(haystack[1..], needle);
    }
  }

  function TrimStart(s: string): (r: string)
    ensures |r| <= |s| && r == s[|s| - |r|..]
    ensures |r| > 0 ==> !IsSpace(r[0])
    ensures forall i :: 0 <= i < |s| - |r| ==> IsSpace(s[i])
  {
    if |s| > 0 && IsSpace(s[0]) then TrimStart(s[1..]) else s
  }

  function TrimEnd(s: string): (r: string)
    ensures |r| <= |s| && r == s[..|r|]
    ensures |r| > 0 ==> !IsSpace(r[|r| - 1])
    ensures forall i :: |r| <= i < |s| ==> IsSpace(s[i])
  {
    if |s| > 0 && IsSpace(s[|s| - 1]) then TrimEnd(s[..|s| - 1]) else s
  }

  /** `s.trim()`. */
  function Trim(s: string): (r: string)
    ensures |r| <= |s|
  {
    TrimEnd(TrimStart(s))
  }

  /** Whether every character is white space, i.e. `!s.trim()` holds. */
  predicate IsBlank(s: string) {
    forall i :: 0 <= i < |s| ==> IsSpace(s[i])
  }

  /** `trim` removes exactly the white space at both ends: the result is an infix of
      the input, bounded by non-space characters, and everything cut off is space. */
  lemma TrimSpec(s: string)
    ensures exists a, b :: 0 <= a <= b <= |s| && Trim(s) == s[a..b]
              && (forall i :: 0 <= i < a ==> IsSpace(s[i]))
              && (forall i :: b <= i < |s| ==> IsSpace(s[i]))
    ensures |Trim(s)| > 0 ==> !IsSpace(Trim(s)[0]) && !IsSpace(Trim(s)[|Trim(s)| - 1])
  {
    var a := |s| - |TrimStart(s)|;
    TrimEndOfSuffix(s, a);
    var b := a + |TrimEnd(s[a..])|;
    assert Trim(s) == s[a..b];
    assert forall i :: 0 <= i < a ==> IsSpace(s[i]);
    TrimBounds(s);
  }

  lemma TrimBounds(s: string)
    ensures |Trim(s)| > 0 ==> !IsSpace(Trim(s)[0]) && !IsSpace(Trim(s)[|Trim(s)| - 1])
  {
    var t := TrimStart(s);
    if |Trim(s)| > 0 {
      assert Trim(s)[0] == t[0];
    }
  }

  /** Trimming the end of a suffix of `s` leaves an infix of `s` followed by space. */
  lemma TrimEndOfSuffix(s: string, a: nat)
    requires a <= |s|
    ensures TrimEnd(s[a..]) == s[a..a + |TrimEnd(s[a..])|]
    ensures forall i :: a + |TrimEnd(s[a..])| <= i < |s| ==> IsSpace(s[i])
  {
    var t := s[a..];
    forall i | a + |TrimEnd(t)| <= i < |s| ensures IsSpace(s[i]) {
      assert s[i] == t[i - a];
    }
  }

  /** A string trims to "" exactly when it is blank. */
  lemma TrimEmptyIffBlank(s: string)
    ensures Trim(s) == "" <==> IsBlank(s)
  {
    TrimSpec(s);
  }

  /** A string with no white space trims to itself. */
  lemma TrimNoSpace(s: string)
    requires forall i :: 0 <= i < |s| ==> !IsSpace(s[i])
    ensures Trim(s) == s
  {
  }

  /** `parts.join(sep)`. */
  function Join(parts: seq<string>, sep: string): (r: string)
    ensures |parts| == 1 ==> r == parts[0]
  {
    if |parts| == 0 then ""
    else if |parts| == 1 then parts[0]
    else parts[0] + sep + Join(parts[1..], sep)
  }

  function CountChar(s: string, c: char): (n: nat)
    ensures n <= |s|
  {
    if |s| == 0 then 0 else (if s[0] == c then 1 else 0) + CountChar(s[1..], c)
  }

  lemma {:induction false} CountCharAppend(a: string, b: string, c: char)
    ensures CountChar(a + b, c) == CountChar(a, c) + CountChar(b, c)
  {
    if |a| == 0 {
      assert a + b == b;
    } else {
      assert (a + b)[0] == a[0];
      assert (a + b)[1..] == a[1..] + b;
      CountCharAppend(a[1..], b, c);
    }
  }

  lemma {:induction false} CountCharAbsent(s: string, c: char)
    requires forall i :: 0 <= i < |s| ==> s[i] != c
    ensures CountChar(s, c) == 0
  {
    if |s| > 0 {
      CountCharAbsent(s[1..], c);
    }
  }

  /** Joining `n` parts that do not contain `c` with the one-character separator `c`
      puts exactly `n - 1` copies of `c` in the result. */
  lemma {:induction false} JoinCountsSeparators(parts: seq<string>, c: char)
    requires |parts| > 0
    requires forall i :: 0 <= i < |parts| ==> CountChar(parts[i], c) == 0
    ensures CountChar(Join(parts, [c]), c) == |parts| - 1
  {
    if |parts| > 1 {
      JoinCountsSeparators(parts[1..], c);
      CountCharAppend(parts[0], [c], c);
      CountCharAppend(parts[0] + [c], Join(parts[1..], [c]), c);
    }
  }
}
